=== FILE: README.md ===
# DXAudio core in Dafny

DXAudio is a small Windows audio library. An application asks the
`DXAudioCreateStream` entry point for a stream of one of five types:
output, input, loopback, duplex or echo. Every stream owns six auto-reset
events and one thread. The thread waits on the events and dispatches to the
variant's hooks (`ImplInitialize`, `ImplStart`, `ImplStop`,
`ImplDeviceChange`, `ImplPropertyChange`, `ImplProcess`). The hooks drive
two bindings to the Windows audio client: `ClientReader` captures one
device period and resamples it to the application's rate, and
`ClientWriter` resamples application frames to one device period and
renders them. Both keep channels 0 and 1 of the device's mix format and
skip or silence the rest.

The model is imperative where the source is:

- the bindings, the shared stream base and the variants are classes whose
  methods update their fields and are proved against specification
  functions;
- the thread loop is a `while` loop with invariants;
- the factory, a pure dispatch, is a function returning a code and what
  it leaves in the caller's output parameter.

Windows and the resampler are replaced by replies passed in as parameters
(`Platform.Replies` and friends). Each binding logs the platform calls it
issues in a ghost `calls` sequence, so contracts can state call order. A
dereference of a null interface in the source (a hook that runs on a binding that
never opened a client, say) sets a `faulted` flag, and the binding call returns
`Results.EPointer`. The stream thread checks the flag only between hooks: it stops
before the next wait, but the rest of the faulting hook still runs in the model.

Files, bottom up:

- `results.dfy`: HRESULTs, `FAILED`, the `CHECK_HR` chain.
- `samples.dfy`: the wave format, sample scaling, stereo (de)interleaving, period arithmetic.
- `platform.dfy`: events, devices, calls and replies.
- `callbacks.dfy`: the application's callback object.
- `engine.dfy`: `CDXAudioStream`, the shared base.
- `client_reader.dfy` and `client_writer.dfy`: the two bindings.
- `output_stream.dfy`, `input_stream.dfy`, `duplex_stream.dfy` and `paired_stream.dfy`: the variants. The loopback and echo classes share `paired_stream.dfy`.
- `thread.dfy`: the stream thread.
- `factory.dfy`: `DXAudioCreateStream`.

## Model

| member | source | states |
|---|---|---|
| Results.FromWin32 | DXAudio/CDXAudioStream.cpp:26 | HRESULT_FROM_WIN32: 0 maps to S_OK; a small Win32 code becomes a failure code carrying it in its low 16 bits; a value that is already an HRESULT passes through |
| Results.FirstFailure | DXAudio/CDXAudioStream.cpp:28 | the index at which a CHECK_HR chain stops is the first failing step, and the chain runs to the end iff no step fails |
| Results.StopsOnlyAt | DXAudio/CDXAudioStream.cpp:28 | a chain stops at exactly one step: any step that fails with all earlier steps succeeding is the first failure |
| Results.Chain | DXAudio/CDXAudioStream.cpp:28 | a CHECK_HR chain reports S_OK iff no step fails and then runs every step; otherwise it reports the first failing step's code, and that step is the last one run |
| Samples.KindOf | DXAudio/ClientReader.cpp:142-180 | the sample-format branch: float iff not PCM; 16-bit chosen on the valid bits; 24-bit on the container size; any other PCM is 32-bit |
| Samples.ScaleRoundTrip | DXAudio/ClientWriter.cpp:157-203 | the write scaling and the read scaling of each sample kind are exact inverses over the reals |
| Samples.Deinterleave | DXAudio/ClientReader.cpp:142-180 | reading `frames` frames yields exactly 2 x frames stereo samples |
| Samples.Interleave | DXAudio/ClientWriter.cpp:157-203 | writing `frames` stereo frames fills exactly frames x channels native slots |
| Samples.DeinterleaveAt | DXAudio/ClientReader.cpp:142-180 | stereo sample 2f+c read is channel c of native frame f, scaled, for c in {0, 1} |
| Samples.DeinterleaveIgnoresExcess | DXAudio/ClientReader.cpp:150 | the excess channels of a captured frame never influence what is read |
| Samples.InterleaveAt | DXAudio/ClientWriter.cpp:157-203 | slot c of written frame f holds stereo sample 2f+c, scaled, for c < 2, and 0 for every c from 2 to channels-1 |
| Samples.ExcessChannelsSilent | DXAudio/ClientWriter.cpp:166 | every excess-channel slot of every written frame is exact silence |
| Samples.FormatRoundTrip | DXAudio/ClientWriter.cpp:157-203 | writing a stereo buffer in any native layout and reading it back gives the same stereo buffer |
| Samples.CeilDiv | DXAudio/ClientReader.cpp:96 | the integer ceiling of a / b: the least r with r x b >= a |
| Samples.PeriodFramesOf | DXAudio/ClientReader.cpp:96 | frames per device period: the least r with r x 10,000,000 >= period x rate |
| Samples.Ceil | DXAudio/CDXAudioInputStream.cpp:174 | C's ceil: the least integer not below x |
| Samples.CeilShift | DXAudio/CDXAudioOutputStream.cpp:126-141 | the ceiling commutes with an integer shift of its argument |
| Samples.Quotient | DXAudio/ClientReader.cpp:98 | the ratio of two rates: q x b == a for a non-zero divisor, over exact reals (double rounding is listed under Left out) |
| Samples.ToUint32 | DXAudio/CDXAudioInputStream.cpp:174 | a UINT conversion always gives a value below 2^32, and it leaves a value that fits unchanged |
| Samples.PeriodCapacityCovers | DXAudio/CDXAudioInputStream.cpp:174 | when the product fits a UINT, the capture buffer holds the whole resampled period and less than one frame more |
| Callbacks.Callback.OnObjectFailure | DXAudio/DXAudio.h:29 | the application is told exactly one failure code, appended to what it was told before |
| Callbacks.Callback.ProcessIn | DXAudio/CDXAudioInputStream.cpp:185-189 | the read callback gets the captured frames and their count, and nothing else happens |
| Callbacks.Callback.ProcessOut | DXAudio/CDXAudioOutputStream.cpp:130-134 | the write callback is asked for `frames` frames and fills a buffer of exactly 2 x frames samples |
| Callbacks.Callback.ProcessInOut | DXAudio/CDXAudioDuplexStream.cpp:268-273 | the read-write callback gets the captured frames and fills an output buffer of as many frames |
| Engine.IndexOf | DXAudio/CDXAudioStream.cpp:93-100 | each event's slot in the wait array is the one it occupies there |
| Engine.OrderIsInjective | DXAudio/CDXAudioStream.cpp:93-100 | no two slots of the wait array hold the same event |
| Engine.WaitEventIsProcessSlot | DXAudio/CDXAudioStream.h:34-36 | the handle GetWaitEvent hands out is the one the loop waits on at index 4, the processing slot |
| Engine.FirstUncreated | DXAudio/CDXAudioStream.cpp:58-63 | the first event, in creation order, whose creation fails; every earlier one was created |
| Engine.LowestFrom | DXAudio/CDXAudioStream.cpp:143-149 | the lowest signalled slot from a given index on |
| Engine.LowestIsLeastSignalled | DXAudio/CDXAudioStream.cpp:143-149 | the wait finds an event iff one is signalled, and the one it reports is signalled with no lower slot signalled |
| Engine.Dispatch | DXAudio/CDXAudioStream.cpp:151-180 | the loop's switch, as iffs: index 0 runs ImplStart, 1 ImplStop, 2 ImplDeviceChange, 3 ImplPropertyChange, 4 ImplProcess, 5 closes the loop, anything else is an error |
| Engine.StreamEngine.Initialize | DXAudio/CDXAudioStream.cpp:57-81 | the events are created in the order start, stop, device change, property change, wait, halt; the first failed creation returns HRESULT_FROM_WIN32 of its error with no later event and no thread; a failed thread creation returns its error; otherwise S_OK with all six events and the thread |
| Engine.StreamEngine.Raise | DXAudio/CDXAudioStream.cpp:26 | SetEvent on an auto-reset event: the event becomes signalled, a second signal before the wait changes nothing, and no other state changes |
| Engine.StreamEngine.Start | DXAudio/CDXAudioStream.h:85-87 | Start only signals the start event |
| Engine.StreamEngine.Stop | DXAudio/CDXAudioStream.h:89-91 | Stop only signals the stop event |
| Engine.StreamEngine.Halt | DXAudio/CDXAudioStream.h:38-40 | Halt only signals the halt event |
| Engine.StreamEngine.OnDefaultDeviceChanged | DXAudio/CDXAudioStream.h:99-101 | a default-device notification only signals the device-change event and touches no binding |
| Engine.StreamEngine.OnPropertyValueChanged | DXAudio/CDXAudioStream.h:103-105 | a property notification only signals the property-change event and touches no binding |
| Engine.StreamEngine.GetSampleRate | DXAudio/CDXAudioStream.h:93-95 | the stored application rate |
| Engine.StreamEngine.Wait | DXAudio/CDXAudioStream.cpp:143-149 | a failed wait consumes nothing; with nothing signalled the thread stays blocked; otherwise the wait reports the lowest signalled slot and clears exactly that event |
| Reader.FlagsAsWritten | DXAudio/ClientReader.cpp:78-79 | the stream flags as the conditional expression groups them: event callback iff a wait event is given; loopback only when no wait event is given |
| Reader.LoopbackDroppedWithWaitEvent | DXAudio/ClientReader.cpp:78-79 | with both a wait event and the loopback flag, the expression as written drops the loopback flag, while the intended flags keep both |
| Reader.Flags | DXAudio/ClientReader.cpp:78-79 | the intended flags: each set iff requested |
| Reader.FlagsAgreeForCallers | DXAudio/CDXAudioInputStream.cpp:194-204 | whenever a wait event and loopback are not both requested, the flags as written are the intended ones. The four call sites are this one, DXAudio/CDXAudioDuplexStream.cpp:283-293, DXAudio/CDXAudioLoopbackStream.cpp:163-170 and DXAudio/CDXAudioEchoStream.cpp:162-169; each passes either the wait event without loopback or loopback without an event, so every stream's reader gets the intended flags |
| Reader.InitIssuedIsPrefix | DXAudio/ClientReader.cpp:45-101 | the calls Initialize issues are its planned calls up to and including the step where its chain stops, and none after it |
| Reader.InitOutcomeIsChain | DXAudio/ClientReader.cpp:45-101 | Initialize's code is the CHECK_HR chain over resampler creation, Activate, GetDevicePeriod, GetMixFormat, the client's Initialize, GetService and, with a wait event, SetEventHandle |
| Reader.DeinterleaveInto | DXAudio/ClientReader.cpp:142-180 | the two-cursor copy loop leaves the local buffer holding exactly the de-interleaved stereo frames, and nothing past them changes |
| Reader.ClientReader.constructor | DXAudio/ClientReader.cpp:28-31 | a new reader is clean: no handle, zero ratio, period and frames |
| Reader.ClientReader.Initialize | DXAudio/ClientReader.cpp:45-101 | the code is the chain's code and the issued calls are its prefix; the client is initialized with a two-period buffer and the flags as the source's expression groups them (`Reader.FlagsAsWritten`); on success the reader is bound, the period frames are ceil(period x rate / 10^7) and the ratio is application rate / native rate; on failure the ratio and period frames are unchanged |
| Reader.ClientReader.OpenClient | DXAudio/ClientReader.cpp:60-74 | Activate, GetDevicePeriod and GetMixFormat run as a chain, and the client, period and format are kept on success |
| Reader.ClientReader.ConnectClient | DXAudio/ClientReader.cpp:76-94 | the client's Initialize, with the flags as written, then GetService and, with a wait event, SetEventHandle run as a chain |
| Reader.ClientReader.Clean | DXAudio/ClientReader.cpp:103-113 | every handle is released and every derived field zeroed, whatever the prior state, so Clean is idempotent |
| Reader.ClientReader.Start | DXAudio/ClientReader.cpp:115-117 | the client's Start code is returned unchanged; without a client the call faults |
| Reader.ClientReader.Stop | DXAudio/ClientReader.cpp:119-121 | the client's Stop code is returned unchanged; without a client the call faults |
| Reader.ClientReader.VerifyClient | DXAudio/ClientReader.cpp:211-215 | GetBufferSize's code is returned unchanged; without a client the call faults |
| Reader.ClientReader.ReadFrames | DXAudio/ClientReader.cpp:197-202 | Read never reports more frames than the buffer it was given holds |
| Reader.ClientReader.Read | DXAudio/ClientReader.cpp:123-209 | a failed GetBuffer returns its code with nothing written; otherwise the packet's channels 0 and 1 of each frame are de-interleaved, ReleaseBuffer gets exactly the captured frame count, and its failure is returned; then one period is resampled into the buffer with capacity bufferLength, and the frames read are those generated (at most the capacity), written to the buffer; a resampler error returns E_FAIL; a packet larger than one period overruns the stack buffer (faulted) |
| Writer.InitIssuedIsPrefix | DXAudio/ClientWriter.cpp:23-88 | the calls Initialize issues are its planned calls up to and including the step where its chain stops |
| Writer.InitOutcomeIsChain | DXAudio/ClientWriter.cpp:23-88 | Initialize's code is the CHECK_HR chain over resampler creation, Activate, GetDevicePeriod, GetMixFormat, Initialize, GetService, SetEventHandle (with a wait event) and the priming GetBuffer/ReleaseBuffer |
| Writer.RenderData | DXAudio/ClientWriter.cpp:157-203 | the native data for `frames` frames fills exactly frames x channels slots |
| Writer.SubmitIsChain | DXAudio/ClientWriter.cpp:144-212 | the render submission is a two-step chain of GetBuffer and ReleaseBuffer, except that AUDCLNT_E_BUFFER_TOO_LARGE ends it with S_OK and nothing released |
| Writer.Submit | DXAudio/ClientWriter.cpp:144-212 | the code and the calls of a render submission, with the released data the interleaved frames |
| Writer.InterleaveFrame | DXAudio/ClientWriter.cpp:159-168 | one frame of the fill: its two scaled samples, then its excess channels zeroed; no slot outside the frame changes |
| Writer.InterleaveInto | DXAudio/ClientWriter.cpp:157-203 | the fill loop writes exactly the interleaved frames (two scaled samples, then zeroed excess channels, per frame) and nothing beyond them |
| Writer.ClientWriter.constructor | DXAudio/ClientWriter.cpp:6-9 | a new writer is clean |
| Writer.ClientWriter.Initialize | DXAudio/ClientWriter.cpp:23-88 | the code is the chain's code and the issued calls are its prefix; the client has a four-period buffer and the event-callback flag iff a wait event is given; the endpoint is primed with two periods of silence; the ratio (native rate / application rate) is set only on success |
| Writer.ClientWriter.OpenClient | DXAudio/ClientWriter.cpp:38-52 | Activate, GetDevicePeriod and GetMixFormat run as a chain |
| Writer.ClientWriter.ConnectClient | DXAudio/ClientWriter.cpp:54-71 | the client's Initialize, GetService and, with a wait event, SetEventHandle run as a chain |
| Writer.ClientWriter.Prime | DXAudio/ClientWriter.cpp:75-83 | two periods of the render buffer are acquired and released with the silent flag; the first failure is returned |
| Writer.ClientWriter.Clean | DXAudio/ClientWriter.cpp:90-100 | every handle is released and every derived field zeroed, whatever the prior state |
| Writer.ClientWriter.Start | DXAudio/ClientWriter.cpp:102-104 | the client's Start code is returned unchanged; without a client the call faults |
| Writer.ClientWriter.Stop | DXAudio/ClientWriter.cpp:106-108 | the client's Stop code is returned unchanged; without a client the call faults |
| Writer.ClientWriter.VerifyClient | DXAudio/ClientWriter.cpp:215-219 | GetBufferSize's code is returned unchanged; without a client the call faults |
| Writer.ClientWriter.Write | DXAudio/ClientWriter.cpp:110-213 | the resampler gets bufferLength input frames with an output capacity of one period, so at most one period is submitted; a resampler error returns E_FAIL and no buffer is acquired; zero frames from non-empty input returns E_ACCESSDENIED; otherwise the submission's code and calls, with ReleaseBuffer given exactly the generated frames and flags 0 |
| Output.Demand | DXAudio/CDXAudioOutputStream.cpp:126-127 | one tick asks for the accumulator plus the period's demand, rounded up: at least that much and less than one frame more |
| Output.AccumulatorStaysInRange | DXAudio/CDXAudioOutputStream.cpp:126-141 | after a tick whose write succeeds the accumulator lies in (-1, 0], from any starting value |
| Output.Conservation | DXAudio/CDXAudioOutputStream.cpp:126-141 | after n successful ticks from 0 the application has been asked for exactly ceil(n x demand) frames, and the accumulator holds the exact total minus the requested total, over exact reals (double rounding is listed under Left out) |
| Output.InitCode | DXAudio/CDXAudioOutputStream.cpp:22-38 | Initialize succeeds iff the callback has the write interface and the base Initialize succeeds; without the interface E_INVALIDARG; a base failure reads as E_FAIL |
| Output.OutputStream.constructor | DXAudio/CDXAudioOutputStream.cpp:6-10 | a new stream has no device, a zero accumulator, and is not running |
| Output.OutputStream.Initialize | DXAudio/CDXAudioOutputStream.cpp:22-38 | the code is InitCode's; without the write interface no event or thread is created; otherwise the rate is stored before the base Initialize |
| Output.OutputStream.HandleHR | DXAudio/CDXAudioOutputStream.cpp:152-166 | S_OK passes with nothing changed; any code other than S_OK and a device invalidation is reported to the application once and halts the stream; a device invalidation reports E_FAIL and runs the property-change hook, with no failure callback of its own. That hook first probes the writer (GetBufferSize). A healthy writer leaves everything else unchanged. Any other probe failure is reported and halts the stream. An invalidated writer is rebuilt in place, bound again and restarted iff running, with the accumulator reset. The writer's call log only grows |
| Output.OutputStream.InitClientWriter | DXAudio/CDXAudioOutputStream.cpp:144-150 | the writer is initialized on the stream's device with the wait event and its code routed through HandleHR; with no device the call faults |
| Output.OutputStream.ImplInitialize | DXAudio/CDXAudioOutputStream.cpp:40-54 | the default render endpoint and its id become the stream's device before the writer is initialized; a failed endpoint query goes to HandleHR |
| Output.OutputStream.Rebuild | DXAudio/CDXAudioOutputStream.cpp:107-122 | the writer is cleaned and initialized again, and restarted iff the stream is running |
| Output.OutputStream.ImplPropertyChange | DXAudio/CDXAudioOutputStream.cpp:107-122 | the writer is probed; on invalidation it is rebuilt in place (and restarted iff running); any other failure goes to HandleHR; the device and running flag never change |
| Output.OutputStream.ImplStart | DXAudio/CDXAudioOutputStream.cpp:56-60 | the running flag is set first, then the writer is started, its code routed through HandleHR |
| Output.OutputStream.ImplStop | DXAudio/CDXAudioOutputStream.cpp:62-66 | the running flag is cleared first, then the writer is stopped, its code routed through HandleHR |
| Output.OutputStream.ImplDeviceChange | DXAudio/CDXAudioOutputStream.cpp:68-105 | an unchanged endpoint id changes nothing; a new id cleans the writer, adopts the device and id, reinitializes and restarts iff running; a failed query goes to HandleHR |
| Output.OutputStream.ImplProcess | DXAudio/CDXAudioOutputStream.cpp:124-142 | the application is asked for ceil(accumulator + period frames / ratio) frames; the writer gets exactly those frames; on success the accumulator keeps the over-request, negated; a fatal write code is reported and halts the stream |
| Input.InitCode | DXAudio/CDXAudioInputStream.cpp:48-74 | Initialize succeeds iff the callback has the read interface and the base Initialize succeeds; without the interface E_FAIL; a base failure is returned as-is |
| Input.InputStream.constructor | DXAudio/CDXAudioInputStream.cpp:31-36 | a new stream has no device and is not running |
| Input.InputStream.Initialize | DXAudio/CDXAudioInputStream.cpp:48-74 | the code is InitCode's; without the read interface the application is told E_INVALIDARG, and no event or thread is created |
| Input.InputStream.HandleHR | DXAudio/CDXAudioInputStream.cpp:207-221 | S_OK passes; invalidation returns E_FAIL with no halt and no callback; any other code is reported to the application and then halts the stream |
| Input.InputStream.InitClientReader | DXAudio/CDXAudioInputStream.cpp:194-204 | the reader is initialized without loopback, with the wait event, on the stream's device; a failure other than invalidation halts the stream without calling back |
| Input.InputStream.ImplInitialize | DXAudio/CDXAudioInputStream.cpp:76-93 | the default capture endpoint and its id become the stream's device before the reader is initialized |
| Input.InputStream.ImplStart | DXAudio/CDXAudioInputStream.cpp:96-100 | the running flag is set first, then the reader is started; its code is not looked at |
| Input.InputStream.ImplStop | DXAudio/CDXAudioInputStream.cpp:102-105 | the running flag is cleared first, then the reader is stopped; its code is not looked at |
| Input.InputStream.Rebuild | DXAudio/CDXAudioInputStream.cpp:125-148 | the reader is cleaned, initialized again and restarted iff running |
| Input.InputStream.ImplDeviceChange | DXAudio/CDXAudioInputStream.cpp:107-149 | an equal id causes no Clean and no reinit; a different id causes Clean, adoption of the device and id, reinit, and Start iff running |
| Input.InputStream.ImplPropertyChange | DXAudio/CDXAudioInputStream.cpp:151-166 | invalidation reported by the probe causes Clean, reinit and restart iff running; any other code goes to HandleHR |
| Input.InputStream.ImplProcess | DXAudio/CDXAudioInputStream.cpp:168-191 | the read capacity is ceil(period frames x ratio); the callback always receives exactly the frames read; the read's code is not checked |
| Duplex.InitCode | DXAudio/CDXAudioDuplexStream.cpp:55-81 | Initialize succeeds iff the callback has the read-write interface and the base Initialize succeeds; every failure reads as E_FAIL |
| Duplex.DuplexStream.constructor | DXAudio/CDXAudioDuplexStream.cpp:31-38 | a new stream has no devices and is not running |
| Duplex.DuplexStream.Initialize | DXAudio/CDXAudioDuplexStream.cpp:55-81 | the code is InitCode's; without the read-write interface the application is told E_INVALIDARG |
| Duplex.DuplexStream.HandleHR | DXAudio/CDXAudioDuplexStream.cpp:308-322 | S_OK passes; invalidation returns E_FAIL with no halt; any other code calls back with the failure and halts |
| Duplex.DuplexStream.InitClientReader | DXAudio/CDXAudioDuplexStream.cpp:283-293 | the reader binds the input device with the wait event; a failure other than invalidation halts |
| Duplex.DuplexStream.InitClientWriter | DXAudio/CDXAudioDuplexStream.cpp:296-305 | the writer binds the output device with no wait event; a failure other than invalidation halts |
| Duplex.DuplexStream.ImplInitialize | DXAudio/CDXAudioDuplexStream.cpp:83-115 | the default capture device becomes the input device and the reader is bound to it, then the default render device becomes the output device and the writer is bound to it |
| Duplex.DuplexStream.ImplStart | DXAudio/CDXAudioDuplexStream.cpp:118-122 | the running flag is set, then the reader is started, then the writer |
| Duplex.DuplexStream.ImplStop | DXAudio/CDXAudioDuplexStream.cpp:125-129 | the running flag is cleared, then the reader is stopped, then the writer |
| Duplex.DuplexStream.FollowRender | DXAudio/CDXAudioDuplexStream.cpp:136-176 | the render role: an unchanged id leaves the writer and output device untouched; a new id cleans and rebinds the writer only, restarted iff running; the capture side is never touched |
| Duplex.DuplexStream.FollowCapture | DXAudio/CDXAudioDuplexStream.cpp:178-214 | the capture role: an unchanged id leaves the reader and input device untouched; a new id cleans and rebinds the reader only, restarted iff running |
| Duplex.DuplexStream.ImplDeviceChange | DXAudio/CDXAudioDuplexStream.cpp:131-215 | the render role is checked first, then the capture role; each changed role rebinds only its own binding |
| Duplex.DuplexStream.RefreshWriter | DXAudio/CDXAudioDuplexStream.cpp:217-232 | the writer is probed; on invalidation it is rebuilt in place; any other failure goes to HandleHR and ends the hook |
| Duplex.DuplexStream.RefreshReader | DXAudio/CDXAudioDuplexStream.cpp:233-245 | the reader is probed; on invalidation it is rebuilt in place; any other code goes to HandleHR |
| Duplex.DuplexStream.ImplPropertyChange | DXAudio/CDXAudioDuplexStream.cpp:217-245 | the writer is checked first, then the reader; a non-invalidation failure on the writer halts and skips the reader check; each binding whose own probe reports invalidation is rebuilt in place and restarted iff running, whether the other binding is healthy or invalidated too, while a healthy binding only sees its probe |
| Duplex.DuplexStream.ImplProcess | DXAudio/CDXAudioDuplexStream.cpp:247-280 | the output buffer holds exactly the frames read; the callback and the writer both get that many frames; no code is checked |
| Paired.Required | DXAudio/CDXAudioEchoStream.cpp:21-37 | the loopback class asks for the read interface, the echo class for the read-write interface |
| Paired.Rendered | DXAudio/CDXAudioLoopbackStream.cpp:141-161 | what a period renders is exactly as many frames as were captured: all-zero for the loopback stream, the callback's output for the echo stream |
| Paired.Handed | DXAudio/CDXAudioEchoStream.cpp:141-160 | the application gets the captured frames and their count through the read callback (loopback) or the read-write callback (echo) |
| Paired.InitCode | DXAudio/CDXAudioLoopbackStream.cpp:21-37 | Initialize succeeds iff the callback has the class's interface and the base Initialize succeeds; without it E_INVALIDARG; a base failure reads as E_FAIL |
| Paired.PairedStream.constructor | DXAudio/CDXAudioLoopbackStream.cpp:6-9 | a new stream has no device and is not running |
| Paired.PairedStream.Initialize | DXAudio/CDXAudioLoopbackStream.cpp:21-37 | the code is InitCode's; without the interface no event or thread is created |
| Paired.PairedStream.HandleHR | DXAudio/CDXAudioLoopbackStream.cpp:180-193 | S_OK passes; invalidation returns E_FAIL with no callback; any other failure calls back once, then halts |
| Paired.PairedStream.InitClientReader | DXAudio/CDXAudioLoopbackStream.cpp:163-170 | the reader is bound in loopback mode, with no wait event, on the stream's render device; its code goes to HandleHR |
| Paired.PairedStream.InitClientWriter | DXAudio/CDXAudioLoopbackStream.cpp:172-178 | the writer is bound with the wait event on the same device; its code goes to HandleHR |
| Paired.PairedStream.ImplInitialize | DXAudio/CDXAudioLoopbackStream.cpp:39-55 | the default render device and its id become the stream's device, and both bindings are initialized on it |
| Paired.PairedStream.ImplStart | DXAudio/CDXAudioLoopbackStream.cpp:57-63 | the running flag is set, then the reader is started, then the writer; the first failure goes to HandleHR and ends the hook |
| Paired.PairedStream.ImplStop | DXAudio/CDXAudioLoopbackStream.cpp:65-71 | the running flag is cleared, then the reader is stopped, then the writer; the first failure goes to HandleHR and ends the hook |
| Paired.PairedStream.Rebuild | DXAudio/CDXAudioLoopbackStream.cpp:88-112 | both bindings are cleaned and reinitialized on the new device and restarted iff running |
| Paired.PairedStream.ImplDeviceChange | DXAudio/CDXAudioLoopbackStream.cpp:73-113 | an equal id leaves both bindings untouched; a new id is adopted and both bindings are rebuilt on it |
| Paired.PairedStream.RefreshWriter | DXAudio/CDXAudioLoopbackStream.cpp:115-127 | the writer is rebuilt in place iff its probe reports invalidation; any other failure goes to HandleHR |
| Paired.PairedStream.RefreshReader | DXAudio/CDXAudioLoopbackStream.cpp:128-139 | the reader is rebuilt in place iff its own probe reports invalidation |
| Paired.PairedStream.ImplPropertyChange | DXAudio/CDXAudioEchoStream.cpp:115-139 | the writer is probed first, then the reader; a fatal writer code is reported, halts and skips the reader; each binding whose own probe reports invalidation is rebuilt in place (and restarted iff running) while the other only sees its probe |
| Paired.PairedStream.Exchange | DXAudio/CDXAudioEchoStream.cpp:141-160 | the application gets the captured frames, and the buffer to render holds exactly as many frames |
| Paired.PairedStream.Deliver | DXAudio/CDXAudioLoopbackStream.cpp:152-160 | the writer gets exactly the rendered frames, and its code goes to HandleHR |
| Paired.PairedStream.ImplProcess | DXAudio/CDXAudioLoopbackStream.cpp:141-161 | a failed read goes to HandleHR and returns with no callback and no write; otherwise the callback gets the frames read and the writer gets as many frames: all zero (loopback) or the callback's output (echo) |
| Thread.RunInitialize | DXAudio/CDXAudioStream.h:48 | each variant supplies ImplInitialize, and it keeps the stream's invariant |
| Thread.RunHook | DXAudio/CDXAudioStream.h:50-58 | each variant supplies all five dispatched hooks, and none of them changes the sample rate or the events |
| Thread.LifeOrder | DXAudio/CDXAudioStream.cpp:137-188 | ImplInitialize runs exactly once, before any wake-up; the notification client is unregistered only at the end, only once, and never by a crashed thread; no hook runs after the wake-up that ends the loop |
| Thread.EndingCodes | DXAudio/CDXAudioStream.cpp:172-180 | the loop returns S_OK iff the halt event woke it, and E_FAIL iff the wait result lies outside the wait array |
| Thread.Arrive | DXAudio/CMMNotificationClient.cpp:34-43 | the signals raised between two waits are added to the pending set, and repeats collapse |
| Thread.WaitOnce | DXAudio/CDXAudioStream.cpp:141-149 | one wait reports either WAIT_FAILED or the lowest signalled slot among the events raised so far; it stays blocked iff nothing is signalled |
| Thread.CheckStartup | DXAudio/CDXAudioStream.cpp:114-134 | COM initialization, enumerator creation and notification registration run as a CHECK_HR chain; the first failure is returned |
| Thread.Serve | DXAudio/CDXAudioStream.cpp:141-181 | every wake-up before the last runs exactly the hook Dispatch picks for the lowest signalled slot; the loop ends only on the halt event (S_OK), a bad wait result (E_FAIL), or a hook that dereferenced a null interface, after which nothing more runs |
| Thread.StreamThreadEntry | DXAudio/CDXAudioStream.cpp:89-189 | a failed start-up call returns its code before ImplInitialize and before the loop; otherwise ImplInitialize runs once, then hooks one per wake-up, then the ending wake-up and one unregistration, and the loop's code is returned; the thread crashes, with no later wait, hook or unregistration, exactly when ImplInitialize or a hook has dereferenced a null interface; the sample rate never changes |
| Factory.TypeCode | DXAudio/DXAudio.h:5-11 | the stream type constants run from 1 (output) to 5 (echo); each variant's GetStreamType reports its own |
| Factory.TypeOf | DXAudio/DXAudio.cpp:122-164 | the switch recognises a type value iff it lies in 1..5, and the type it finds has that value |
| Factory.TypeCodeRoundTrip | DXAudio/DXAudio.h:5-11 | each type's value names that type and no other |
| Factory.Required | DXAudio/DXAudio.cpp:122-161 | the interface each type's Initialize asks for: write (output), read (input, loopback), read-write (duplex, echo) |
| Factory.InitializeCode | DXAudio/DXAudio.cpp:122-161 | the code the chosen variant's Initialize reports is S_OK iff the callback has that type's interface and the base Initialize succeeds |
| Factory.InitializeSucceedsOnlyWithOk | DXAudio/DXAudio.cpp:21-30 | no Initialize reports a success code other than S_OK, so the helpers' FAILED test and a test for S_OK agree |
| Factory.CreateTyped | DXAudio/DXAudio.cpp:12-31 | a failed Initialize writes NULL to the output parameter and returns that same code; otherwise the output parameter holds the new stream, of the requested type, and S_OK is returned |
| Factory.CreateStream | DXAudio/DXAudio.cpp:117-165 | an unknown type returns E_INVALIDARG and writes nothing to the output parameter; a known type is handed to its own creator |
| Factory.CreateSucceedsIff | DXAudio/DXAudio.cpp:117-165 | a stream is handed out iff the type is known, the callback has the interface that type needs and the base Initialize succeeds; it then reports the requested type and S_OK; every other outcome is a failure code |

## Left out

- COM plumbing is not modelled: reference counting, `QueryInterface`, `CComPtr` and `CoTaskMemFree`. Capability checks are a set of interfaces on the callback.
- Threads and waits are sequential. A fault is checked only between hooks, so the rest of the faulting hook still runs in the model. The crashed program would never do these things, so their notices, calls and pending signals are not the program's. Examples: `Input.InputStream.ImplProcess` and `Duplex.DuplexStream.ImplProcess` still call the application after a read that faulted, and Duplex still writes. `Paired.PairedStream.ImplStart`, `Paired.PairedStream.ImplStop` and the Input and Duplex `ImplPropertyChange` pass the `Results.EPointer` to HandleHR, which reports it and halts. After that hook, nothing further runs on the stream. `WaitForMultipleObjectsEx` is the choice of the lowest signalled event, and the thread's input is a finite sequence of ticks. `StillRunning` stands for a thread that has not yet returned when the ticks run out.
- The notification client (`CMMNotificationClient`) runs on an OS thread. It is modelled only as pending signals raised between two waits (`Thread.Arrive`, `Engine.StreamEngine.OnDefaultDeviceChanged`, `Engine.StreamEngine.OnPropertyValueChanged`).
- `WaitForThread`, the destructors, `CloseHandle`, and the freeing of device ids and devices are not modelled. Ownership of a queried id is not tracked.
- Samples are reals, so float scaling and casts have no rounding, saturation or overflow. The 24-bit paths access 4 bytes at a 3-byte stride, and both are modelled as one independent value per slot. On the write path (DXAudio/ClientWriter.cpp:169-178), the stored fourth byte is overwritten by the next sample. On the read path (DXAudio/ClientReader.cpp:152-156), each loaded value takes its top byte from the next sample's low byte before the scaling. That byte overlap is not modelled.
- Output.Conservation: the floating-point quantities other than samples are also exact reals. These are the application rate (a FLOAT, DXAudio/CDXAudioStream.h:61), both resample ratios (DOUBLE, DXAudio/ClientReader.h:43 and DXAudio/ClientWriter.h:43), the period quotient (`Samples.Quotient`) and the render accumulator (DOUBLE, DXAudio/CDXAudioOutputStream.h:47). The exact identities stated for them, `ceil(n x q)` frames in total and `q x b == a`, hold over reals only. Double rounding is not modelled: 480 / (48000 / 44100) is 440.99999999999994 in double, so the source's accumulator drifts slightly and can move one tick's ceiling by one frame where the model's does not.
- Samples.KindOf: the model assumes the container matches the branch taken: 16-bit containers for the branch chosen by `wValidBitsPerSample == 16`, 32-bit containers for the 4-byte integer fallback, and 24-bit containers for the 24-bit branch. The source strides by the branch's sample size whatever `wBitsPerSample` is (DXAudio/ClientReader.cpp:143-150, DXAudio/ClientWriter.cpp:158-167). For example, 16 valid bits in a 24- or 32-bit container, or an 8-bit container in the fallback, read and write misaligned bytes in the source. The model's one value per slot does not capture that.
- libsamplerate (`src_new`, `src_process`, `src_delete`) and its wrappers `CDXAudioResampler` and `DXAudioResampler` are not part of this model. Resampling is a logged call whose answer is a reply. The only property assumed of it is that the frames it generates are capped at the output capacity.
- `Samples.Quotient` returns 0 for a zero divisor. The source gives an IEEE infinity or NaN there.
- The mix format is assumed to have at least two channels and a positive rate (`Samples.ValidFormat`). With fewer channels the source's `nChannels - 2` wraps around.
- `Samples.PeriodCapacity` models the UINT conversion of the capture capacity as the value modulo 2^32. Out-of-range double-to-UINT conversion is undefined in C++.
- Output.OutputStream.HandleHR: the recursion HandleHR → ImplPropertyChange → InitClientWriter → HandleHR is bounded by the `nested` replies. When they run out the model records a fault instead of recursing further, so unbounded recursion is not modelled.
- Within one hook invocation every platform query of a kind gets the same reply. A hook that asks twice cannot see two different answers.
- The input and duplex sources call signatures that do not match their headers: `HandleHR(Line, hr)`, a three-argument `OnObjectFailure`, and others. The model follows the .cpp files, and the `Line` argument is dropped.
- Paired.PairedStream: the loopback and echo classes are one class with an `echo` flag. Their sources differ only in the interface, the callback and the rendered data. Each row cites one of the two files.
- Factory.CreateStream: the sample rate is stored by the variant and does not affect the result, so it is not a parameter. The stream handed out is represented by its type.
- The demo program (`DXAudioTest`) is not part of this model.

## Findings

| source | as written | input that shows it | evidently intended | confidence | as-written member | corrected member |
|---|---|---|---|---|---|---|
| DXAudio/ClientReader.cpp:78-79 | `WaitEvent ? EVENTCALLBACK : NULL \| IsLoopback ? LOOPBACK : NULL` parses as `Wait ? EVENTCALLBACK : ((NULL \| IsLoopback) ? LOOPBACK : NULL)` | a wait event together with loopback gives EVENTCALLBACK alone, without LOOPBACK | each flag set iff requested | not executed; no caller in the library passes both | Reader.LoopbackDroppedWithWaitEvent | Reader.FlagsAgreeForCallers |

=== FILE: callbacks.dfy ===
/** The application's callback object as a stream sees it: the interfaces
    it answers to, and every call the stream makes on it. */
module Callbacks {
  import opened Results
  import opened Samples

  /** The callback interfaces a stream may ask for with QueryInterface. */
  datatype Interface = ReadCallback | WriteCallback | ReadWriteCallback

  /** One call from a stream to the application. */
  datatype Notice =
    | ObjectFailure(hr: HResult)                          // OnObjectFailure
    | Captured(audioIn: seq<real>, frames: nat)           // IDXAudioReadCallback::Process
    | Render(frames: nat)                                 // IDXAudioWriteCallback::Process
    | Exchange(audioIn: seq<real>, frames: nat)           // IDXAudioReadWriteCallback::Process

  class Callback {
    /** The interfaces QueryInterface succeeds for. */
    const interfaces: set<Interface>
    /** The calls the stream has made on this object, in order. */
    var notices: seq<Notice>

    constructor (interfaces: set<Interface>)
      ensures this.interfaces == interfaces && notices == []
    {
      this.interfaces := interfaces;
      notices := [];
    }

    /** OnObjectFailure: the stream reports a fatal code. */
    method OnObjectFailure(hr: HResult)
      modifies this
      ensures notices == old(notices) + [ObjectFailure(hr)]
    {
      notices := notices + [ObjectFailure(hr)];
    }

    /** The read callback's Process: `frames` stereo frames of captured
        audio handed to the application. */
    method ProcessIn(audioIn: seq<real>, frames: nat)
      modifies this
      ensures notices == old(notices) + [Captured(audioIn, frames)]
    {
      notices := notices + [Captured(audioIn, frames)];
    }

    /** The write callback's Process: the application fills `frames` stereo
        frames; `written` is what it writes (a reply of the application),
        cut or padded to the buffer it was given. */
    method ProcessOut(frames: nat, written: seq<real>) returns (audioOut: seq<real>)
      modifies this
      ensures notices == old(notices) + [Render(frames)]
      ensures audioOut == Fit(written, 2 * frames)
    {
      notices := notices + [Render(frames)];
      audioOut := Fit(written, 2 * frames);
    }

    /** The read-write callback's Process: the application receives
        `frames` captured frames and fills as many output frames. */
    method ProcessInOut(audioIn: seq<real>, frames: nat, written: seq<real>) returns (audioOut: seq<real>)
      modifies this
      ensures notices == old(notices) + [Exchange(audioIn, frames)]
      ensures audioOut == Fit(written, 2 * frames)
    {
      notices := notices + [Exchange(audioIn, frames)];
      audioOut := Fit(written, 2 * frames);
    }
  }
}

=== FILE: client_reader.dfy ===
/** ClientReader: one capture (or loopback-capture) connection to an endpoint.
    It is clean (every handle null, every derived field zero) or initialized;
    each period it takes one capture packet, keeps channels 0 and 1 of every
    frame, and resamples the result to the application's rate. */
module Reader {
  import opened Wrappers
  import opened Results
  import opened Samples
  import opened Platform

  /** The stream flags exactly as the source's conditional expression groups
      them: `Wait ? EVENTCALLBACK : ((NULL | IsLoopback) ? LOOPBACK : NULL)`.
      The loopback flag is lost whenever a wait event is given. */
  function FlagsAsWritten(wait: bool, isLoopback: bool): (f: StreamFlags)
    ensures f.eventCallback <==> wait
    ensures f.loopback <==> !wait && isLoopback
  {
    if wait then StreamFlags(true, false)
    else if isLoopback then StreamFlags(false, true)
    else StreamFlags(false, false)
  }

  /** The input that shows the grouping drops a requested flag. */
  lemma LoopbackDroppedWithWaitEvent()
    ensures FlagsAsWritten(true, true).loopback == false
    ensures Flags(true, true) == StreamFlags(true, true)
  {
  }

  /** The flags the expression evidently means: each flag set iff requested. */
  function Flags(wait: bool, isLoopback: bool): (f: StreamFlags)
    ensures f.eventCallback <==> wait
    ensures f.loopback <==> isLoopback
  {
    StreamFlags(wait, isLoopback)
  }

  /** Every caller passes a wait event or the loopback flag, never both
      (the input and duplex streams give the event without loopback, the
      loopback and echo streams loopback without an event), and there the
      flags the binding issues, as written, are the intended ones. */
  lemma FlagsAgreeForCallers(wait: bool, isLoopback: bool)
    requires !(wait && isLoopback)
    ensures Flags(wait, isLoopback) == FlagsAsWritten(wait, isLoopback)
  {
  }

  /** The calls Initialize issues when every step succeeds, in order. */
  function InitCalls(isLoopback: bool, waitEvent: Option<Signal>, device: Device, r: BindReplies): seq<Call> {
    var init := ClientInitialize(FlagsAsWritten(waitEvent.Some?, isLoopback), 2 * r.period, r.period);
    if waitEvent.Some? then
      [ResamplerNew, Activate(device), GetDevicePeriod, GetMixFormat, init, GetService, SetEventHandle(waitEvent.value)]
    else
      [ResamplerNew, Activate(device), GetDevicePeriod, GetMixFormat, init, GetService]
  }

  /** The checked result of each of those steps; a resampler creation error
      reads as E_FAIL. */
  function InitSteps(waitEvent: Option<Signal>, r: BindReplies): seq<HResult> {
    var created := if r.resamplerOk then Ok else EFail;
    if waitEvent.Some? then
      [created, r.activate, r.periodHr, r.mixFormatHr, r.initialize, r.service, r.setEvent]
    else
      [created, r.activate, r.periodHr, r.mixFormatHr, r.initialize, r.service]
  }

  /** The code Initialize reports and how many of its planned calls it
      issues, read off the replies step by step. */
  function InitOutcome(waitEvent: Option<Signal>, r: BindReplies): Outcome {
    if !r.resamplerOk then Outcome(EFail, 1)
    else if Failed(r.activate) then Outcome(r.activate, 2)
    else if Failed(r.periodHr) then Outcome(r.periodHr, 3)
    else if Failed(r.mixFormatHr) then Outcome(r.mixFormatHr, 4)
    else if Failed(r.initialize) then Outcome(r.initialize, 5)
    else if Failed(r.service) then Outcome(r.service, 6)
    else if waitEvent.Some? && Failed(r.setEvent) then Outcome(r.setEvent, 7)
    else Outcome(Ok, if waitEvent.Some? then 7 else 6)
  }

  /** The calls of the client's Initialize, GetService and SetEventHandle
      that are issued, up to the first that fails. */
  function ConnectIssued(isLoopback: bool, waitEvent: Option<Signal>, r: BindReplies): seq<Call> {
    var init := ClientInitialize(FlagsAsWritten(waitEvent.Some?, isLoopback), 2 * r.period, r.period);
    if Failed(r.initialize) then [init]
    else if Failed(r.service) || waitEvent.None? then [init, GetService]
    else [init, GetService, SetEventHandle(waitEvent.value)]
  }

  /** The calls Initialize issues for the given replies. */
  function InitIssued(isLoopback: bool, waitEvent: Option<Signal>, device: Device, r: BindReplies): seq<Call> {
    if !r.resamplerOk then [ResamplerNew]
    else if Failed(r.activate) || Failed(r.periodHr) || Failed(r.mixFormatHr) then [ResamplerNew] + OpenIssued(device, r)
    else [ResamplerNew] + OpenIssued(device, r) + ConnectIssued(isLoopback, waitEvent, r)
  }

  /** The calls Initialize issues are its planned calls up to and
      including the step at which its chain stops, and none after it. */
  lemma InitIssuedIsPrefix(isLoopback: bool, waitEvent: Option<Signal>, device: Device, r: BindReplies)
    ensures InitOutcome(waitEvent, r).issued <= |InitCalls(isLoopback, waitEvent, device, r)|
    ensures InitIssued(isLoopback, waitEvent, device, r)
      == InitCalls(isLoopback, waitEvent, device, r)[..InitOutcome(waitEvent, r).issued]
  {
  }

  /** Initialize is a CHECK_HR chain over its planned steps: it succeeds
      exactly when no step fails, and otherwise reports the first failing
      step's code with that step the last call issued. */
  lemma {:induction false} InitOutcomeIsChain(isLoopback: bool, waitEvent: Option<Signal>, device: Device, r: BindReplies)
    ensures InitOutcome(waitEvent, r) == Chain(InitSteps(waitEvent, r))
    ensures |InitCalls(isLoopback, waitEvent, device, r)| == |InitSteps(waitEvent, r)|
  {
    var steps := InitSteps(waitEvent, r);
    var o := InitOutcome(waitEvent, r);
    if o.hr != Ok {
      assert StoppedAt(steps, o.issued - 1);
      StopsOnlyAt(steps, o.issued - 1);
    } else {
      assert NoneFailed(steps);
    }
  }

  /** The de-interleaving loop of Read: walks the native buffer and the local
      buffer as two cursors, copying two samples per frame and skipping the
      excess channels. */
  method DeinterleaveInto(k: SampleKind, native: seq<real>, channels: nat, frames: nat, local: array<real>)
    requires channels >= 2 && frames * channels <= |native| && 2 * frames <= local.Length
    modifies local
    ensures local[..2 * frames] == Deinterleave(k, native, channels, frames)
    ensures local[2 * frames..] == old(local[2 * frames..])
  {
    ghost var d := Deinterleave(k, native, channels, frames);
    var src, dst := 0, 0;
    var i := 0;
    while i < frames
      invariant 0 <= i <= frames
      invariant src == SlotIndex(i, 0, channels) && dst == 2 * i
      invariant forall t :: 0 <= t < dst ==> local[t] == d[t]
      invariant forall t :: 2 * frames <= t < local.Length ==> local[t] == old(local[t])
    {
      var j := 0;
      while j < 2
        invariant 0 <= j <= 2
        invariant src == SlotIndex(i, j, channels) && dst == 2 * i + j
        invariant forall t :: 0 <= t < dst ==> local[t] == d[t]
        invariant forall t :: 2 * frames <= t < local.Length ==> local[t] == old(local[t])
      {
        DeinterleaveAt(k, native, channels, frames, i, j);
        local[dst] := ToFloat(k, native[src]);
        src, dst := src + 1, dst + 1;
        j := j + 1;
      }
      assert (i + 1) * channels == i * channels + channels;
      src := src + (channels - 2);
      i := i + 1;
    }
    assert local[..2 * frames] == d;
  }

  class ClientReader {
    var hasClient: bool          // m_Client
    var hasCaptureClient: bool   // m_CaptureClient
    var format: Option<WaveFormat>  // m_WaveFormat
    var hasResampler: bool       // m_ResampleState
    var ratio: real              // m_ResampleRatio, application rate / native rate
    var periodFrames: nat        // m_PeriodFrames
    var period: nat              // m_Period, 100-ns units
    /** A null handle was dereferenced (an access violation in the source). */
    var faulted: bool
    /** The platform and resampler calls this binding has issued, in order. */
    ghost var calls: seq<Call>

    ghost predicate Valid()
      reads this
    {
      format.Some? ==> ValidFormat(format.value)
    }

    predicate IsClean()
      reads this
    {
      !hasClient && !hasCaptureClient && format.None? && !hasResampler
      && ratio == 0.0 && periodFrames == 0 && period == 0
    }

    predicate IsBound()
      reads this
    {
      hasClient && hasCaptureClient && format.Some? && hasResampler
    }

    constructor ()
      ensures Valid() && IsClean() && !faulted && calls == []
    {
      hasClient, hasCaptureClient, format, hasResampler := false, false, None, false;
      ratio, periodFrames, period := 0.0, 0, 0;
      faulted := false;
      calls := [];
    }

    /** Creates the resampler, activates and initializes a shared-mode client
        with a two-period buffer, takes the capture service, registers the
        wait event if one is given, then derives the period frame count and
        the resample ratio. The first failing step's code is returned and no
        later step runs. */
    method Initialize(isLoopback: bool, sampleRate: real, waitEvent: Option<Signal>, device: Device, r: BindReplies)
      returns (hr: HResult)
      requires Valid() && ValidFormat(r.format)
      modifies this
      ensures Valid() && faulted == old(faulted)
      ensures hr == InitOutcome(waitEvent, r).hr
      ensures calls == old(calls) + InitIssued(isLoopback, waitEvent, device, r)
      ensures hr == Ok ==>
        && IsBound() && format == Some(r.format) && period == r.period
        && periodFrames == PeriodFramesOf(r.period, r.format.samplesPerSec)
        && ratio == Quotient(sampleRate, r.format.samplesPerSec as real)
      ensures hr != Ok ==> ratio == old(ratio) && periodFrames == old(periodFrames)
    {
      hasResampler := r.resamplerOk;
      if !r.resamplerOk {
        calls := calls + [ResamplerNew];
        return EFail;
      }
      ghost var openCalls: seq<Call>;
      hr, openCalls := OpenClient(device, r);
      if Failed(hr) {
        calls := calls + ([ResamplerNew] + openCalls);
        return;
      }
      ghost var connectCalls: seq<Call>;
      hr, connectCalls := ConnectClient(isLoopback, waitEvent, r);
      calls := calls + ([ResamplerNew] + openCalls + connectCalls);
      if Failed(hr) {
        return;
      }
      periodFrames := PeriodFramesOf(period, r.format.samplesPerSec);
      ratio := Quotient(sampleRate, r.format.samplesPerSec as real);
      hr := Ok;
    }

    /** Activate, GetDevicePeriod and GetMixFormat, each checked; `issued`
        are the calls made. */
    method OpenClient(device: Device, r: BindReplies) returns (hr: HResult, ghost issued: seq<Call>)
      requires Valid() && ValidFormat(r.format)
      modifies this`hasClient, this`period, this`format
      ensures Valid() && issued == OpenIssued(device, r)
      ensures hr == OpenCode(r)
      ensures !Failed(hr) ==> hasClient && period == r.period && format == Some(r.format)
    {
      hasClient := !Failed(r.activate);
      if Failed(r.activate) {
        return r.activate, [Activate(device)];
      }
      if Failed(r.periodHr) {
        return r.periodHr, [Activate(device), GetDevicePeriod];
      }
      period := r.period;
      hr, issued := r.mixFormatHr, [Activate(device), GetDevicePeriod, GetMixFormat];
      if !Failed(hr) {
        format := Some(r.format);
      }
    }

    /** The client's Initialize (shared mode, two periods of buffer, the
        stream flags), GetService and, with a wait event, SetEventHandle. */
    method ConnectClient(isLoopback: bool, waitEvent: Option<Signal>, r: BindReplies) returns (hr: HResult, ghost issued: seq<Call>)
      requires period == r.period
      modifies this`hasCaptureClient
      ensures issued == ConnectIssued(isLoopback, waitEvent, r)
      ensures hr == (if Failed(r.initialize) then r.initialize else if Failed(r.service) then r.service
                     else if waitEvent.Some? then r.setEvent else Ok)
      ensures !Failed(hr) ==> hasCaptureClient
    {
      var init := ClientInitialize(FlagsAsWritten(waitEvent.Some?, isLoopback), 2 * period, period);
      if Failed(r.initialize) {
        return r.initialize, [init];
      }
      hasCaptureClient := !Failed(r.service);
      if Failed(r.service) {
        return r.service, [init, GetService];
      }
      if waitEvent.Some? {
        return r.setEvent, [init, GetService, SetEventHandle(waitEvent.value)];
      }
      return Ok, [init, GetService];
    }

    /** Releases every handle and zeroes every derived field, whatever the
        prior state; a second Clean therefore changes nothing. */
    method Clean()
      modifies this
      ensures IsClean() && Valid()
      ensures faulted == old(faulted) && calls == old(calls)
    {
      hasCaptureClient, hasClient := false, false;
      format := None;
      hasResampler := false;
      ratio, periodFrames, period := 0.0, 0, 0;
    }

    method Start(reply: HResult) returns (hr: HResult)
      modifies this`calls, this`faulted
      ensures hasClient ==> hr == reply && calls == old(calls) + [ClientStart] && faulted == old(faulted)
      ensures !hasClient ==> hr == EPointer && faulted && calls == old(calls)
    {
      if !hasClient {
        faulted := true;
        return EPointer;
      }
      calls := calls + [ClientStart];
      hr := reply;
    }

    method Stop(reply: HResult) returns (hr: HResult)
      modifies this`calls, this`faulted
      ensures hasClient ==> hr == reply && calls == old(calls) + [ClientStop] && faulted == old(faulted)
      ensures !hasClient ==> hr == EPointer && faulted && calls == old(calls)
    {
      if !hasClient {
        faulted := true;
        return EPointer;
      }
      calls := calls + [ClientStop];
      hr := reply;
    }

    /** Probes the client with GetBufferSize and returns its code unchanged;
        a client whose format changed answers AUDCLNT_E_DEVICE_INVALIDATED. */
    method VerifyClient(reply: HResult) returns (hr: HResult)
      modifies this`calls, this`faulted
      ensures hasClient ==> hr == reply && calls == old(calls) + [GetBufferSize] && faulted == old(faulted)
      ensures !hasClient ==> hr == EPointer && faulted && calls == old(calls)
    {
      if !hasClient {
        faulted := true;
        return EPointer;
      }
      calls := calls + [GetBufferSize];
      hr := reply;
    }

    /** The code Read reports for the given replies in the current state. */
    function ReadCode(cr: CaptureReplies): HResult
      reads this
    {
      if format.None? || !hasCaptureClient then EPointer
      else if Failed(cr.getBuffer) then cr.getBuffer
      else if cr.frames > periodFrames then EPointer
      else if Failed(cr.release) then cr.release
      else if cr.resample.error || !hasResampler then EFail
      else Ok
    }

    /** The frames Read reports: those the resampler generated, at most the
        capacity, once the capture packet is released; none otherwise. */
    function ReadFrames(bufferLength: nat, cr: CaptureReplies): (n: nat)
      reads this
      ensures n <= bufferLength
    {
      if format.None? || !hasCaptureClient || Failed(cr.getBuffer) || cr.frames > periodFrames || Failed(cr.release) then 0
      else Min(cr.resample.generated, bufferLength)
    }

    /** One capture period: GetBuffer, de-interleave into a period-sized
        local buffer, ReleaseBuffer with the frames captured, then resample
        exactly one period into `buffer` (capacity `bufferLength` frames).
        `local` is the local buffer's contents handed to the resampler. */
    method Read(buffer: array<real>, bufferLength: nat, cr: CaptureReplies)
      returns (hr: HResult, framesRead: nat, ghost local: seq<real>)
      requires Valid() && 2 * bufferLength <= buffer.Length
      modifies this`calls, this`faulted, buffer
      ensures Valid()
      ensures hr == old(ReadCode(cr)) && framesRead == old(ReadFrames(bufferLength, cr))
      ensures faulted == (old(faulted) || format.None? || !hasCaptureClient
                          || (!Failed(cr.getBuffer) && cr.frames > periodFrames))
      ensures format.None? || !hasCaptureClient ==> framesRead == 0 && calls == old(calls)
      ensures format.Some? && hasCaptureClient && Failed(cr.getBuffer) ==>
        hr == cr.getBuffer && framesRead == 0 && calls == old(calls) + [GetCaptureBuffer]
        && buffer[..] == old(buffer[..])
      ensures format.Some? && hasCaptureClient && !Failed(cr.getBuffer) && cr.frames > periodFrames ==>
        hr == EPointer && framesRead == 0 && calls == old(calls) + [GetCaptureBuffer]
        && buffer[..] == old(buffer[..])
      ensures format.Some? && hasCaptureClient && !Failed(cr.getBuffer) && cr.frames <= periodFrames ==>
        && |local| == 2 * periodFrames
        && local[..2 * cr.frames] == Deinterleave(KindOf(format.value), Fit(cr.data, cr.frames * format.value.channels),
                                                   format.value.channels, cr.frames)
        && (Failed(cr.release) ==>
              hr == cr.release && framesRead == 0 && buffer[..] == old(buffer[..])
              && calls == old(calls) + [GetCaptureBuffer, ReleaseCaptureBuffer(cr.frames)])
        && (!Failed(cr.release) ==>
              && calls == old(calls) + [GetCaptureBuffer, ReleaseCaptureBuffer(cr.frames),
                                        Resample(local, periodFrames, bufferLength, ratio)]
              && framesRead == Min(cr.resample.generated, bufferLength)
              && buffer[..2 * framesRead] == Fit(cr.resample.output, 2 * framesRead)
              && (hr == Ok <==> !cr.resample.error && hasResampler)
              && (hr != Ok ==> hr == EFail))
    {
      framesRead, local := 0, [];
      if format.None? || !hasCaptureClient {
        faulted := true;
        return EPointer, 0, [];
      }
      var fmt := format.value;
      var localBuffer := new real[2 * periodFrames];
      calls := calls + [GetCaptureBuffer];
      if Failed(cr.getBuffer) {
        return cr.getBuffer, 0, [];
      }
      var frames := cr.frames;
      if frames > periodFrames {
        // the packet would overrun the period-sized stack buffer
        faulted := true;
        return EPointer, 0, [];
      }
      var native := Fit(cr.data, frames * fmt.channels);
      DeinterleaveInto(KindOf(fmt), native, fmt.channels, frames, localBuffer);
      local := localBuffer[..];
      calls := calls + [ReleaseCaptureBuffer(frames)];
      if Failed(cr.release) {
        return cr.release, 0, local;
      }
      calls := calls + [Resample(local, periodFrames, bufferLength, ratio)];
      var gen := Min(cr.resample.generated, bufferLength);
      var out := Fit(cr.resample.output, 2 * gen);
      forall i | 0 <= i < 2 * gen {
        buffer[i] := out[i];
      }
      framesRead := gen;
      hr := if cr.resample.error || !hasResampler then EFail else Ok;
    }
  }
}

=== FILE: client_writer.dfy ===
/** ClientWriter: one render connection to an endpoint. Initialize binds a
    shared-mode client with a four-period buffer and primes it with two
    periods of silence; each period Write resamples the application's stereo
    frames to at most one device period and writes them to the render
    buffer, silencing every channel beyond the first two. */
module Writer {
  import opened Wrappers
  import opened Results
  import opened Samples
  import opened Platform

  /** The frames of the silent priming buffer: two periods. */
  function PrimeFrames(r: BindReplies): nat {
    2 * PeriodFramesOf(r.period, r.format.samplesPerSec)
  }

  /** The calls Initialize issues when every step succeeds, in order. Only
      the event-callback flag is ever requested. */
  function InitCalls(waitEvent: Option<Signal>, device: Device, r: BindReplies): seq<Call> {
    var init := ClientInitialize(StreamFlags(waitEvent.Some?, false), 4 * r.period, r.period);
    var prime := [GetRenderBuffer(PrimeFrames(r)), ReleaseRenderBuffer(PrimeFrames(r), true, [])];
    if waitEvent.Some? then
      [ResamplerNew, Activate(device), GetDevicePeriod, GetMixFormat, init, GetService, SetEventHandle(waitEvent.value)] + prime
    else
      [ResamplerNew, Activate(device), GetDevicePeriod, GetMixFormat, init, GetService] + prime
  }

  /** The checked result of each of those steps. */
  function InitSteps(waitEvent: Option<Signal>, r: BindReplies): seq<HResult> {
    var created := if r.resamplerOk then Ok else EFail;
    if waitEvent.Some? then
      [created, r.activate, r.periodHr, r.mixFormatHr, r.initialize, r.service, r.setEvent, r.primeGet, r.primeRelease]
    else
      [created, r.activate, r.periodHr, r.mixFormatHr, r.initialize, r.service, r.primeGet, r.primeRelease]
  }

  /** The code Initialize reports and how many of its planned calls it
      issues, read off the replies step by step. */
  function InitOutcome(waitEvent: Option<Signal>, r: BindReplies): Outcome {
    var w := if waitEvent.Some? then 1 else 0;
    if !r.resamplerOk then Outcome(EFail, 1)
    else if Failed(r.activate) then Outcome(r.activate, 2)
    else if Failed(r.periodHr) then Outcome(r.periodHr, 3)
    else if Failed(r.mixFormatHr) then Outcome(r.mixFormatHr, 4)
    else if Failed(r.initialize) then Outcome(r.initialize, 5)
    else if Failed(r.service) then Outcome(r.service, 6)
    else if waitEvent.Some? && Failed(r.setEvent) then Outcome(r.setEvent, 7)
    else if Failed(r.primeGet) then Outcome(r.primeGet, 7 + w)
    else if Failed(r.primeRelease) then Outcome(r.primeRelease, 8 + w)
    else Outcome(Ok, 8 + w)
  }

  /** The calls of the client's Initialize, GetService and SetEventHandle
      that are issued, up to and including the first that fails. */
  function ConnectIssued(waitEvent: Option<Signal>, r: BindReplies): seq<Call> {
    var init := ClientInitialize(StreamFlags(waitEvent.Some?, false), 4 * r.period, r.period);
    if Failed(r.initialize) then [init]
    else if Failed(r.service) || waitEvent.None? then [init, GetService]
    else [init, GetService, SetEventHandle(waitEvent.value)]
  }

  /** The code those three steps report. */
  function ConnectCode(waitEvent: Option<Signal>, r: BindReplies): HResult {
    if Failed(r.initialize) then r.initialize
    else if Failed(r.service) then r.service
    else if waitEvent.Some? then r.setEvent
    else Ok
  }

  /** The calls of the priming GetBuffer and ReleaseBuffer that are issued. */
  function PrimeIssued(frames: nat, r: BindReplies): seq<Call> {
    if Failed(r.primeGet) then [GetRenderBuffer(frames)]
    else [GetRenderBuffer(frames), ReleaseRenderBuffer(frames, true, [])]
  }

  /** The calls Initialize issues for the given replies. */
  function InitIssued(waitEvent: Option<Signal>, device: Device, r: BindReplies): seq<Call> {
    if !r.resamplerOk then [ResamplerNew]
    else if Failed(OpenCode(r)) then [ResamplerNew] + OpenIssued(device, r)
    else if Failed(ConnectCode(waitEvent, r)) then [ResamplerNew] + OpenIssued(device, r) + ConnectIssued(waitEvent, r)
    else [ResamplerNew] + OpenIssued(device, r) + ConnectIssued(waitEvent, r) + PrimeIssued(PrimeFrames(r), r)
  }

  /** The calls Initialize issues are its planned calls up to and
      including the step at which its chain stops, and none after it. */
  lemma InitIssuedIsPrefix(waitEvent: Option<Signal>, device: Device, r: BindReplies)
    ensures InitOutcome(waitEvent, r).issued <= |InitCalls(waitEvent, device, r)|
    ensures InitIssued(waitEvent, device, r) == InitCalls(waitEvent, device, r)[..InitOutcome(waitEvent, r).issued]
  {
  }

  /** Initialize is a CHECK_HR chain over its planned steps: it succeeds
      exactly when no step fails, and otherwise reports the first failing
      step's code with that step the last call issued. */
  lemma {:induction false} InitOutcomeIsChain(waitEvent: Option<Signal>, device: Device, r: BindReplies)
    ensures InitOutcome(waitEvent, r) == Chain(InitSteps(waitEvent, r))
    ensures |InitCalls(waitEvent, device, r)| == |InitSteps(waitEvent, r)|
  {
    var steps := InitSteps(waitEvent, r);
    var o := InitOutcome(waitEvent, r);
    if o.hr != Ok {
      assert StoppedAt(steps, o.issued - 1);
      StopsOnlyAt(steps, o.issued - 1);
    } else {
      assert NoneFailed(steps);
    }
  }

  /** The native render data for `frames` resampled frames in format `f`. */
  function RenderData(f: WaveFormat, frames: nat, output: seq<real>): (d: seq<real>)
    requires ValidFormat(f)
    ensures |d| == frames * f.channels
  {
    Interleave(KindOf(f), Fit(output, 2 * frames), f.channels, frames)
  }

  /** The calls of the render GetBuffer and ReleaseBuffer that are issued. */
  function SubmitIssued(f: WaveFormat, frames: nat, output: seq<real>, getBuffer: HResult): seq<Call>
    requires ValidFormat(f)
  {
    if Failed(getBuffer) then [GetRenderBuffer(frames)]
    else [GetRenderBuffer(frames), ReleaseRenderBuffer(frames, false, RenderData(f, frames, output))]
  }

  /** The code a render submission reports: a buffer too large for the
      free space is skipped and reported as success; otherwise the first
      failing code. */
  function SubmitCode(getBuffer: HResult, release: HResult): HResult {
    if Failed(getBuffer) then (if getBuffer == BufferTooLarge then Ok else getBuffer)
    else if Failed(release) then release
    else Ok
  }

  /** A submission is a CHECK_HR chain of GetBuffer and ReleaseBuffer, except
      that a too-large request ends it with success. */
  lemma {:induction false} SubmitIsChain(f: WaveFormat, frames: nat, output: seq<real>, getBuffer: HResult, release: HResult)
    requires ValidFormat(f)
    ensures getBuffer != BufferTooLarge ==>
      var o := Chain([getBuffer, release]);
      SubmitCode(getBuffer, release) == o.hr && |SubmitIssued(f, frames, output, getBuffer)| == o.issued
    ensures getBuffer == BufferTooLarge ==>
      SubmitCode(getBuffer, release) == Ok && SubmitIssued(f, frames, output, getBuffer) == [GetRenderBuffer(frames)]
  {
    var steps := [getBuffer, release];
    if Failed(getBuffer) {
      StopsOnlyAt(steps, 0);
    } else if Failed(release) {
      StopsOnlyAt(steps, 1);
    } else {
      assert NoneFailed(steps);
    }
  }

  /** GetBuffer for `frames` frames, the fill of the acquired buffer and its
      release; `issued` are the calls made. */
  method Submit(f: WaveFormat, frames: nat, output: seq<real>, getBuffer: HResult, release: HResult)
    returns (hr: HResult, ghost issued: seq<Call>)
    requires ValidFormat(f)
    ensures hr == SubmitCode(getBuffer, release)
    ensures issued == SubmitIssued(f, frames, output, getBuffer)
  {
    if Failed(getBuffer) {
      hr := if getBuffer == BufferTooLarge then Ok else getBuffer;
      issued := [GetRenderBuffer(frames)];
      return;
    }
    var local := Fit(output, 2 * frames);
    var render := new real[frames * f.channels];
    InterleaveInto(KindOf(f), local, f.channels, frames, render);
    assert render[..] == render[..frames * f.channels];
    issued := [GetRenderBuffer(frames), ReleaseRenderBuffer(frames, false, render[..])];
    hr := if Failed(release) then release else Ok;
  }

  /** The fill loop of Write: two converted samples per frame, in order, then
      the frame's excess channels zeroed in one sweep. */
  method InterleaveInto(k: SampleKind, local: seq<real>, channels: nat, frames: nat, out: array<real>)
    requires channels >= 2 && 2 * frames <= |local| && frames * channels <= out.Length
    modifies out
    ensures out[..frames * channels] == Interleave(k, local, channels, frames)
    ensures out[frames * channels..] == old(out[frames * channels..])
  {
    ghost var w := Interleave(k, local, channels, frames);
    var i, dst := 0, 0;
    while i < frames
      invariant 0 <= i <= frames
      invariant dst == SlotIndex(i, 0, channels) <= frames * channels
      invariant forall t :: 0 <= t < dst ==> out[t] == w[t]
      invariant forall t :: frames * channels <= t < out.Length ==> out[t] == old(out[t])
    {
      SlotInFrames(i, channels - 1, channels, frames);
      assert SlotIndex(i + 1, 0, channels) == dst + channels by {
        assert (i + 1) * channels == i * channels + channels;
      }
      forall t | dst <= t < dst + channels
        ensures w[t] == if t - dst < 2 then ToNative(k, local[2 * i + (t - dst)]) else 0.0
      {
        InterleaveAt(k, local, channels, frames, i, t - dst);
      }
      InterleaveFrame(k, local, channels, 2 * i, dst, out, w);
      i, dst := i + 1, dst + channels;
    }
    assert out[..frames * channels] == w;
  }

  /** One frame of the fill loop, written from stereo sample `src` on at slot
      `dst`: the two samples, then the excess channels zeroed; every slot
      outside the frame keeps its value. */
  method InterleaveFrame(k: SampleKind, local: seq<real>, channels: nat, src: nat, dst: nat, out: array<real>,
                         ghost w: seq<real>)
    requires channels >= 2 && src + 2 <= |local| && dst + channels <= out.Length && dst + channels <= |w|
    requires forall t :: dst <= t < dst + channels ==>
      w[t] == if t - dst < 2 then ToNative(k, local[src + (t - dst)]) else 0.0
    requires forall t :: 0 <= t < dst ==> out[t] == w[t]
    modifies out
    ensures forall t :: 0 <= t < dst + channels ==> out[t] == w[t]
    ensures forall t :: 0 <= t < out.Length && !(dst <= t < dst + channels) ==> out[t] == old(out[t])
  {
    var s, d := src, dst;
    var j := 0;
    while j < 2
      invariant 0 <= j <= 2
      invariant s == src + j && d == dst + j
      invariant forall t :: 0 <= t < d ==> out[t] == w[t]
      invariant forall t :: 0 <= t < out.Length && !(dst <= t < d) ==> out[t] == old(out[t])
    {
      out[d] := ToNative(k, local[s]);
      s, d := s + 1, d + 1;
      j := j + 1;
    }
    forall t | d <= t < d + (channels - 2) {
      out[t] := 0.0;
    }
  }

  class ClientWriter {
    var hasClient: bool          // m_Client
    var hasRenderClient: bool    // m_RenderClient
    var format: Option<WaveFormat>  // m_WaveFormat
    var hasResampler: bool       // m_ResampleState
    var ratio: real              // m_ResampleRatio, native rate / application rate
    var periodFrames: nat        // m_PeriodFrames
    var period: nat              // m_Period, 100-ns units
    /** A null handle was dereferenced (an access violation in the source). */
    var faulted: bool
    /** The platform and resampler calls this binding has issued, in order. */
    ghost var calls: seq<Call>

    ghost predicate Valid()
      reads this
    {
      format.Some? ==> ValidFormat(format.value)
    }

    predicate IsClean()
      reads this
    {
      !hasClient && !hasRenderClient && format.None? && !hasResampler
      && ratio == 0.0 && periodFrames == 0 && period == 0
    }

    predicate IsBound()
      reads this
    {
      hasClient && hasRenderClient && format.Some? && hasResampler
    }

    constructor ()
      ensures Valid() && IsClean() && !faulted && calls == []
    {
      hasClient, hasRenderClient, format, hasResampler := false, false, None, false;
      ratio, periodFrames, period := 0.0, 0, 0;
      faulted := false;
      calls := [];
    }

    /** Creates the resampler, activates and initializes a shared-mode client
        with a four-period buffer, takes the render service, registers the
        wait event if one is given, derives the period frame count, primes
        the endpoint with two periods of silence and only then sets the
        resample ratio. The first failing step's code is returned and no
        later step runs. */
    method Initialize(sampleRate: real, waitEvent: Option<Signal>, device: Device, r: BindReplies)
      returns (hr: HResult)
      requires Valid() && ValidFormat(r.format)
      modifies this
      ensures Valid() && faulted == old(faulted)
      ensures hr == InitOutcome(waitEvent, r).hr
      ensures calls == old(calls) + InitIssued(waitEvent, device, r)
      ensures hr == Ok ==>
        && IsBound() && format == Some(r.format) && period == r.period
        && periodFrames == PeriodFramesOf(r.period, r.format.samplesPerSec)
        && ratio == Quotient(r.format.samplesPerSec as real, sampleRate)
      ensures hr != Ok ==> ratio == old(ratio)
    {
      hasResampler := r.resamplerOk;
      if !r.resamplerOk {
        calls := calls + [ResamplerNew];
        return EFail;
      }
      ghost var openCalls: seq<Call>;
      hr, openCalls := OpenClient(device, r);
      if Failed(hr) {
        calls := calls + ([ResamplerNew] + openCalls);
        return;
      }
      ghost var connectCalls: seq<Call>;
      hr, connectCalls := ConnectClient(waitEvent, r);
      if Failed(hr) {
        calls := calls + ([ResamplerNew] + openCalls + connectCalls);
        return;
      }
      periodFrames := PeriodFramesOf(period, r.format.samplesPerSec);
      ghost var primeCalls: seq<Call>;
      hr, primeCalls := Prime(2 * periodFrames, r);
      calls := calls + ([ResamplerNew] + openCalls + connectCalls + primeCalls);
      if Failed(hr) {
        return;
      }
      ratio := Quotient(r.format.samplesPerSec as real, sampleRate);
      hr := Ok;
    }

    /** Activate, GetDevicePeriod and GetMixFormat, each checked; `issued`
        are the calls made. */
    method OpenClient(device: Device, r: BindReplies) returns (hr: HResult, ghost issued: seq<Call>)
      requires Valid() && ValidFormat(r.format)
      modifies this`hasClient, this`period, this`format
      ensures Valid() && issued == OpenIssued(device, r) && hr == OpenCode(r)
      ensures !Failed(hr) ==> hasClient && period == r.period && format == Some(r.format)
    {
      hasClient := !Failed(r.activate);
      if Failed(r.activate) {
        return r.activate, [Activate(device)];
      }
      if Failed(r.periodHr) {
        return r.periodHr, [Activate(device), GetDevicePeriod];
      }
      period := r.period;
      hr, issued := r.mixFormatHr, [Activate(device), GetDevicePeriod, GetMixFormat];
      if !Failed(hr) {
        format := Some(r.format);
      }
    }

    /** The client's Initialize (shared mode, four periods of buffer, the
        event-callback flag iff a wait event is given), GetService and, with a
        wait event, SetEventHandle. */
    method ConnectClient(waitEvent: Option<Signal>, r: BindReplies) returns (hr: HResult, ghost issued: seq<Call>)
      requires period == r.period
      modifies this`hasRenderClient
      ensures issued == ConnectIssued(waitEvent, r) && hr == ConnectCode(waitEvent, r)
      ensures !Failed(hr) ==> hasRenderClient
    {
      var init := ClientInitialize(StreamFlags(waitEvent.Some?, false), 4 * period, period);
      if Failed(r.initialize) {
        return r.initialize, [init];
      }
      hasRenderClient := !Failed(r.service);
      if Failed(r.service) {
        return r.service, [init, GetService];
      }
      if waitEvent.Some? {
        return r.setEvent, [init, GetService, SetEventHandle(waitEvent.value)];
      }
      return Ok, [init, GetService];
    }

    /** Acquires two periods of the render buffer and releases them with the
        silent flag, so the endpoint starts on silence. */
    method Prime(frames: nat, r: BindReplies) returns (hr: HResult, ghost issued: seq<Call>)
      ensures issued == PrimeIssued(frames, r)
      ensures hr == if Failed(r.primeGet) then r.primeGet else r.primeRelease
    {
      if Failed(r.primeGet) {
        return r.primeGet, [GetRenderBuffer(frames)];
      }
      return r.primeRelease, [GetRenderBuffer(frames), ReleaseRenderBuffer(frames, true, [])];
    }

    /** Releases every handle and zeroes every derived field, whatever the
        prior state; a second Clean therefore changes nothing. */
    method Clean()
      modifies this
      ensures IsClean() && Valid()
      ensures faulted == old(faulted) && calls == old(calls)
    {
      hasRenderClient, hasClient := false, false;
      format := None;
      hasResampler := false;
      ratio, periodFrames, period := 0.0, 0, 0;
    }

    method Start(reply: HResult) returns (hr: HResult)
      modifies this`calls, this`faulted
      ensures hasClient ==> hr == reply && calls == old(calls) + [ClientStart] && faulted == old(faulted)
      ensures !hasClient ==> hr == EPointer && faulted && calls == old(calls)
    {
      if !hasClient {
        faulted := true;
        return EPointer;
      }
      calls := calls + [ClientStart];
      hr := reply;
    }

    method Stop(reply: HResult) returns (hr: HResult)
      modifies this`calls, this`faulted
      ensures hasClient ==> hr == reply && calls == old(calls) + [ClientStop] && faulted == old(faulted)
      ensures !hasClient ==> hr == EPointer && faulted && calls == old(calls)
    {
      if !hasClient {
        faulted := true;
        return EPointer;
      }
      calls := calls + [ClientStop];
      hr := reply;
    }

    /** Probes the client with GetBufferSize and returns its code unchanged. */
    method VerifyClient(reply: HResult) returns (hr: HResult)
      modifies this`calls, this`faulted
      ensures hasClient ==> hr == reply && calls == old(calls) + [GetBufferSize] && faulted == old(faulted)
      ensures !hasClient ==> hr == EPointer && faulted && calls == old(calls)
    {
      if !hasClient {
        faulted := true;
        return EPointer;
      }
      calls := calls + [GetBufferSize];
      hr := reply;
    }

    /** The code Write reports for the given replies in the current state. */
    function WriteCode(bufferLength: nat, rr: RenderReplies): HResult
      reads this
    {
      if format.None? then EPointer
      else if rr.resample.error || !hasResampler then EFail
      else if Min(rr.resample.generated, periodFrames) == 0 && bufferLength != 0 then EAccessDenied
      else if !hasRenderClient then EPointer
      else SubmitCode(rr.getBuffer, rr.release)
    }

    /** One render period: resample `bufferLength` application frames into
        at most one device period, then acquire that many frames of the
        render buffer, fill them and release them. */
    method Write(buffer: array<real>, bufferLength: nat, rr: RenderReplies) returns (hr: HResult)
      requires Valid() && 2 * bufferLength <= buffer.Length
      modifies this`calls, this`faulted
      ensures Valid() && (old(faulted) ==> faulted) && hr == old(WriteCode(bufferLength, rr))
      ensures format.None? ==> faulted && calls == old(calls)
      ensures format.Some? ==>
        var gen := Min(rr.resample.generated, periodFrames);
        var resample := Resample(buffer[..2 * bufferLength], bufferLength, periodFrames, ratio);
        var resampled := rr.resample.error || !hasResampler;
        var starved := gen == 0 && bufferLength != 0;
        && (resampled ==> hr == EFail && calls == old(calls) + [resample] && faulted == old(faulted))
        && (!resampled && starved ==> hr == EAccessDenied && calls == old(calls) + [resample] && faulted == old(faulted))
        && (!resampled && !starved && !hasRenderClient ==> faulted && calls == old(calls) + [resample])
        && (!resampled && !starved && hasRenderClient ==>
              && hr == SubmitCode(rr.getBuffer, rr.release) && faulted == old(faulted)
              && calls == old(calls) + ([resample] + SubmitIssued(format.value, gen, rr.resample.output, rr.getBuffer)))
    {
      if format.None? {
        faulted := true;
        return EPointer;
      }
      var resample := Resample(buffer[..2 * bufferLength], bufferLength, periodFrames, ratio);
      if rr.resample.error || !hasResampler {
        calls := calls + [resample];
        return EFail;
      }
      var gen := Min(rr.resample.generated, periodFrames);
      if gen == 0 && bufferLength != 0 {
        calls := calls + [resample];
        return EAccessDenied;
      }
      if !hasRenderClient {
        calls := calls + [resample];
        faulted := true;
        return EPointer;
      }
      ghost var submitted: seq<Call>;
      hr, submitted := Submit(format.value, gen, rr.resample.output, rr.getBuffer, rr.release);
      calls := calls + ([resample] + submitted);
    }
  }
}

=== FILE: duplex_stream.dfy ===
/** CDXAudioDuplexStream: full duplex across two devices. A ClientReader on
    the default capture endpoint is woken by the stream's wait event; a
    ClientWriter on the default render endpoint has no wait event and is
    fed, once per capture period, with what the application's read-write
    callback produced from the captured frames. Start, Stop, Read and Write
    codes are not looked at. */
module Duplex {
  import opened Wrappers
  import opened Results
  import opened Samples
  import opened Platform
  import opened Engine
  import opened Callbacks
  import Reader
  import Writer

  /** The code Initialize reports for a callback answering to `interfaces`
      when the base Initialize reports `base`. */
  function InitCode(interfaces: set<Interface>, base: HResult): (hr: HResult)
    ensures hr == Ok <==> ReadWriteCallback in interfaces && !Failed(base)
    ensures hr != Ok ==> hr == EFail
  {
    if ReadWriteCallback !in interfaces || Failed(base) then EFail else Ok
  }

  class DuplexStream {
    const engine: StreamEngine
    const reader: Reader.ClientReader
    const writer: Writer.ClientWriter
    const callback: Callback
    /** m_InputDevice and m_InputDeviceID. */
    var inputDevice: Option<Device>
    var inputId: Option<DeviceId>
    /** m_OutputDevice and m_OutputDeviceID. */
    var outputDevice: Option<Device>
    var outputId: Option<DeviceId>
    /** m_Running. */
    var running: bool
    /** The stream dereferenced a null pointer. */
    var faulted: bool

    ghost predicate Valid()
      reads this, reader, writer
    {
      reader.Valid() && writer.Valid()
    }

    constructor (callback: Callback)
      ensures Valid() && this.callback == callback
      ensures fresh(engine) && fresh(reader) && fresh(writer)
      ensures reader.IsClean() && !reader.faulted && reader.calls == []
      ensures writer.IsClean() && !writer.faulted && writer.calls == []
      ensures inputDevice.None? && inputId.None? && outputDevice.None? && outputId.None?
      ensures !running && !faulted
    {
      this.callback := callback;
      engine := new StreamEngine();
      reader := new Reader.ClientReader();
      writer := new Writer.ClientWriter();
      inputDevice, inputId, outputDevice, outputId := None, None, None, None;
      running, faulted := false, false;
    }

    /** Takes the read-write callback interface; without it the application
        is told E_INVALIDARG and Initialize reports E_FAIL. A failing base
        Initialize reads as E_FAIL too. */
    method Initialize(sampleRate: real, eventReply: Signal -> Creation, threadReply: Creation) returns (hr: HResult)
      modifies engine, callback
      ensures hr == InitCode(callback.interfaces, CreationCode(eventReply, threadReply))
      ensures ReadWriteCallback !in callback.interfaces ==>
        && hr == EFail && unchanged(engine)
        && callback.notices == old(callback.notices) + [ObjectFailure(EInvalidArg)]
      ensures ReadWriteCallback in callback.interfaces ==>
        && engine.sampleRate == sampleRate
        && hr == (if Failed(CreationCode(eventReply, threadReply)) then EFail else Ok)
        && callback.notices == old(callback.notices) && engine.pending == old(engine.pending)
    {
      if ReadWriteCallback !in callback.interfaces {
        callback.OnObjectFailure(EInvalidArg);
        return EFail;
      }
      engine.sampleRate := sampleRate;
      hr := engine.Initialize(eventReply, threadReply);
      if Failed(hr) {
        return EFail;
      }
      hr := Ok;
    }

    /** HandleHR: S_OK passes; AUDCLNT_E_DEVICE_INVALIDATED reports E_FAIL
        and waits for the property-change hook; any other code is reported
        to the application and halts the stream. */
    method HandleHR(hr: HResult) returns (result: HResult)
      modifies engine`pending, callback
      ensures result == if hr == Ok then Ok else EFail
      ensures hr == Ok || hr == DeviceInvalidated ==>
        unchanged(callback) && engine.pending == old(engine.pending)
      ensures hr != Ok && hr != DeviceInvalidated ==>
        && callback.notices == old(callback.notices) + [ObjectFailure(hr)]
        && engine.pending == old(engine.pending) + {HaltEvent}
    {
      if hr == Ok {
        return Ok;
      }
      if hr == DeviceInvalidated {
        return EFail;
      }
      callback.OnObjectFailure(hr);
      engine.Halt();
      result := EFail;
    }

    /** InitClientReader: the reader, woken by the stream's wait event, on
        the input device. A failure other than AUDCLNT_E_DEVICE_INVALIDATED
        halts the stream without telling the application. */
    method InitClientReader(r: Replies)
      requires Valid() && ValidReplies(r)
      modifies this, reader, engine`pending
      ensures Valid() && unchanged(this`inputDevice, this`inputId, this`outputDevice, this`outputId, this`running)
      ensures old(inputDevice).None? ==> faulted && unchanged(reader) && engine.pending == old(engine.pending)
      ensures old(inputDevice).Some? ==>
        var code := Reader.InitOutcome(Some(WaitEvent), r.readerInit).hr;
        && faulted == old(faulted)
        && reader.calls == old(reader.calls) + Reader.InitIssued(false, Some(WaitEvent), old(inputDevice).value, r.readerInit)
        && (code == Ok ==> reader.IsBound())
        && (Failed(code) && code != DeviceInvalidated ==> engine.pending == old(engine.pending) + {HaltEvent})
        && (!Failed(code) || code == DeviceInvalidated ==> engine.pending == old(engine.pending))
    {
      if inputDevice.None? {
        faulted := true;
        return;
      }
      var hr := reader.Initialize(false, engine.sampleRate, Some(WaitEvent), inputDevice.value, r.readerInit);
      if Failed(hr) && hr != DeviceInvalidated {
        engine.Halt();
      }
    }

    /** InitClientWriter: the writer, without a wait event, on the output
        device; failures are treated as in InitClientReader. */
    method InitClientWriter(r: Replies)
      requires Valid() && ValidReplies(r)
      modifies this, writer, engine`pending
      ensures Valid() && unchanged(this`inputDevice, this`inputId, this`outputDevice, this`outputId, this`running)
      ensures old(outputDevice).None? ==> faulted && unchanged(writer) && engine.pending == old(engine.pending)
      ensures old(outputDevice).Some? ==>
        var code := Writer.InitOutcome(None, r.writerInit).hr;
        && faulted == old(faulted)
        && writer.calls == old(writer.calls) + Writer.InitIssued(None, old(outputDevice).value, r.writerInit)
        && (code == Ok ==> writer.IsBound())
        && (Failed(code) && code != DeviceInvalidated ==> engine.pending == old(engine.pending) + {HaltEvent})
        && (!Failed(code) || code == DeviceInvalidated ==> engine.pending == old(engine.pending))
    {
      if outputDevice.None? {
        faulted := true;
        return;
      }
      var hr := writer.Initialize(engine.sampleRate, None, outputDevice.value, r.writerInit);
      if Failed(hr) && hr != DeviceInvalidated {
        engine.Halt();
      }
    }

    /** ImplInitialize: the default capture endpoint and its id become the
        input device and the reader is initialized on it; then the default
        render endpoint and its id become the output device and the writer
        is initialized on it. */
    method ImplInitialize(r: Replies)
      requires Valid() && ValidReplies(r)
      modifies this, reader, writer, engine`pending, callback
      ensures Valid()
      ensures r.capture.endpoint != Ok ==> unchanged(reader, writer)
      ensures r.capture.endpoint != Ok && r.capture.endpoint != DeviceInvalidated ==>
        && callback.notices == old(callback.notices) + [ObjectFailure(r.capture.endpoint)]
        && engine.pending == old(engine.pending) + {HaltEvent}
      ensures r.capture.endpoint == Ok && r.capture.getId == Ok ==>
        && inputDevice == Some(r.capture.device) && inputId == Some(r.capture.device.id)
        && reader.calls == old(reader.calls) + Reader.InitIssued(false, Some(WaitEvent), r.capture.device, r.readerInit)
      ensures r.capture.endpoint == Ok && r.capture.getId == Ok && r.render.endpoint != Ok ==> unchanged(writer)
      ensures r.capture.endpoint == Ok && r.capture.getId == Ok && r.render.endpoint == Ok && r.render.getId == Ok ==>
        && outputDevice == Some(r.render.device) && outputId == Some(r.render.device.id)
        && writer.calls == old(writer.calls) + Writer.InitIssued(None, r.render.device, r.writerInit)
        && callback.notices == old(callback.notices)
        && (Reader.InitOutcome(Some(WaitEvent), r.readerInit).hr == Ok
            && Writer.InitOutcome(None, r.writerInit).hr == Ok ==>
              reader.IsBound() && writer.IsBound() && engine.pending == old(engine.pending))
    {
      var hr := r.capture.endpoint;
      if hr == Ok {
        inputDevice := Some(r.capture.device);
      }
      var handled := HandleHR(hr);
      if Failed(handled) {
        return;
      }
      hr := r.capture.getId;
      if hr == Ok {
        inputId := Some(r.capture.device.id);
      }
      handled := HandleHR(hr);
      if Failed(handled) {
        return;
      }
      InitClientReader(r);
      hr := r.render.endpoint;
      if hr == Ok {
        outputDevice := Some(r.render.device);
      }
      handled := HandleHR(hr);
      if Failed(handled) {
        return;
      }
      hr := r.render.getId;
      if hr == Ok {
        outputId := Some(r.render.device.id);
      }
      handled := HandleHR(hr);
      if Failed(handled) {
        return;
      }
      InitClientWriter(r);
    }

    /** ImplStart: marks the stream running and starts the reader and the
        writer, looking at neither code. */
    method ImplStart(r: Replies)
      requires Valid()
      modifies this`running, reader`calls, reader`faulted, writer`calls, writer`faulted
      ensures Valid() && running
      ensures old(reader.hasClient) ==> reader.calls == old(reader.calls) + [ClientStart] && reader.faulted == old(reader.faulted)
      ensures old(writer.hasClient) ==> writer.calls == old(writer.calls) + [ClientStart] && writer.faulted == old(writer.faulted)
      ensures !old(reader.hasClient) ==> reader.faulted
      ensures !old(writer.hasClient) ==> writer.faulted
    {
      running := true;
      var _ := reader.Start(r.readerStart);
      var _ := writer.Start(r.writerStart);
    }

    /** ImplStop: marks the stream stopped and stops both bindings, looking
        at neither code. */
    method ImplStop(r: Replies)
      requires Valid()
      modifies this`running, reader`calls, reader`faulted, writer`calls, writer`faulted
      ensures Valid() && !running
      ensures old(reader.hasClient) ==> reader.calls == old(reader.calls) + [ClientStop] && reader.faulted == old(reader.faulted)
      ensures old(writer.hasClient) ==> writer.calls == old(writer.calls) + [ClientStop] && writer.faulted == old(writer.faulted)
      ensures !old(reader.hasClient) ==> reader.faulted
      ensures !old(writer.hasClient) ==> writer.faulted
    {
      running := false;
      var _ := reader.Stop(r.readerStop);
      var _ := writer.Stop(r.writerStop);
    }

    /** The render half of ImplDeviceChange: follow the default render
        endpoint with the writer. `proceed` is false where the hook returns
        early. */
    method FollowRender(r: Replies) returns (proceed: bool)
      requires Valid() && ValidReplies(r)
      modifies this, writer, engine`pending, callback
      ensures Valid() && unchanged(this`inputDevice, this`inputId, this`running)
      ensures r.render.endpoint != Ok ==> !proceed && unchanged(this, writer)
      ensures r.render.endpoint != Ok && r.render.endpoint != DeviceInvalidated ==>
        && callback.notices == old(callback.notices) + [ObjectFailure(r.render.endpoint)]
        && engine.pending == old(engine.pending) + {HaltEvent}
      ensures r.render.endpoint == Ok && r.render.getId == Ok && old(outputId) == Some(r.render.device.id) ==>
        proceed && unchanged(this, writer, callback) && engine.pending == old(engine.pending)
      ensures r.render.endpoint == Ok && r.render.getId == Ok && old(outputId).None? ==> faulted
      ensures r.render.endpoint == Ok && r.render.getId == Ok && old(outputId).Some? && old(outputId) != Some(r.render.device.id) ==>
        && proceed && outputDevice == Some(r.render.device) && outputId == Some(r.render.device.id)
        && callback.notices == old(callback.notices)
        && (Writer.InitOutcome(None, r.writerInit).hr == Ok ==>
              && writer.IsBound() && engine.pending == old(engine.pending)
              && writer.calls == old(writer.calls) + Writer.InitIssued(None, r.render.device, r.writerInit)
                                 + (if running then [ClientStart] else []))
    {
      var hr := r.render.endpoint;
      var handled := HandleHR(hr);
      if Failed(handled) {
        return false;
      }
      hr := r.render.getId;
      handled := HandleHR(hr);
      if Failed(handled) {
        return false;
      }
      proceed := true;
      if outputId.None? {
        // wcscmp on a null id
        faulted := true;
        return;
      }
      var id := r.render.device.id;
      if id != outputId.value {
        writer.Clean();
        outputDevice, outputId := Some(r.render.device), Some(id);
        InitClientWriter(r);
        if running {
          var _ := writer.Start(r.writerStart);
        }
      }
    }

    /** The capture half of ImplDeviceChange: follow the default capture
        endpoint with the reader. */
    method FollowCapture(r: Replies)
      requires Valid() && ValidReplies(r)
      modifies this, reader, engine`pending, callback
      ensures Valid() && unchanged(this`outputDevice, this`outputId, this`running)
      ensures r.capture.endpoint != Ok ==> unchanged(this, reader)
      ensures r.capture.endpoint != Ok && r.capture.endpoint != DeviceInvalidated ==>
        && callback.notices == old(callback.notices) + [ObjectFailure(r.capture.endpoint)]
        && engine.pending == old(engine.pending) + {HaltEvent}
      ensures r.capture.endpoint == Ok && r.capture.getId == Ok && old(inputId) == Some(r.capture.device.id) ==>
        unchanged(this, reader, callback) && engine.pending == old(engine.pending)
      ensures r.capture.endpoint == Ok && r.capture.getId == Ok && old(inputId).None? ==> faulted
      ensures r.capture.endpoint == Ok && r.capture.getId == Ok && old(inputId).Some? && old(inputId) != Some(r.capture.device.id) ==>
        && inputDevice == Some(r.capture.device) && inputId == Some(r.capture.device.id)
        && callback.notices == old(callback.notices)
        && (Reader.InitOutcome(Some(WaitEvent), r.readerInit).hr == Ok ==>
              && reader.IsBound() && engine.pending == old(engine.pending)
              && reader.calls == old(reader.calls) + Reader.InitIssued(false, Some(WaitEvent), r.capture.device, r.readerInit)
                                 + (if running then [ClientStart] else []))
    {
      var hr := r.capture.endpoint;
      var handled := HandleHR(hr);
      if Failed(handled) {
        return;
      }
      hr := r.capture.getId;
      handled := HandleHR(hr);
      if Failed(handled) {
        return;
      }
      if inputId.None? {
        // wcscmp on a null id
        faulted := true;
        return;
      }
      var id := r.capture.device.id;
      if id != inputId.value {
        reader.Clean();
        inputDevice, inputId := Some(r.capture.device), Some(id);
        InitClientReader(r);
        if running {
          var _ := reader.Start(r.readerStart);
        }
      }
    }

    /** ImplDeviceChange: the render endpoint is followed first, then the
        capture endpoint; a render query that fails ends the hook. */
    method ImplDeviceChange(r: Replies)
      requires Valid() && ValidReplies(r)
      modifies this, reader, writer, engine`pending, callback
      ensures Valid() && running == old(running)
      ensures r.render.endpoint != Ok ==> unchanged(this, reader, writer)
      ensures r.render.endpoint != Ok && r.render.endpoint != DeviceInvalidated ==>
        && callback.notices == old(callback.notices) + [ObjectFailure(r.render.endpoint)]
        && engine.pending == old(engine.pending) + {HaltEvent}
      ensures r.render.endpoint == Ok && r.render.getId == Ok && old(outputId) == Some(r.render.device.id)
              && r.capture.endpoint == Ok && r.capture.getId == Ok && old(inputId) == Some(r.capture.device.id) ==>
        unchanged(this, reader, writer, callback) && engine.pending == old(engine.pending)
      ensures r.render.endpoint == Ok && r.render.getId == Ok && old(outputId).Some? && old(outputId) != Some(r.render.device.id)
              && r.capture.endpoint == Ok && r.capture.getId == Ok && old(inputId) == Some(r.capture.device.id)
              && Writer.InitOutcome(None, r.writerInit).hr == Ok ==>
        && outputDevice == Some(r.render.device) && outputId == Some(r.render.device.id)
        && writer.IsBound() && unchanged(reader)
        && writer.calls == old(writer.calls) + Writer.InitIssued(None, r.render.device, r.writerInit)
                           + (if running then [ClientStart] else [])
        && callback.notices == old(callback.notices) && engine.pending == old(engine.pending)
      ensures r.render.endpoint == Ok && r.render.getId == Ok && old(outputId) == Some(r.render.device.id)
              && r.capture.endpoint == Ok && r.capture.getId == Ok && old(inputId).Some? && old(inputId) != Some(r.capture.device.id)
              && Reader.InitOutcome(Some(WaitEvent), r.readerInit).hr == Ok ==>
        && inputDevice == Some(r.capture.device) && inputId == Some(r.capture.device.id)
        && reader.IsBound() && unchanged(writer)
        && reader.calls == old(reader.calls) + Reader.InitIssued(false, Some(WaitEvent), r.capture.device, r.readerInit)
                           + (if running then [ClientStart] else [])
        && callback.notices == old(callback.notices) && engine.pending == old(engine.pending)
    {
      var proceed := FollowRender(r);
      if proceed {
        FollowCapture(r);
      }
    }

    /** The writer half of ImplPropertyChange: probe the writer, rebuild it
        in place when its format changed (restarting it if the stream runs,
        its code unchecked), otherwise route the code through HandleHR.
        `proceed` is false where the hook returns early. */
    method RefreshWriter(r: Replies) returns (proceed: bool)
      requires Valid() && ValidReplies(r)
      modifies this, writer, engine`pending, callback
      ensures Valid() && unchanged(this`inputDevice, this`inputId, this`outputDevice, this`outputId, this`running)
      ensures !old(writer.hasClient) ==> !proceed && writer.faulted
      ensures old(writer.hasClient) && r.writerVerify == Ok ==>
        && proceed && writer.calls == old(writer.calls) + [GetBufferSize]
        && unchanged(this, callback) && engine.pending == old(engine.pending)
      ensures old(writer.hasClient) && r.writerVerify != Ok && r.writerVerify != DeviceInvalidated ==>
        && !proceed && writer.calls == old(writer.calls) + [GetBufferSize]
        && unchanged(this)
        && callback.notices == old(callback.notices) + [ObjectFailure(r.writerVerify)]
        && engine.pending == old(engine.pending) + {HaltEvent}
      ensures old(writer.hasClient) && r.writerVerify == DeviceInvalidated && old(outputDevice).Some?
              && Writer.InitOutcome(None, r.writerInit).hr == Ok ==>
        && proceed && writer.IsBound()
        && writer.calls == old(writer.calls) + [GetBufferSize]
                           + Writer.InitIssued(None, old(outputDevice).value, r.writerInit)
                           + (if running then [ClientStart] else [])
        && unchanged(callback) && engine.pending == old(engine.pending)
    {
      var hr := writer.VerifyClient(r.writerVerify);
      if hr == DeviceInvalidated {
        writer.Clean();
        InitClientWriter(r);
        if running {
          var _ := writer.Start(r.writerStart);
        }
      } else {
        var handled := HandleHR(hr);
        if Failed(handled) {
          return false;
        }
      }
      proceed := true;
    }

    /** The reader half of ImplPropertyChange. */
    method RefreshReader(r: Replies)
      requires Valid() && ValidReplies(r)
      modifies this, reader, engine`pending, callback
      ensures Valid() && unchanged(this`inputDevice, this`inputId, this`outputDevice, this`outputId, this`running)
      ensures !old(reader.hasClient) ==> reader.faulted
      ensures old(reader.hasClient) && r.readerVerify == Ok ==>
        && reader.calls == old(reader.calls) + [GetBufferSize]
        && unchanged(this, callback) && engine.pending == old(engine.pending)
      ensures old(reader.hasClient) && r.readerVerify != Ok && r.readerVerify != DeviceInvalidated ==>
        && reader.calls == old(reader.calls) + [GetBufferSize]
        && unchanged(this)
        && callback.notices == old(callback.notices) + [ObjectFailure(r.readerVerify)]
        && engine.pending == old(engine.pending) + {HaltEvent}
      ensures old(reader.hasClient) && r.readerVerify == DeviceInvalidated && old(inputDevice).Some?
              && Reader.InitOutcome(Some(WaitEvent), r.readerInit).hr == Ok ==>
        && reader.IsBound()
        && reader.calls == old(reader.calls) + [GetBufferSize]
                           + Reader.InitIssued(false, Some(WaitEvent), old(inputDevice).value, r.readerInit)
                           + (if running then [ClientStart] else [])
        && unchanged(callback) && engine.pending == old(engine.pending)
    {
      var hr := reader.VerifyClient(r.readerVerify);
      if hr == DeviceInvalidated {
        reader.Clean();
        InitClientReader(r);
        if running {
          var _ := reader.Start(r.readerStart);
        }
      } else {
        var _ := HandleHR(hr);
      }
    }

    /** ImplPropertyChange: the writer is probed and refreshed first; the
        reader only when the writer's code did not end the hook. */
    method ImplPropertyChange(r: Replies)
      requires Valid() && ValidReplies(r)
      modifies this, reader, writer, engine`pending, callback
      ensures Valid() && running == old(running)
      ensures old(writer.hasClient) && r.writerVerify != Ok && r.writerVerify != DeviceInvalidated ==>
        && unchanged(reader) && writer.calls == old(writer.calls) + [GetBufferSize]
        && callback.notices == old(callback.notices) + [ObjectFailure(r.writerVerify)]
        && engine.pending == old(engine.pending) + {HaltEvent}
      ensures old(writer.hasClient) && old(reader.hasClient) && r.writerVerify == Ok && r.readerVerify == Ok ==>
        && writer.calls == old(writer.calls) + [GetBufferSize]
        && reader.calls == old(reader.calls) + [GetBufferSize]
        && unchanged(this, callback) && engine.pending == old(engine.pending)
      ensures old(writer.hasClient) && old(reader.hasClient) && r.writerVerify == Ok
              && r.readerVerify != Ok && r.readerVerify != DeviceInvalidated ==>
        && writer.calls == old(writer.calls) + [GetBufferSize]
        && reader.calls == old(reader.calls) + [GetBufferSize]
        && callback.notices == old(callback.notices) + [ObjectFailure(r.readerVerify)]
        && engine.pending == old(engine.pending) + {HaltEvent}
      ensures old(writer.hasClient) && old(reader.hasClient) && old(outputDevice).Some? && old(inputDevice).Some?
              && r.writerVerify == DeviceInvalidated && Writer.InitOutcome(None, r.writerInit).hr == Ok
              && r.readerVerify == DeviceInvalidated && Reader.InitOutcome(Some(WaitEvent), r.readerInit).hr == Ok ==>
        && writer.IsBound() && reader.IsBound()
        && writer.calls == old(writer.calls) + [GetBufferSize]
                           + Writer.InitIssued(None, old(outputDevice).value, r.writerInit)
                           + (if running then [ClientStart] else [])
        && reader.calls == old(reader.calls) + [GetBufferSize]
                           + Reader.InitIssued(false, Some(WaitEvent), old(inputDevice).value, r.readerInit)
                           + (if running then [ClientStart] else [])
        && callback.notices == old(callback.notices) && engine.pending == old(engine.pending)
      ensures old(writer.hasClient) && old(reader.hasClient) && old(outputDevice).Some?
              && r.writerVerify == DeviceInvalidated && Writer.InitOutcome(None, r.writerInit).hr == Ok
              && r.readerVerify == Ok ==>
        && writer.IsBound()
        && writer.calls == old(writer.calls) + [GetBufferSize]
                           + Writer.InitIssued(None, old(outputDevice).value, r.writerInit)
                           + (if running then [ClientStart] else [])
        && reader.calls == old(reader.calls) + [GetBufferSize]
        && callback.notices == old(callback.notices) && engine.pending == old(engine.pending)
      ensures old(writer.hasClient) && old(reader.hasClient) && old(inputDevice).Some?
              && r.writerVerify == Ok
              && r.readerVerify == DeviceInvalidated && Reader.InitOutcome(Some(WaitEvent), r.readerInit).hr == Ok ==>
        && reader.IsBound()
        && writer.calls == old(writer.calls) + [GetBufferSize]
        && reader.calls == old(reader.calls) + [GetBufferSize]
                           + Reader.InitIssued(false, Some(WaitEvent), old(inputDevice).value, r.readerInit)
                           + (if running then [ClientStart] else [])
        && callback.notices == old(callback.notices) && engine.pending == old(engine.pending)
    {
      var proceed := RefreshWriter(r);
      if proceed {
        RefreshReader(r);
      }
    }

    /** ImplProcess: reads one period into a buffer of ceil(period frames x
        ratio) frames, hands the frames read to the application together
        with an output buffer of as many frames, and writes that buffer.
        No code is looked at, so a failing read still calls the application
        (with no frames) and still writes. */
    method ImplProcess(r: Replies)
      requires Valid()
      modifies reader`calls, reader`faulted, writer`calls, writer`faulted, callback
      ensures Valid()
      ensures var n := old(reader.ReadFrames(PeriodCapacity(reader.periodFrames, reader.ratio), r.captureIo));
        && callback.notices == old(callback.notices) + [Exchange(Fit(r.captureIo.resample.output, 2 * n), n)]
        && (writer.format.Some? ==>
              && |writer.calls| > |old(writer.calls)|
              && writer.calls[..|old(writer.calls)|] == old(writer.calls)
              && writer.calls[|old(writer.calls)|]
                   == Resample(Fit(r.callbackOut, 2 * n), n, writer.periodFrames, writer.ratio))
    {
      var capacity := PeriodCapacity(reader.periodFrames, reader.ratio);
      var inBuffer := new real[2 * capacity];
      var _, framesRead, _ := reader.Read(inBuffer, capacity, r.captureIo);
      var audioOut := callback.ProcessInOut(inBuffer[..2 * framesRead], framesRead, r.callbackOut);
      var outBuffer := new real[2 * framesRead](_ => 0.0);
      forall i | 0 <= i < 2 * framesRead {
        outBuffer[i] := audioOut[i];
      }
      assert outBuffer[..2 * framesRead] == audioOut;
      var _ := writer.Write(outBuffer, framesRead, r.renderIo);
    }
  }
}

=== FILE: engine.dfy ===
/** CDXAudioStream, the part every stream variant shares: six auto-reset
    events created in a fixed order, the stream thread's creation, the
    signal setters that are the stream's public face, and the choice the
    event loop makes on each wake-up. */
module Engine {
  import opened Wrappers
  import opened Results
  import opened Platform

  /** The wait array, in the order the event loop passes it to the wait:
      index 0 is the start event, index 5 the halt event. */
  const Order: seq<Signal> := [StartEvent, StopEvent, DeviceChangeEvent, PropertyChangeEvent, WaitEvent, HaltEvent]

  /** The position of an event in the wait array. */
  function IndexOf(s: Signal): (i: nat)
    ensures i < |Order| && Order[i] == s
  {
    match s
    case StartEvent => 0
    case StopEvent => 1
    case DeviceChangeEvent => 2
    case PropertyChangeEvent => 3
    case WaitEvent => 4
    case HaltEvent => 5
  }

  /** Every event occupies exactly one slot of the wait array. */
  lemma OrderIsInjective(i: nat, j: nat)
    requires i < |Order| && j < |Order| && Order[i] == Order[j]
    ensures i == j
  {
  }

  /** The handle GetWaitEvent hands to the bindings is the one the loop
      waits on at index 4, the processing slot. */
  lemma WaitEventIsProcessSlot()
    ensures IndexOf(WaitEvent) == 4 && Order[4] == WaitEvent
  {
  }

  /** A Win32 error code (a DWORD) as GetLastError reports it. */
  type Win32Error = x: nat | x < 0x1_0000_0000

  /** What a CreateEventW or CreateThread call gives back. */
  datatype Creation = Created | NotCreated(lastError: Win32Error)

  /** The first slot, from index i on, whose event fails to be created. */
  function FirstUncreated(reply: Signal -> Creation, i: nat): (k: nat)
    requires i <= |Order|
    ensures i <= k <= |Order|
    ensures k < |Order| ==> reply(Order[k]).NotCreated?
    ensures forall j :: i <= j < k ==> reply(Order[j]).Created?
    decreases |Order| - i
  {
    if i == |Order| then |Order|
    else if reply(Order[i]).NotCreated? then i
    else FirstUncreated(reply, i + 1)
  }

  /** The code the base Initialize reports: HRESULT_FROM_WIN32 of the
      first failed creation's last error, or S_OK. */
  function CreationCode(eventReply: Signal -> Creation, threadReply: Creation): HResult {
    var k := FirstUncreated(eventReply, 0);
    if k < |Order| then FromWin32(eventReply(Order[k]).lastError)
    else if threadReply.NotCreated? then FromWin32(threadReply.lastError)
    else Ok
  }

  /** The lowest slot, from index i on, whose event is signalled. */
  function LowestFrom(pending: set<Signal>, i: nat): (k: nat)
    requires i <= |Order|
    ensures i <= k <= |Order|
    ensures k < |Order| ==> Order[k] in pending
    ensures forall j :: i <= j < k ==> Order[j] !in pending
    decreases |Order| - i
  {
    if i == |Order| then |Order|
    else if Order[i] in pending then i
    else LowestFrom(pending, i + 1)
  }

  /** WaitForMultipleObjects with bWaitAll false reports the lowest index
      among the signalled events. */
  function Lowest(pending: set<Signal>): (k: nat)
    ensures k <= |Order|
  {
    LowestFrom(pending, 0)
  }

  /** The wait finds a signalled event exactly when one is pending, and the
      one it reports is signalled with no lower slot signalled. */
  lemma {:induction false} LowestIsLeastSignalled(pending: set<Signal>)
    ensures Lowest(pending) < |Order| <==> pending != {}
    ensures Lowest(pending) < |Order| ==>
      Order[Lowest(pending)] in pending &&
      forall s :: s in pending ==> Lowest(pending) <= IndexOf(s)
  {
    forall s | s in pending
      ensures Lowest(pending) <= IndexOf(s)
    {
      LowestFromAtMost(pending, 0, IndexOf(s));
    }
    if pending != {} {
      var s :| s in pending;
      LowestFromAtMost(pending, 0, IndexOf(s));
    }
  }

  lemma {:induction false} LowestFromAtMost(pending: set<Signal>, i: nat, j: nat)
    requires i <= j < |Order| && Order[j] in pending
    ensures LowestFrom(pending, i) <= j
    decreases j - i
  {
    if Order[i] !in pending {
      LowestFromAtMost(pending, i + 1, j);
    }
  }

  /** The hooks the loop dispatches to: ImplStart, ImplStop,
      ImplDeviceChange, ImplPropertyChange and ImplProcess. ImplInitialize,
      the sixth hook every variant supplies, runs once before the loop. */
  datatype Hook = StartHook | StopHook | DeviceChangeHook | PropertyChangeHook | ProcessHook

  /** What the loop does with a wait result. */
  datatype Action = Run(hook: Hook) | Close | Error

  /** The loop's switch over the wait result: indices 0 to 4 run one hook
      each, index 5 (the halt event) closes the loop, anything else is an
      error. */
  function Dispatch(waitResult: nat): (a: Action)
    ensures a == Close <==> waitResult == IndexOf(HaltEvent)
    ensures a == Error <==> waitResult >= |Order|
    ensures a == Run(StartHook) <==> waitResult == IndexOf(StartEvent)
    ensures a == Run(StopHook) <==> waitResult == IndexOf(StopEvent)
    ensures a == Run(DeviceChangeHook) <==> waitResult == IndexOf(DeviceChangeEvent)
    ensures a == Run(PropertyChangeHook) <==> waitResult == IndexOf(PropertyChangeEvent)
    ensures a == Run(ProcessHook) <==> waitResult == IndexOf(WaitEvent)
  {
    if waitResult == 4 then Run(ProcessHook)
    else if waitResult == 0 then Run(StartHook)
    else if waitResult == 1 then Run(StopHook)
    else if waitResult == 2 then Run(DeviceChangeHook)
    else if waitResult == 3 then Run(PropertyChangeHook)
    else if waitResult == 5 then Close
    else Error
  }

  /** What one wait returns: the index of the event it consumed, nothing
      yet (the thread is still blocked), or WAIT_FAILED. */
  datatype WaitResult = Woken(index: nat) | Blocked | WaitFailed

  class StreamEngine {
    /** The event handles created so far, in creation order. */
    var events: seq<Signal>
    /** m_Thread is a live thread handle. */
    var threadStarted: bool
    /** The events currently signalled. An auto-reset event is a flag: a
        second SetEvent before the wait consumes it changes nothing. */
    var pending: set<Signal>
    /** m_SampleRate, the application's rate. */
    var sampleRate: real

    constructor ()
      ensures events == [] && !threadStarted && pending == {} && sampleRate == 0.0
    {
      events, threadStarted, pending, sampleRate := [], false, {}, 0.0;
    }

    /** Creates the six events in wait-array order, then the stream thread.
        The first creation that fails ends Initialize with
        HRESULT_FROM_WIN32(GetLastError()); nothing later is created. */
    method Initialize(eventReply: Signal -> Creation, threadReply: Creation) returns (hr: HResult)
      modifies this`events, this`threadStarted
      ensures hr == CreationCode(eventReply, threadReply)
      ensures var k := FirstUncreated(eventReply, 0);
        && (k < |Order| ==>
              hr == FromWin32(eventReply(Order[k]).lastError) && events == Order[..k] && !threadStarted)
        && (k == |Order| ==> events == Order && threadStarted == threadReply.Created?)
        && (k == |Order| && threadReply.NotCreated? ==> hr == FromWin32(threadReply.lastError))
        && (k == |Order| && threadReply.Created? ==> hr == Ok)
    {
      events := [];
      threadStarted := false;
      var i := 0;
      while i < |Order|
        invariant 0 <= i <= |Order|
        invariant events == Order[..i] && !threadStarted
        invariant FirstUncreated(eventReply, 0) == FirstUncreated(eventReply, i)
      {
        var created := eventReply(Order[i]);
        if created.NotCreated? {
          return FromWin32(created.lastError);
        }
        events := events + [Order[i]];
        i := i + 1;
      }
      assert events == Order;
      if threadReply.NotCreated? {
        return FromWin32(threadReply.lastError);
      }
      threadStarted := true;
      hr := Ok;
    }

    /** SetEvent: raise one event and nothing else. Start, Stop and Halt,
        and the two notification forwarders, are each this with their own
        event. */
    method Raise(s: Signal)
      modifies this`pending
      ensures pending == old(pending) + {s}
    {
      pending := pending + {s};
    }

    /** Start: signal the start event. */
    method Start()
      modifies this`pending
      ensures pending == old(pending) + {StartEvent}
    {
      Raise(StartEvent);
    }

    /** Stop: signal the stop event. */
    method Stop()
      modifies this`pending
      ensures pending == old(pending) + {StopEvent}
    {
      Raise(StopEvent);
    }

    /** Halt: signal the halt event. */
    method Halt()
      modifies this`pending
      ensures pending == old(pending) + {HaltEvent}
    {
      Raise(HaltEvent);
    }

    /** OnDefaultDeviceChanged: only signals the device-change event. */
    method OnDefaultDeviceChanged()
      modifies this`pending
      ensures pending == old(pending) + {DeviceChangeEvent}
    {
      Raise(DeviceChangeEvent);
    }

    /** OnPropertyValueChanged: only signals the property-change event. */
    method OnPropertyValueChanged()
      modifies this`pending
      ensures pending == old(pending) + {PropertyChangeEvent}
    {
      Raise(PropertyChangeEvent);
    }

    /** GetSampleRate: the stored application rate. */
    function GetSampleRate(): (rate: real)
      reads this
      ensures rate == sampleRate
    {
      sampleRate
    }

    /** One WaitForMultipleObjectsEx: scans the wait array from index 0 and
        consumes the first signalled event (auto-reset); `failed` is the
        platform reporting WAIT_FAILED. */
    method Wait(failed: bool) returns (result: WaitResult)
      modifies this`pending
      ensures failed ==> result == WaitFailed && pending == old(pending)
      ensures !failed && old(pending) == {} ==> result == Blocked && pending == {}
      ensures !failed && old(pending) != {} ==>
        && result == Woken(Lowest(old(pending)))
        && result.index < |Order|
        && pending == old(pending) - {Order[result.index]}
    {
      if failed {
        return WaitFailed;
      }
      LowestIsLeastSignalled(pending);
      var i := 0;
      while i < |Order| && Order[i] !in pending
        invariant 0 <= i <= |Order|
        invariant LowestFrom(pending, i) == Lowest(pending)
      {
        i := i + 1;
      }
      if i == |Order| {
        return Blocked;
      }
      pending := pending - {Order[i]};
      result := Woken(i);
    }
  }
}

=== FILE: factory.dfy ===
/** DXAudioCreateStream: the library's one entry point. The stream
    description's type selects one of five creators; each builds its
    variant, runs the variant's Initialize and hands the stream out only if
    that succeeded. The variant's Initialize is summarised by its code,
    which depends on the interfaces the callback answers to and on the code
    of the shared base Initialize. */
module Factory {
  import opened Wrappers
  import opened Results
  import opened Callbacks
  import Output
  import Input
  import Duplex
  import Paired

  /** DXAUDIO_STREAM_TYPE. */
  datatype StreamType = OutputType | InputType | LoopbackType | DuplexType | EchoType

  /** The enumerator's value, which is also what the variant's
      GetStreamType reports. */
  function TypeCode(t: StreamType): (c: int)
    ensures 1 <= c <= 5
  {
    match t
    case OutputType => 1
    case InputType => 2
    case LoopbackType => 3
    case DuplexType => 4
    case EchoType => 5
  }

  /** The stream type a description's type field names, if any. */
  function TypeOf(c: int): (t: Option<StreamType>)
    ensures t.Some? <==> 1 <= c <= 5
    ensures t.Some? ==> TypeCode(t.value) == c
  {
    if c == 1 then Some(OutputType)
    else if c == 2 then Some(InputType)
    else if c == 3 then Some(LoopbackType)
    else if c == 4 then Some(DuplexType)
    else if c == 5 then Some(EchoType)
    else None
  }

  /** Each type's value names that type and no other. */
  lemma TypeCodeRoundTrip(t: StreamType)
    ensures TypeOf(TypeCode(t)) == Some(t)
  {
  }

  /** The callback interface each variant's Initialize asks for. */
  function Required(t: StreamType): (i: Interface)
    ensures i == WriteCallback <==> t == OutputType
    ensures i == ReadCallback <==> t == InputType || t == LoopbackType
    ensures i == ReadWriteCallback <==> t == DuplexType || t == EchoType
  {
    match t
    case OutputType => WriteCallback
    case InputType => ReadCallback
    case LoopbackType => Paired.Required(false)
    case DuplexType => ReadWriteCallback
    case EchoType => Paired.Required(true)
  }

  /** What the variant of type t reports from Initialize. */
  function InitializeCode(t: StreamType, interfaces: set<Interface>, base: HResult): (hr: HResult)
    ensures hr == Ok <==> Required(t) in interfaces && !Failed(base)
  {
    match t
    case OutputType => Output.InitCode(interfaces, base)
    case InputType => Input.InitCode(interfaces, base)
    case LoopbackType => Paired.InitCode(false, interfaces, base)
    case DuplexType => Duplex.InitCode(interfaces, base)
    case EchoType => Paired.InitCode(true, interfaces, base)
  }

  /** Every Initialize reports S_OK or a failure code, never another
      success code, so the creators' FAILED test and a test for S_OK agree. */
  lemma InitializeSucceedsOnlyWithOk(t: StreamType, interfaces: set<Interface>, base: HResult)
    ensures !Failed(InitializeCode(t, interfaces, base)) <==> InitializeCode(t, interfaces, base) == Ok
  {
    match t
    case OutputType =>
    case InputType =>
      assert Input.InitCode(interfaces, base) in {EFail, base, Ok};
    case LoopbackType =>
    case DuplexType =>
    case EchoType =>
  }

  /** What the caller's out-pointer holds afterwards: nothing written, a
      null pointer, or a new stream of the given type. */
  datatype OutPointer = Untouched | Null | NewStream(kind: StreamType)

  /** The code the entry point returns and the out-pointer it leaves. */
  datatype Created = Created(hr: HResult, out: OutPointer)

  /** One DXAudioCreate*Stream helper: a failing Initialize nulls the
      out-pointer and its code is returned; otherwise the new stream is
      handed out with S_OK. */
  function CreateTyped(t: StreamType, interfaces: set<Interface>, base: HResult): (c: Created)
    ensures c.out != Untouched
    ensures c.out.Null? <==> Failed(InitializeCode(t, interfaces, base))
    ensures c.out.Null? ==> c.hr == InitializeCode(t, interfaces, base)
    ensures c.out.NewStream? ==> c.hr == Ok && c.out.kind == t
  {
    var hr := InitializeCode(t, interfaces, base);
    if Failed(hr) then Created(hr, Null) else Created(Ok, NewStream(t))
  }

  /** DXAudioCreateStream: the description's type picks the creator; a
      type outside the enumeration is E_INVALIDARG with the out-pointer
      left as it was. The sample rate is stored by the variant and plays no
      part in the outcome. */
  function CreateStream(typeCode: int, interfaces: set<Interface>, base: HResult): (c: Created)
    ensures TypeOf(typeCode).None? ==> c == Created(EInvalidArg, Untouched)
    ensures TypeOf(typeCode).Some? ==> c == CreateTyped(TypeOf(typeCode).value, interfaces, base)
  {
    match TypeOf(typeCode)
    case None => Created(EInvalidArg, Untouched)
    case Some(t) => CreateTyped(t, interfaces, base)
  }

  /** A stream is handed out exactly when the type is known, the callback
      answers to the interface that type needs and the base Initialize
      succeeds; the stream handed out reports the type asked for, and the
      call then returns S_OK. Every other outcome is a failure code. */
  lemma {:induction false} CreateSucceedsIff(typeCode: int, interfaces: set<Interface>, base: HResult)
    ensures var c := CreateStream(typeCode, interfaces, base);
      && (c.out.NewStream? <==>
            TypeOf(typeCode).Some? && Required(TypeOf(typeCode).value) in interfaces && !Failed(base))
      && (c.out.NewStream? ==> c.hr == Ok && TypeCode(c.out.kind) == typeCode)
      && (!c.out.NewStream? ==> Failed(c.hr))
  {
    var c := CreateStream(typeCode, interfaces, base);
    if TypeOf(typeCode).Some? {
      var t := TypeOf(typeCode).value;
      InitializeSucceedsOnlyWithOk(t, interfaces, base);
    }
  }
}

=== FILE: input_stream.dfy ===
/** CDXAudioInputStream: capture-only. The stream binds the default capture
    endpoint with one ClientReader woken by the stream's wait event, and on
    every wake-up reads one period, resampled to the application's rate,
    and hands it to the application. Unlike the other variants it never
    rebuilds from inside HandleHR and ignores the codes of Start, Stop and
    Read. */
module Input {
  import opened Wrappers
  import opened Results
  import opened Samples
  import opened Platform
  import opened Engine
  import opened Callbacks
  import Reader

  /** The code Initialize reports for a callback answering to `interfaces`
      when the base Initialize reports `base`: a failing base code comes
      back unchanged. */
  function InitCode(interfaces: set<Interface>, base: HResult): (hr: HResult)
    ensures hr == Ok <==> ReadCallback in interfaces && !Failed(base)
    ensures ReadCallback !in interfaces ==> hr == EFail
    ensures ReadCallback in interfaces && Failed(base) ==> hr == base
  {
    if ReadCallback !in interfaces then EFail
    else if Failed(base) then base
    else Ok
  }

  class InputStream {
    const engine: StreamEngine
    const reader: Reader.ClientReader
    const callback: Callback
    /** m_InputDevice and m_DeviceID. */
    var device: Option<Device>
    var deviceId: Option<DeviceId>
    /** m_Running. */
    var running: bool
    /** The stream dereferenced a null pointer. */
    var faulted: bool

    ghost predicate Valid()
      reads this, reader
    {
      reader.Valid()
    }

    constructor (callback: Callback)
      ensures Valid() && this.callback == callback && fresh(engine) && fresh(reader)
      ensures reader.IsClean() && !reader.faulted && reader.calls == []
      ensures device.None? && deviceId.None? && !running && !faulted
    {
      this.callback := callback;
      engine := new StreamEngine();
      reader := new Reader.ClientReader();
      device, deviceId := None, None;
      running, faulted := false, false;
    }

    /** Takes the read-callback interface; without it the application is
        told E_INVALIDARG and Initialize reports E_FAIL. A failing base
        Initialize is reported with its own code. */
    method Initialize(sampleRate: real, eventReply: Signal -> Creation, threadReply: Creation) returns (hr: HResult)
      modifies engine, callback
      ensures hr == InitCode(callback.interfaces, CreationCode(eventReply, threadReply))
      ensures ReadCallback !in callback.interfaces ==>
        && hr == EFail && unchanged(engine)
        && callback.notices == old(callback.notices) + [ObjectFailure(EInvalidArg)]
      ensures ReadCallback in callback.interfaces ==>
        var code := CreationCode(eventReply, threadReply);
        && engine.sampleRate == sampleRate
        && hr == (if Failed(code) then code else Ok)
        && callback.notices == old(callback.notices) && engine.pending == old(engine.pending)
    {
      if ReadCallback !in callback.interfaces {
        callback.OnObjectFailure(EInvalidArg);
        return EFail;
      }
      engine.sampleRate := sampleRate;
      hr := engine.Initialize(eventReply, threadReply);
      if Failed(hr) {
        return hr;
      }
      hr := Ok;
    }

    /** HandleHR: S_OK passes; AUDCLNT_E_DEVICE_INVALIDATED reports E_FAIL
        and waits for the property-change hook; any other code is reported
        to the application and halts the stream. */
    method HandleHR(hr: HResult) returns (result: HResult)
      modifies engine`pending, callback
      ensures result == if hr == Ok then Ok else EFail
      ensures hr == Ok || hr == DeviceInvalidated ==>
        unchanged(callback) && engine.pending == old(engine.pending)
      ensures hr != Ok && hr != DeviceInvalidated ==>
        && callback.notices == old(callback.notices) + [ObjectFailure(hr)]
        && engine.pending == old(engine.pending) + {HaltEvent}
    {
      if hr == Ok {
        return Ok;
      }
      if hr == DeviceInvalidated {
        return EFail;
      }
      callback.OnObjectFailure(hr);
      engine.Halt();
      result := EFail;
    }

    /** InitClientReader: initializes the reader (not in loopback mode) on
        the stream's device with the stream's wait event. A failure other
        than AUDCLNT_E_DEVICE_INVALIDATED halts the stream without telling
        the application. */
    method InitClientReader(r: Replies)
      requires Valid() && ValidReplies(r)
      modifies this, reader, engine`pending
      ensures Valid() && device == old(device) && deviceId == old(deviceId) && running == old(running)
      ensures old(device).None? ==> faulted && unchanged(reader) && engine.pending == old(engine.pending)
      ensures old(device).Some? ==>
        var code := Reader.InitOutcome(Some(WaitEvent), r.readerInit).hr;
        && faulted == old(faulted)
        && reader.calls == old(reader.calls) + Reader.InitIssued(false, Some(WaitEvent), old(device).value, r.readerInit)
        && (code == Ok ==>
              reader.IsBound() && reader.ratio == Quotient(engine.sampleRate, r.readerInit.format.samplesPerSec as real))
        && (Failed(code) && code != DeviceInvalidated ==> engine.pending == old(engine.pending) + {HaltEvent})
        && (!Failed(code) || code == DeviceInvalidated ==> engine.pending == old(engine.pending))
    {
      if device.None? {
        faulted := true;
        return;
      }
      var hr := reader.Initialize(false, engine.sampleRate, Some(WaitEvent), device.value, r.readerInit);
      if Failed(hr) && hr != DeviceInvalidated {
        engine.Halt();
      }
    }

    /** ImplInitialize: the default capture endpoint of the console role and
        its id become the stream's device, then the reader is initialized. */
    method ImplInitialize(r: Replies)
      requires Valid() && ValidReplies(r)
      modifies this, reader, engine`pending, callback
      ensures Valid()
      ensures r.capture.endpoint != Ok ==> unchanged(reader) && deviceId == old(deviceId)
      ensures r.capture.endpoint != Ok && r.capture.endpoint != DeviceInvalidated ==>
        && callback.notices == old(callback.notices) + [ObjectFailure(r.capture.endpoint)]
        && engine.pending == old(engine.pending) + {HaltEvent}
      ensures r.capture.endpoint == Ok && r.capture.getId == Ok ==>
        && device == Some(r.capture.device) && deviceId == Some(r.capture.device.id)
        && callback.notices == old(callback.notices)
        && reader.calls == old(reader.calls) + Reader.InitIssued(false, Some(WaitEvent), r.capture.device, r.readerInit)
        && (Reader.InitOutcome(Some(WaitEvent), r.readerInit).hr == Ok ==> reader.IsBound())
    {
      var hr := r.capture.endpoint;
      if hr == Ok {
        device := Some(r.capture.device);
      }
      var handled := HandleHR(hr);
      if Failed(handled) {
        return;
      }
      hr := r.capture.getId;
      if hr == Ok {
        deviceId := Some(r.capture.device.id);
      }
      handled := HandleHR(hr);
      if Failed(handled) {
        return;
      }
      InitClientReader(r);
    }

    /** ImplStart: marks the stream running and starts the reader; the
        reader's code is not looked at, so a failing start is reported to
        no one. */
    method ImplStart(r: Replies)
      requires Valid()
      modifies this, reader`calls, reader`faulted
      ensures Valid() && running && device == old(device) && deviceId == old(deviceId)
      ensures old(reader.hasClient) ==> reader.calls == old(reader.calls) + [ClientStart] && reader.faulted == old(reader.faulted)
      ensures !old(reader.hasClient) ==> reader.faulted
    {
      running := true;
      var _ := reader.Start(r.readerStart);
    }

    /** ImplStop: marks the stream stopped and stops the reader, ignoring
        its code. */
    method ImplStop(r: Replies)
      requires Valid()
      modifies this, reader`calls, reader`faulted
      ensures Valid() && !running && device == old(device) && deviceId == old(deviceId)
      ensures old(reader.hasClient) ==> reader.calls == old(reader.calls) + [ClientStop] && reader.faulted == old(reader.faulted)
      ensures !old(reader.hasClient) ==> reader.faulted
    {
      running := false;
      var _ := reader.Stop(r.readerStop);
    }

    /** Clean the reader, initialize it again and restart it if the stream
        is running, ignoring the restart's code. */
    method Rebuild(r: Replies)
      requires Valid() && ValidReplies(r)
      modifies this, reader, engine`pending
      ensures Valid() && device == old(device) && deviceId == old(deviceId) && running == old(running)
      ensures old(device).Some? ==>
        var code := Reader.InitOutcome(Some(WaitEvent), r.readerInit).hr;
        && (code == Ok ==>
              && reader.IsBound() && engine.pending == old(engine.pending)
              && reader.calls == old(reader.calls) + Reader.InitIssued(false, Some(WaitEvent), old(device).value, r.readerInit)
                                 + (if running then [ClientStart] else []))
        && (Failed(code) && code != DeviceInvalidated ==> engine.pending == old(engine.pending) + {HaltEvent})
    {
      reader.Clean();
      InitClientReader(r);
      if running {
        var _ := reader.Start(r.readerStart);
      }
    }

    /** ImplDeviceChange: queries the default capture endpoint; when its id
        differs from the stream's, the reader is cleaned, the new device
        adopted and the reader rebuilt on it. An unchanged id changes
        nothing. */
    method ImplDeviceChange(r: Replies)
      requires Valid() && ValidReplies(r)
      modifies this, reader, engine`pending, callback
      ensures Valid() && running == old(running)
      ensures r.capture.endpoint != Ok ==> unchanged(this, reader)
      ensures r.capture.endpoint != Ok && r.capture.endpoint != DeviceInvalidated ==>
        && callback.notices == old(callback.notices) + [ObjectFailure(r.capture.endpoint)]
        && engine.pending == old(engine.pending) + {HaltEvent}
      ensures r.capture.endpoint == Ok && r.capture.getId == Ok && old(deviceId) == Some(r.capture.device.id) ==>
        unchanged(this, reader, callback) && engine.pending == old(engine.pending)
      ensures r.capture.endpoint == Ok && r.capture.getId == Ok && old(deviceId).None? ==> faulted
      ensures r.capture.endpoint == Ok && r.capture.getId == Ok && old(deviceId).Some? && old(deviceId) != Some(r.capture.device.id) ==>
        && device == Some(r.capture.device) && deviceId == Some(r.capture.device.id)
        && callback.notices == old(callback.notices)
        && (Reader.InitOutcome(Some(WaitEvent), r.readerInit).hr == Ok ==>
              && reader.IsBound() && engine.pending == old(engine.pending)
              && reader.calls == old(reader.calls) + Reader.InitIssued(false, Some(WaitEvent), r.capture.device, r.readerInit)
                                 + (if running then [ClientStart] else []))
    {
      var hr := r.capture.endpoint;
      var handled := HandleHR(hr);
      if Failed(handled) {
        return;
      }
      hr := r.capture.getId;
      handled := HandleHR(hr);
      if Failed(handled) {
        return;
      }
      if deviceId.None? {
        // wcscmp on a null id
        faulted := true;
        return;
      }
      var id := r.capture.device.id;
      if id != deviceId.value {
        device, deviceId := Some(r.capture.device), Some(id);
        Rebuild(r);
      }
    }

    /** ImplPropertyChange: probes the reader; a client invalidated by a
        format change is rebuilt in place, any other code goes to HandleHR. */
    method ImplPropertyChange(r: Replies)
      requires Valid() && ValidReplies(r)
      modifies this, reader, engine`pending, callback
      ensures Valid() && device == old(device) && deviceId == old(deviceId) && running == old(running)
      ensures old(reader.hasClient) && r.readerVerify == Ok ==>
        && reader.calls == old(reader.calls) + [GetBufferSize]
        && unchanged(this, callback) && engine.pending == old(engine.pending)
      ensures old(reader.hasClient) && r.readerVerify != Ok && r.readerVerify != DeviceInvalidated ==>
        && reader.calls == old(reader.calls) + [GetBufferSize]
        && callback.notices == old(callback.notices) + [ObjectFailure(r.readerVerify)]
        && engine.pending == old(engine.pending) + {HaltEvent}
      ensures old(reader.hasClient) && r.readerVerify == DeviceInvalidated && old(device).Some?
              && Reader.InitOutcome(Some(WaitEvent), r.readerInit).hr == Ok ==>
        && reader.IsBound()
        && reader.calls == old(reader.calls) + [GetBufferSize]
                           + Reader.InitIssued(false, Some(WaitEvent), old(device).value, r.readerInit)
                           + (if running then [ClientStart] else [])
        && callback.notices == old(callback.notices) && engine.pending == old(engine.pending)
      ensures !old(reader.hasClient) ==> reader.faulted
    {
      var hr := reader.VerifyClient(r.readerVerify);
      if hr == DeviceInvalidated {
        Rebuild(r);
      } else {
        var _ := HandleHR(hr);
      }
    }

    /** ImplProcess: reads one period into a buffer of ceil(period frames x
        ratio) frames and hands the application exactly the frames read;
        the read's code is not looked at. */
    method ImplProcess(r: Replies)
      requires Valid()
      modifies reader`calls, reader`faulted, callback
      ensures Valid()
      ensures var capacity := PeriodCapacity(reader.periodFrames, reader.ratio);
        var n := old(reader.ReadFrames(capacity, r.captureIo));
        callback.notices == old(callback.notices) + [Captured(Fit(r.captureIo.resample.output, 2 * n), n)]
    {
      var capacity := PeriodCapacity(reader.periodFrames, reader.ratio);
      var buffer := new real[2 * capacity];
      var hr, framesRead, local := reader.Read(buffer, capacity, r.captureIo);
      callback.ProcessIn(buffer[..2 * framesRead], framesRead);
    }
  }
}

=== FILE: output_stream.dfy ===
/** CDXAudioOutputStream: render-only. The stream binds the default render
    endpoint with one ClientWriter woken by the stream's wait event, and on
    every wake-up asks the application for as many frames as the device
    period needs at the application's rate, carrying the fractional frame
    over in an accumulator. */
module Output {
  import opened Wrappers
  import opened Results
  import opened Samples
  import opened Platform
  import opened Engine
  import opened Callbacks
  import Writer

  /** The frames one tick asks for: the accumulator plus the period's demand
      in application frames, rounded up. */
  function Demand(acc: real, q: real): (gen: int)
    ensures acc + q <= gen as real < acc + q + 1.0
  {
    Ceil(acc + q)
  }

  /** After a tick whose write succeeds the accumulator holds the frames
      asked for beyond the exact demand, negated: always in (-1, 0], from
      any starting value. */
  lemma AccumulatorStaysInRange(acc: real, q: real)
    ensures -1.0 < acc + q - Demand(acc, q) as real <= 0.0
  {
  }

  /** The accumulator after n successful ticks from 0 at a constant demand
      of q frames per tick. */
  function AccAfter(q: real, n: nat): real {
    if n == 0 then 0.0
    else AccAfter(q, n - 1) + q - Demand(AccAfter(q, n - 1), q) as real
  }

  /** The frames asked for over those n ticks. */
  function TotalAfter(q: real, n: nat): int {
    if n == 0 then 0
    else TotalAfter(q, n - 1) + Demand(AccAfter(q, n - 1), q)
  }

  /** Conservation: after n ticks the application has been asked for
      exactly ceil(n * q) frames, and the accumulator holds the difference
      between the exact and the requested total. */
  lemma {:induction false} Conservation(q: real, n: nat)
    ensures TotalAfter(q, n) == Ceil(n as real * q)
    ensures AccAfter(q, n) == n as real * q - TotalAfter(q, n) as real
  {
    if n > 0 {
      var m := n - 1;
      Conservation(q, m);
      var total, acc := TotalAfter(q, m), AccAfter(q, m);
      var y := n as real * q;
      assert y == m as real * q + q;
      assert acc + q == y - total as real;
      CeilShift(y, total);
      assert Demand(acc, q) == Ceil(y) - total;
    }
  }

  /** The code Initialize reports for a callback answering to `interfaces`
      when the base Initialize reports `base`. */
  function InitCode(interfaces: set<Interface>, base: HResult): (hr: HResult)
    ensures hr == Ok <==> WriteCallback in interfaces && !Failed(base)
    ensures WriteCallback !in interfaces ==> hr == EInvalidArg
    ensures WriteCallback in interfaces && Failed(base) ==> hr == EFail
  {
    if WriteCallback !in interfaces then EInvalidArg
    else if Failed(base) then EFail
    else Ok
  }

  class OutputStream {
    const engine: StreamEngine
    const writer: Writer.ClientWriter
    const callback: Callback
    /** m_OutputDevice and m_DeviceID. */
    var device: Option<Device>
    var deviceId: Option<DeviceId>
    /** m_SamplesNeeded, the fractional-frame accumulator. */
    var samplesNeeded: real
    /** m_Running. */
    var running: bool
    /** The stream dereferenced a null pointer, or its error handling
        recursed beyond the replies the model was given. */
    var faulted: bool

    ghost predicate Valid()
      reads this, writer
    {
      writer.Valid()
    }

    constructor (callback: Callback)
      ensures Valid() && this.callback == callback && fresh(engine) && fresh(writer)
      ensures writer.IsClean() && !writer.faulted && writer.calls == []
      ensures device.None? && deviceId.None? && samplesNeeded == 0.0 && !running && !faulted
    {
      this.callback := callback;
      engine := new StreamEngine();
      writer := new Writer.ClientWriter();
      device, deviceId := None, None;
      samplesNeeded, running, faulted := 0.0, false, false;
    }

    /** Takes the write-callback interface (E_INVALIDARG without it, before
        any event or thread exists), stores the rate and runs the base
        Initialize, whose failure reads as E_FAIL. */
    method Initialize(sampleRate: real, eventReply: Signal -> Creation, threadReply: Creation) returns (hr: HResult)
      modifies engine
      ensures hr == InitCode(callback.interfaces, CreationCode(eventReply, threadReply))
      ensures WriteCallback !in callback.interfaces ==> hr == EInvalidArg && unchanged(engine)
      ensures WriteCallback in callback.interfaces ==>
        && engine.sampleRate == sampleRate
        && hr == (if Failed(CreationCode(eventReply, threadReply)) then EFail else Ok)
        && engine.pending == old(engine.pending)
    {
      if WriteCallback !in callback.interfaces {
        return EInvalidArg;
      }
      engine.sampleRate := sampleRate;
      hr := engine.Initialize(eventReply, threadReply);
      if Failed(hr) {
        return EFail;
      }
      hr := Ok;
    }

    /** HandleHR: S_OK passes; AUDCLNT_E_DEVICE_INVALIDATED runs the property
        change hook at once (one level of `nested` replies deeper) and
        reports E_FAIL; any other code is reported to the application once
        and halts the stream. */
    method HandleHR(hr: HResult, nested: seq<Replies>) returns (result: HResult)
      requires Valid() && AllValid(nested)
      modifies this, writer, engine`pending, callback
      decreases |nested|, 0
      ensures Valid() && device == old(device) && deviceId == old(deviceId) && running == old(running)
      ensures result == if hr == Ok then Ok else EFail
      ensures hr == Ok ==> unchanged(this, writer, callback) && engine.pending == old(engine.pending)
      ensures hr != Ok && hr != DeviceInvalidated ==>
        && unchanged(this, writer)
        && callback.notices == old(callback.notices) + [ObjectFailure(hr)]
        && engine.pending == old(engine.pending) + {HaltEvent}
      ensures hr == DeviceInvalidated && nested == [] ==> faulted
      ensures old(writer.calls) <= writer.calls
      ensures hr == DeviceInvalidated && nested != [] ==>
        var n := nested[0];
        && (!old(writer.hasClient) ==> writer.faulted)
        && (old(writer.hasClient) ==> |writer.calls| > |old(writer.calls)|
                                      && writer.calls[|old(writer.calls)|] == GetBufferSize)
        && (old(writer.hasClient) && n.writerVerify == Ok ==>
              && writer.calls == old(writer.calls) + [GetBufferSize]
              && unchanged(this, callback) && engine.pending == old(engine.pending))
        && (old(writer.hasClient) && n.writerVerify != Ok && n.writerVerify != DeviceInvalidated ==>
              && writer.calls == old(writer.calls) + [GetBufferSize]
              && callback.notices == old(callback.notices) + [ObjectFailure(n.writerVerify)]
              && engine.pending == old(engine.pending) + {HaltEvent})
        && (old(writer.hasClient) && n.writerVerify == DeviceInvalidated && old(device).Some?
            && Writer.InitOutcome(Some(WaitEvent), n.writerInit).hr == Ok && (!running || n.writerStart == Ok) ==>
              && writer.IsBound() && samplesNeeded == 0.0
              && writer.calls == old(writer.calls) + [GetBufferSize]
                                 + Writer.InitIssued(Some(WaitEvent), old(device).value, n.writerInit)
                                 + (if running then [ClientStart] else [])
              && callback.notices == old(callback.notices) && engine.pending == old(engine.pending))
    {
      if hr == Ok {
        return Ok;
      }
      if hr == DeviceInvalidated {
        if nested == [] {
          faulted := true;
          return EFail;
        }
        ghost var before := writer.calls;
        ImplPropertyChange(nested[0], nested[1..]);
        if old(writer.hasClient) {
          assert writer.calls[|before|] == writer.calls[..|before| + 1][|before|];
        }
        return EFail;
      }
      callback.OnObjectFailure(hr);
      engine.Halt();
      result := EFail;
    }

    /** InitClientWriter: initializes the writer on the stream's device with
        the stream's wait event and routes the code through HandleHR. */
    method InitClientWriter(r: Replies, nested: seq<Replies>)
      requires Valid() && ValidReplies(r) && AllValid(nested)
      modifies this, writer, engine`pending, callback
      decreases |nested|, 1
      ensures Valid() && device == old(device) && deviceId == old(deviceId) && running == old(running)
      ensures old(device).None? ==> faulted
      ensures old(writer.calls) <= writer.calls
      ensures old(device).Some? ==>
        var code := Writer.InitOutcome(Some(WaitEvent), r.writerInit).hr;
        && (code != DeviceInvalidated ==>
              && writer.calls == old(writer.calls) + Writer.InitIssued(Some(WaitEvent), old(device).value, r.writerInit)
              && samplesNeeded == old(samplesNeeded))
        && (code == Ok ==>
              && writer.IsBound() && writer.ratio == Quotient(r.writerInit.format.samplesPerSec as real, engine.sampleRate)
              && callback.notices == old(callback.notices) && engine.pending == old(engine.pending))
        && (code != Ok && code != DeviceInvalidated ==>
              && callback.notices == old(callback.notices) + [ObjectFailure(code)]
              && engine.pending == old(engine.pending) + {HaltEvent})
    {
      if device.None? {
        faulted := true;
        return;
      }
      var hr := writer.Initialize(engine.sampleRate, Some(WaitEvent), device.value, r.writerInit);
      var _ := HandleHR(hr, nested);
    }

    /** ImplInitialize: the default render endpoint of the console role and
        its id become the stream's device, then the writer is initialized. */
    method ImplInitialize(r: Replies, nested: seq<Replies>)
      requires Valid() && ValidReplies(r) && AllValid(nested)
      modifies this, writer, engine`pending, callback
      ensures Valid()
      ensures r.render.endpoint != Ok && r.render.endpoint != DeviceInvalidated ==>
        && callback.notices == old(callback.notices) + [ObjectFailure(r.render.endpoint)]
        && engine.pending == old(engine.pending) + {HaltEvent}
        && unchanged(writer)
      ensures r.render.endpoint == Ok && r.render.getId == Ok ==>
        && device == Some(r.render.device) && deviceId == Some(r.render.device.id)
        && (Writer.InitOutcome(Some(WaitEvent), r.writerInit).hr == Ok ==>
              writer.IsBound() && writer.calls == old(writer.calls) + Writer.InitIssued(Some(WaitEvent), r.render.device, r.writerInit))
    {
      var hr := r.render.endpoint;
      if hr == Ok {
        device := Some(r.render.device);
      }
      var handled := HandleHR(hr, nested);
      if Failed(handled) {
        return;
      }
      hr := r.render.getId;
      if hr == Ok {
        deviceId := Some(r.render.device.id);
      }
      handled := HandleHR(hr, nested);
      if Failed(handled) {
        return;
      }
      InitClientWriter(r, nested);
    }

    /** Clean the writer, initialize it again, restart it if the stream is
        running, and reset the accumulator: the rebuild shared by the
        device-change and property-change hooks. A failing restart leaves
        the accumulator as it was. */
    method Rebuild(r: Replies, nested: seq<Replies>)
      requires Valid() && ValidReplies(r) && AllValid(nested)
      modifies this, writer, engine`pending, callback
      decreases |nested|, 2
      ensures Valid() && device == old(device) && deviceId == old(deviceId) && running == old(running)
      ensures old(writer.calls) <= writer.calls
      ensures old(device).Some? && Writer.InitOutcome(Some(WaitEvent), r.writerInit).hr == Ok
              && (!running || r.writerStart != DeviceInvalidated) ==>
        && writer.IsBound()
        && writer.calls == old(writer.calls) + Writer.InitIssued(Some(WaitEvent), old(device).value, r.writerInit)
                           + (if running then [ClientStart] else [])
        && (!running || r.writerStart == Ok ==>
              samplesNeeded == 0.0 && callback.notices == old(callback.notices) && engine.pending == old(engine.pending))
        && (running && r.writerStart != Ok && r.writerStart != DeviceInvalidated ==>
              && samplesNeeded == old(samplesNeeded)
              && callback.notices == old(callback.notices) + [ObjectFailure(r.writerStart)]
              && engine.pending == old(engine.pending) + {HaltEvent})
      ensures old(device).Some? && !running ==>
        var code := Writer.InitOutcome(Some(WaitEvent), r.writerInit).hr;
        code != Ok && code != DeviceInvalidated ==>
          && samplesNeeded == 0.0
          && writer.calls == old(writer.calls) + Writer.InitIssued(Some(WaitEvent), old(device).value, r.writerInit)
          && callback.notices == old(callback.notices) + [ObjectFailure(code)]
    {
      writer.Clean();
      InitClientWriter(r, nested);
      if running {
        var hr := writer.Start(r.writerStart);
        var handled := HandleHR(hr, nested);
        if Failed(handled) {
          return;
        }
      }
      samplesNeeded := 0.0;
    }

    /** ImplPropertyChange: probes the writer; a client invalidated by a
        format change is rebuilt in place, any other code goes to HandleHR. */
    method ImplPropertyChange(r: Replies, nested: seq<Replies>)
      requires Valid() && ValidReplies(r) && AllValid(nested)
      modifies this, writer, engine`pending, callback
      decreases |nested|, 3
      ensures Valid() && device == old(device) && deviceId == old(deviceId) && running == old(running)
      ensures old(writer.calls) <= writer.calls
      ensures old(writer.hasClient) ==>
        |writer.calls| > |old(writer.calls)| && writer.calls[..|old(writer.calls)| + 1] == old(writer.calls) + [GetBufferSize]
      ensures old(writer.hasClient) && r.writerVerify == Ok ==>
        && writer.calls == old(writer.calls) + [GetBufferSize]
        && unchanged(this, callback) && engine.pending == old(engine.pending)
      ensures old(writer.hasClient) && r.writerVerify != Ok && r.writerVerify != DeviceInvalidated ==>
        && writer.calls == old(writer.calls) + [GetBufferSize]
        && unchanged(this)
        && callback.notices == old(callback.notices) + [ObjectFailure(r.writerVerify)]
        && engine.pending == old(engine.pending) + {HaltEvent}
      ensures old(writer.hasClient) && r.writerVerify == DeviceInvalidated && old(device).Some?
              && Writer.InitOutcome(Some(WaitEvent), r.writerInit).hr == Ok && (!running || r.writerStart == Ok) ==>
        && writer.IsBound() && samplesNeeded == 0.0
        && writer.calls == old(writer.calls) + [GetBufferSize]
                           + Writer.InitIssued(Some(WaitEvent), old(device).value, r.writerInit)
                           + (if running then [ClientStart] else [])
        && callback.notices == old(callback.notices) && engine.pending == old(engine.pending)
      ensures !old(writer.hasClient) ==> writer.faulted
    {
      var hr := writer.VerifyClient(r.writerVerify);
      if hr == DeviceInvalidated {
        Rebuild(r, nested);
      } else {
        var _ := HandleHR(hr, nested);
      }
    }

    /** ImplStart: marks the stream running, then starts the writer; a
        failing start goes to HandleHR but the stream stays marked running. */
    method ImplStart(r: Replies, nested: seq<Replies>)
      requires Valid() && ValidReplies(r) && AllValid(nested)
      modifies this, writer, engine`pending, callback
      ensures Valid() && running
      ensures old(writer.hasClient) && r.writerStart != DeviceInvalidated ==>
        writer.calls == old(writer.calls) + [ClientStart] && samplesNeeded == old(samplesNeeded)
      ensures old(writer.hasClient) && r.writerStart == Ok ==>
        callback.notices == old(callback.notices) && engine.pending == old(engine.pending)
      ensures old(writer.hasClient) && r.writerStart != Ok && r.writerStart != DeviceInvalidated ==>
        && callback.notices == old(callback.notices) + [ObjectFailure(r.writerStart)]
        && engine.pending == old(engine.pending) + {HaltEvent}
      ensures !old(writer.hasClient) ==> writer.faulted
    {
      running := true;
      var hr := writer.Start(r.writerStart);
      var _ := HandleHR(hr, nested);
    }

    /** ImplStop: marks the stream stopped, then stops the writer. */
    method ImplStop(r: Replies, nested: seq<Replies>)
      requires Valid() && ValidReplies(r) && AllValid(nested)
      modifies this, writer, engine`pending, callback
      ensures Valid() && !running
      ensures old(writer.hasClient) && r.writerStop != DeviceInvalidated ==>
        writer.calls == old(writer.calls) + [ClientStop] && samplesNeeded == old(samplesNeeded)
      ensures old(writer.hasClient) && r.writerStop == Ok ==>
        callback.notices == old(callback.notices) && engine.pending == old(engine.pending)
      ensures old(writer.hasClient) && r.writerStop != Ok && r.writerStop != DeviceInvalidated ==>
        && callback.notices == old(callback.notices) + [ObjectFailure(r.writerStop)]
        && engine.pending == old(engine.pending) + {HaltEvent}
      ensures !old(writer.hasClient) ==> writer.faulted
    {
      running := false;
      var hr := writer.Stop(r.writerStop);
      var _ := HandleHR(hr, nested);
    }

    /** ImplDeviceChange: queries the default render endpoint; when its id
        differs from the stream's, the writer is cleaned, the new device
        adopted and the writer rebuilt on it. An unchanged id changes
        nothing. */
    method ImplDeviceChange(r: Replies, nested: seq<Replies>)
      requires Valid() && ValidReplies(r) && AllValid(nested)
      modifies this, writer, engine`pending, callback
      ensures Valid() && running == old(running)
      ensures r.render.endpoint != Ok && r.render.endpoint != DeviceInvalidated ==>
        && unchanged(this, writer)
        && callback.notices == old(callback.notices) + [ObjectFailure(r.render.endpoint)]
        && engine.pending == old(engine.pending) + {HaltEvent}
      ensures r.render.endpoint == Ok && r.render.getId == Ok && old(deviceId) == Some(r.render.device.id) ==>
        unchanged(this, writer, callback) && engine.pending == old(engine.pending)
      ensures r.render.endpoint == Ok && r.render.getId == Ok && old(deviceId).None? ==> faulted
      ensures r.render.endpoint == Ok && r.render.getId == Ok && old(deviceId).Some? && old(deviceId) != Some(r.render.device.id) ==>
        && device == Some(r.render.device) && deviceId == Some(r.render.device.id)
        && (Writer.InitOutcome(Some(WaitEvent), r.writerInit).hr == Ok && (!running || r.writerStart == Ok) ==>
              && writer.IsBound() && samplesNeeded == 0.0
              && writer.calls == old(writer.calls) + Writer.InitIssued(Some(WaitEvent), r.render.device, r.writerInit)
                                 + (if running then [ClientStart] else [])
              && callback.notices == old(callback.notices) && engine.pending == old(engine.pending))
    {
      var hr := r.render.endpoint;
      var handled := HandleHR(hr, nested);
      if Failed(handled) {
        return;
      }
      hr := r.render.getId;
      handled := HandleHR(hr, nested);
      if Failed(handled) {
        return;
      }
      if deviceId.None? {
        // wcscmp on a null id
        faulted := true;
        return;
      }
      var id := r.render.device.id;
      if id != deviceId.value {
        device, deviceId := Some(r.render.device), Some(id);
        Rebuild(r, nested);
      }
    }

    /** ImplProcess: adds the period's demand in application frames to the
        accumulator, asks the application for the rounded-up count, writes
        exactly that many frames and, once the write succeeds, takes them
        off the accumulator. */
    method ImplProcess(r: Replies, nested: seq<Replies>)
      requires Valid() && ValidReplies(r) && AllValid(nested)
      modifies this, writer, engine`pending, callback
      ensures Valid() && running == old(running) && device == old(device)
      ensures var q := Quotient(old(writer.periodFrames) as real, old(writer.ratio));
        var gen := ToUint32(Demand(old(samplesNeeded), q));
        var code := old(writer.WriteCode(gen, r.renderIo));
        && (code == Ok ==>
              && samplesNeeded == old(samplesNeeded) + q - gen as real
              && callback.notices == old(callback.notices) + [Render(gen)]
              && engine.pending == old(engine.pending))
        && (code != Ok && code != DeviceInvalidated ==>
              && samplesNeeded == old(samplesNeeded) + q
              && callback.notices == old(callback.notices) + [Render(gen), ObjectFailure(code)]
              && engine.pending == old(engine.pending) + {HaltEvent})
        && (code != DeviceInvalidated && old(writer.format).Some? ==>
              |writer.calls| > |old(writer.calls)| &&
              writer.calls[|old(writer.calls)|]
                == Resample(Fit(r.callbackOut, 2 * gen), gen, old(writer.periodFrames), old(writer.ratio)))
    {
      var q := Quotient(writer.periodFrames as real, writer.ratio);
      samplesNeeded := samplesNeeded + q;
      var gen := ToUint32(Ceil(samplesNeeded));
      var audioOut := callback.ProcessOut(gen, r.callbackOut);
      var buffer := new real[2 * gen];
      forall i | 0 <= i < 2 * gen {
        buffer[i] := audioOut[i];
      }
      assert buffer[..2 * gen] == audioOut;
      var hr := writer.Write(buffer, gen, r.renderIo);
      var handled := HandleHR(hr, nested);
      if Failed(handled) {
        return;
      }
      samplesNeeded := samplesNeeded - gen as real;
    }
  }
}

=== FILE: paired_stream.dfy ===
/** CDXAudioLoopbackStream and CDXAudioEchoStream: both bind the default
    render endpoint twice, with a ClientReader in loopback mode (no wait
    event) that captures what the endpoint plays, and a ClientWriter woken
    by the stream's wait event that renders to it. The two classes differ
    only in the callback interface they ask for and in what they render:
    the loopback stream hands the captured audio to a read callback and
    renders silence, the echo stream hands it to a read-write callback and
    renders what that callback writes. `echo` selects the class. */
module Paired {
  import opened Wrappers
  import opened Results
  import opened Samples
  import opened Platform
  import opened Engine
  import opened Callbacks
  import Reader
  import Writer

  /** The callback interface each class asks for in Initialize. */
  function Required(echo: bool): (i: Interface)
    ensures i == ReadCallback <==> !echo
    ensures i == ReadWriteCallback <==> echo
  {
    if echo then ReadWriteCallback else ReadCallback
  }

  /** What one period renders for `frames` captured frames: silence for the
      loopback stream, the callback's output for the echo stream. */
  function Rendered(echo: bool, frames: nat, written: seq<real>): (out: seq<real>)
    ensures |out| == 2 * frames
    ensures !echo ==> forall i :: 0 <= i < |out| ==> out[i] == 0.0
    ensures echo ==> forall i :: 0 <= i < |out| && i < |written| ==> out[i] == written[i]
  {
    if echo then Fit(written, 2 * frames) else Zeros(2 * frames)
  }

  /** The notice the application gets for one period's captured audio. */
  function Handed(echo: bool, audioIn: seq<real>, frames: nat): (n: Notice)
    ensures echo <==> n.Exchange?
    ensures !echo <==> n.Captured?
    ensures n.audioIn == audioIn && n.frames == frames
  {
    if echo then Exchange(audioIn, frames) else Captured(audioIn, frames)
  }

  /** The code Initialize reports for a callback answering to `interfaces`
      when the base Initialize reports `base`. */
  function InitCode(echo: bool, interfaces: set<Interface>, base: HResult): (hr: HResult)
    ensures hr == Ok <==> Required(echo) in interfaces && !Failed(base)
    ensures Required(echo) !in interfaces ==> hr == EInvalidArg
    ensures Required(echo) in interfaces && Failed(base) ==> hr == EFail
  {
    if Required(echo) !in interfaces then EInvalidArg
    else if Failed(base) then EFail
    else Ok
  }

  class PairedStream {
    const engine: StreamEngine
    const reader: Reader.ClientReader
    const writer: Writer.ClientWriter
    const callback: Callback
    /** The echo stream rather than the loopback stream. */
    const echo: bool
    /** m_OutputDevice and m_DeviceID. */
    var device: Option<Device>
    var deviceId: Option<DeviceId>
    /** m_Running. */
    var running: bool
    /** The stream dereferenced a null pointer. */
    var faulted: bool

    ghost predicate Valid()
      reads this, reader, writer
    {
      reader.Valid() && writer.Valid()
    }

    constructor (callback: Callback, echo: bool)
      ensures Valid() && this.callback == callback && this.echo == echo
      ensures fresh(engine) && fresh(reader) && fresh(writer)
      ensures reader.IsClean() && !reader.faulted && reader.calls == []
      ensures writer.IsClean() && !writer.faulted && writer.calls == []
      ensures device.None? && deviceId.None? && !running && !faulted
    {
      this.callback := callback;
      this.echo := echo;
      engine := new StreamEngine();
      reader := new Reader.ClientReader();
      writer := new Writer.ClientWriter();
      device, deviceId := None, None;
      running, faulted := false, false;
    }

    /** Takes the class's callback interface (E_INVALIDARG without it,
        before any event or thread exists), stores the rate and runs the
        base Initialize, whose failure reads as E_FAIL. */
    method Initialize(sampleRate: real, eventReply: Signal -> Creation, threadReply: Creation) returns (hr: HResult)
      modifies engine
      ensures hr == InitCode(echo, callback.interfaces, CreationCode(eventReply, threadReply))
      ensures Required(echo) !in callback.interfaces ==> hr == EInvalidArg && unchanged(engine)
      ensures Required(echo) in callback.interfaces ==>
        && engine.sampleRate == sampleRate
        && hr == (if Failed(CreationCode(eventReply, threadReply)) then EFail else Ok)
        && engine.pending == old(engine.pending)
    {
      if Required(echo) !in callback.interfaces {
        return EInvalidArg;
      }
      engine.sampleRate := sampleRate;
      hr := engine.Initialize(eventReply, threadReply);
      if Failed(hr) {
        return EFail;
      }
      hr := Ok;
    }

    /** HandleHR: S_OK passes; AUDCLNT_E_DEVICE_INVALIDATED reports E_FAIL
        and waits for the property-change hook; any other code is reported
        to the application and halts the stream. */
    method HandleHR(hr: HResult) returns (result: HResult)
      modifies engine`pending, callback
      ensures result == if hr == Ok then Ok else EFail
      ensures hr == Ok || hr == DeviceInvalidated ==>
        unchanged(callback) && engine.pending == old(engine.pending)
      ensures hr != Ok && hr != DeviceInvalidated ==>
        && callback.notices == old(callback.notices) + [ObjectFailure(hr)]
        && engine.pending == old(engine.pending) + {HaltEvent}
    {
      if hr == Ok {
        return Ok;
      }
      if hr == DeviceInvalidated {
        return EFail;
      }
      callback.OnObjectFailure(hr);
      engine.Halt();
      result := EFail;
    }

    /** InitClientReader: the reader in loopback mode, without a wait
        event, on the stream's render device. */
    method InitClientReader(r: Replies)
      requires Valid() && ValidReplies(r)
      modifies this, reader, engine`pending, callback
      ensures Valid() && device == old(device) && deviceId == old(deviceId) && running == old(running)
      ensures old(device).None? ==>
        faulted && unchanged(reader, callback) && engine.pending == old(engine.pending)
      ensures old(device).Some? ==>
        var code := Reader.InitOutcome(None, r.readerInit).hr;
        && faulted == old(faulted)
        && reader.calls == old(reader.calls) + Reader.InitIssued(true, None, old(device).value, r.readerInit)
        && (code == Ok ==> reader.IsBound())
        && (code == Ok || code == DeviceInvalidated ==>
              callback.notices == old(callback.notices) && engine.pending == old(engine.pending))
        && (code != Ok && code != DeviceInvalidated ==>
              && callback.notices == old(callback.notices) + [ObjectFailure(code)]
              && engine.pending == old(engine.pending) + {HaltEvent})
    {
      if device.None? {
        faulted := true;
        return;
      }
      var hr := reader.Initialize(true, engine.sampleRate, None, device.value, r.readerInit);
      var _ := HandleHR(hr);
    }

    /** InitClientWriter: the writer, woken by the stream's wait event, on
        the stream's render device. */
    method InitClientWriter(r: Replies)
      requires Valid() && ValidReplies(r)
      modifies this, writer, engine`pending, callback
      ensures Valid() && device == old(device) && deviceId == old(deviceId) && running == old(running)
      ensures old(device).None? ==>
        faulted && unchanged(writer, callback) && engine.pending == old(engine.pending)
      ensures old(device).Some? ==>
        var code := Writer.InitOutcome(Some(WaitEvent), r.writerInit).hr;
        && faulted == old(faulted)
        && writer.calls == old(writer.calls) + Writer.InitIssued(Some(WaitEvent), old(device).value, r.writerInit)
        && (code == Ok ==> writer.IsBound())
        && (code == Ok || code == DeviceInvalidated ==>
              callback.notices == old(callback.notices) && engine.pending == old(engine.pending))
        && (code != Ok && code != DeviceInvalidated ==>
              && callback.notices == old(callback.notices) + [ObjectFailure(code)]
              && engine.pending == old(engine.pending) + {HaltEvent})
    {
      if device.None? {
        faulted := true;
        return;
      }
      var hr := writer.Initialize(engine.sampleRate, Some(WaitEvent), device.value, r.writerInit);
      var _ := HandleHR(hr);
    }

    /** ImplInitialize: the default render endpoint of the console role and
        its id become the stream's device; then the reader and the writer
        are initialized on it, the writer even when the reader failed. */
    method ImplInitialize(r: Replies)
      requires Valid() && ValidReplies(r)
      modifies this, reader, writer, engine`pending, callback
      ensures Valid()
      ensures r.render.endpoint != Ok ==> unchanged(reader, writer)
      ensures r.render.endpoint != Ok && r.render.endpoint != DeviceInvalidated ==>
        && callback.notices == old(callback.notices) + [ObjectFailure(r.render.endpoint)]
        && engine.pending == old(engine.pending) + {HaltEvent}
      ensures r.render.endpoint == Ok && r.render.getId == Ok ==>
        && device == Some(r.render.device) && deviceId == Some(r.render.device.id)
        && reader.calls == old(reader.calls) + Reader.InitIssued(true, None, r.render.device, r.readerInit)
        && writer.calls == old(writer.calls) + Writer.InitIssued(Some(WaitEvent), r.render.device, r.writerInit)
      ensures r.render.endpoint == Ok && r.render.getId == Ok
              && Reader.InitOutcome(None, r.readerInit).hr == Ok
              && Writer.InitOutcome(Some(WaitEvent), r.writerInit).hr == Ok ==>
        && reader.IsBound() && writer.IsBound()
        && callback.notices == old(callback.notices) && engine.pending == old(engine.pending)
    {
      var hr := r.render.endpoint;
      if hr == Ok {
        device := Some(r.render.device);
      }
      var handled := HandleHR(hr);
      if Failed(handled) {
        return;
      }
      hr := r.render.getId;
      if hr == Ok {
        deviceId := Some(r.render.device.id);
      }
      handled := HandleHR(hr);
      if Failed(handled) {
        return;
      }
      InitClientReader(r);
      InitClientWriter(r);
    }

    /** ImplStart: marks the stream running and starts the reader, then the
        writer; a failing reader start goes to HandleHR and leaves the
        writer stopped. */
    method ImplStart(r: Replies)
      requires Valid()
      modifies this, reader`calls, reader`faulted, writer`calls, writer`faulted, engine`pending, callback
      ensures Valid() && running && device == old(device) && deviceId == old(deviceId)
      ensures old(reader.hasClient) ==> reader.calls == old(reader.calls) + [ClientStart]
      ensures !old(reader.hasClient) ==> reader.faulted && unchanged(writer)
      ensures old(reader.hasClient) && r.readerStart != Ok ==> unchanged(writer)
      ensures old(reader.hasClient) && r.readerStart != Ok && r.readerStart != DeviceInvalidated ==>
        && callback.notices == old(callback.notices) + [ObjectFailure(r.readerStart)]
        && engine.pending == old(engine.pending) + {HaltEvent}
      ensures old(reader.hasClient) && r.readerStart == Ok && old(writer.hasClient) ==>
        && writer.calls == old(writer.calls) + [ClientStart]
        && (r.writerStart == Ok || r.writerStart == DeviceInvalidated ==>
              callback.notices == old(callback.notices) && engine.pending == old(engine.pending))
        && (r.writerStart != Ok && r.writerStart != DeviceInvalidated ==>
              && callback.notices == old(callback.notices) + [ObjectFailure(r.writerStart)]
              && engine.pending == old(engine.pending) + {HaltEvent})
    {
      running := true;
      var hr := reader.Start(r.readerStart);
      var handled := HandleHR(hr);
      if Failed(handled) {
        return;
      }
      hr := writer.Start(r.writerStart);
      handled := HandleHR(hr);
    }

    /** ImplStop: marks the stream stopped and stops the reader, then the
        writer; a failing reader stop leaves the writer running. */
    method ImplStop(r: Replies)
      requires Valid()
      modifies this, reader`calls, reader`faulted, writer`calls, writer`faulted, engine`pending, callback
      ensures Valid() && !running && device == old(device) && deviceId == old(deviceId)
      ensures old(reader.hasClient) ==> reader.calls == old(reader.calls) + [ClientStop]
      ensures !old(reader.hasClient) ==> reader.faulted && unchanged(writer)
      ensures old(reader.hasClient) && r.readerStop != Ok ==> unchanged(writer)
      ensures old(reader.hasClient) && r.readerStop != Ok && r.readerStop != DeviceInvalidated ==>
        && callback.notices == old(callback.notices) + [ObjectFailure(r.readerStop)]
        && engine.pending == old(engine.pending) + {HaltEvent}
      ensures old(reader.hasClient) && r.readerStop == Ok && old(writer.hasClient) ==>
        && writer.calls == old(writer.calls) + [ClientStop]
        && (r.writerStop == Ok || r.writerStop == DeviceInvalidated ==>
              callback.notices == old(callback.notices) && engine.pending == old(engine.pending))
        && (r.writerStop != Ok && r.writerStop != DeviceInvalidated ==>
              && callback.notices == old(callback.notices) + [ObjectFailure(r.writerStop)]
              && engine.pending == old(engine.pending) + {HaltEvent})
    {
      running := false;
      var hr := reader.Stop(r.readerStop);
      var handled := HandleHR(hr);
      if Failed(handled) {
        return;
      }
      hr := writer.Stop(r.writerStop);
      handled := HandleHR(hr);
    }

    /** Clean both bindings, initialize both again on the stream's device
        and, if the stream is running, restart the reader and then the
        writer: the rebuild of the device-change hook. */
    method Rebuild(r: Replies)
      requires Valid() && ValidReplies(r)
      modifies this, reader, writer, engine`pending, callback
      ensures Valid() && device == old(device) && deviceId == old(deviceId) && running == old(running)
      ensures old(device).Some? && Reader.InitOutcome(None, r.readerInit).hr == Ok
              && Writer.InitOutcome(Some(WaitEvent), r.writerInit).hr == Ok ==>
        && reader.IsBound() && writer.IsBound()
        && (!running || (r.readerStart == Ok && r.writerStart == Ok) ==>
              && reader.calls == old(reader.calls) + Reader.InitIssued(true, None, old(device).value, r.readerInit)
                                 + (if running then [ClientStart] else [])
              && writer.calls == old(writer.calls) + Writer.InitIssued(Some(WaitEvent), old(device).value, r.writerInit)
                                 + (if running then [ClientStart] else [])
              && callback.notices == old(callback.notices) && engine.pending == old(engine.pending))
        && (running && r.readerStart != Ok && r.readerStart != DeviceInvalidated ==>
              && writer.calls == old(writer.calls) + Writer.InitIssued(Some(WaitEvent), old(device).value, r.writerInit)
              && callback.notices == old(callback.notices) + [ObjectFailure(r.readerStart)]
              && engine.pending == old(engine.pending) + {HaltEvent})
    {
      reader.Clean();
      writer.Clean();
      InitClientReader(r);
      InitClientWriter(r);
      if running {
        var hr := reader.Start(r.readerStart);
        var handled := HandleHR(hr);
        if Failed(handled) {
          return;
        }
        hr := writer.Start(r.writerStart);
        handled := HandleHR(hr);
      }
    }

    /** ImplDeviceChange: queries the default render endpoint; when its id
        differs from the stream's, both bindings are cleaned, the new device
        adopted and both rebuilt on it. An unchanged id changes nothing. */
    method ImplDeviceChange(r: Replies)
      requires Valid() && ValidReplies(r)
      modifies this, reader, writer, engine`pending, callback
      ensures Valid() && running == old(running)
      ensures r.render.endpoint != Ok ==> unchanged(this, reader, writer)
      ensures r.render.endpoint != Ok && r.render.endpoint != DeviceInvalidated ==>
        && callback.notices == old(callback.notices) + [ObjectFailure(r.render.endpoint)]
        && engine.pending == old(engine.pending) + {HaltEvent}
      ensures r.render.endpoint == Ok && r.render.getId == Ok && old(deviceId) == Some(r.render.device.id) ==>
        unchanged(this, reader, writer, callback) && engine.pending == old(engine.pending)
      ensures r.render.endpoint == Ok && r.render.getId == Ok && old(deviceId).None? ==> faulted
      ensures r.render.endpoint == Ok && r.render.getId == Ok && old(deviceId).Some? && old(deviceId) != Some(r.render.device.id) ==>
        && device == Some(r.render.device) && deviceId == Some(r.render.device.id)
        && (Reader.InitOutcome(None, r.readerInit).hr == Ok && Writer.InitOutcome(Some(WaitEvent), r.writerInit).hr == Ok
            && (!running || (r.readerStart == Ok && r.writerStart == Ok)) ==>
              && reader.IsBound() && writer.IsBound()
              && reader.calls == old(reader.calls) + Reader.InitIssued(true, None, r.render.device, r.readerInit)
                                 + (if running then [ClientStart] else [])
              && writer.calls == old(writer.calls) + Writer.InitIssued(Some(WaitEvent), r.render.device, r.writerInit)
                                 + (if running then [ClientStart] else [])
              && callback.notices == old(callback.notices) && engine.pending == old(engine.pending))
    {
      var hr := r.render.endpoint;
      var handled := HandleHR(hr);
      if Failed(handled) {
        return;
      }
      hr := r.render.getId;
      handled := HandleHR(hr);
      if Failed(handled) {
        return;
      }
      if deviceId.None? {
        // wcscmp on a null id
        faulted := true;
        return;
      }
      var id := r.render.device.id;
      if id != deviceId.value {
        device, deviceId := Some(r.render.device), Some(id);
        Rebuild(r);
      }
    }

    /** The writer half of ImplPropertyChange: probe the writer, rebuild it
        in place when its format changed, otherwise route the code through
        HandleHR. `proceed` is false where the hook returns early. */
    method RefreshWriter(r: Replies) returns (proceed: bool)
      requires Valid() && ValidReplies(r)
      modifies this, writer, engine`pending, callback
      ensures Valid() && device == old(device) && deviceId == old(deviceId) && running == old(running)
      ensures !old(writer.hasClient) ==> !proceed && writer.faulted
      ensures old(writer.hasClient) && r.writerVerify == Ok ==>
        && proceed && writer.calls == old(writer.calls) + [GetBufferSize]
        && unchanged(this, callback) && engine.pending == old(engine.pending)
      ensures old(writer.hasClient) && r.writerVerify != Ok && r.writerVerify != DeviceInvalidated ==>
        && !proceed && writer.calls == old(writer.calls) + [GetBufferSize]
        && unchanged(this)
        && callback.notices == old(callback.notices) + [ObjectFailure(r.writerVerify)]
        && engine.pending == old(engine.pending) + {HaltEvent}
      ensures old(writer.hasClient) && r.writerVerify == DeviceInvalidated && old(device).Some?
              && Writer.InitOutcome(Some(WaitEvent), r.writerInit).hr == Ok && (!running || r.writerStart == Ok) ==>
        && proceed && writer.IsBound()
        && writer.calls == old(writer.calls) + [GetBufferSize]
                           + Writer.InitIssued(Some(WaitEvent), old(device).value, r.writerInit)
                           + (if running then [ClientStart] else [])
        && callback.notices == old(callback.notices) && engine.pending == old(engine.pending)
    {
      var hr := writer.VerifyClient(r.writerVerify);
      if hr == DeviceInvalidated {
        writer.Clean();
        InitClientWriter(r);
        if running {
          hr := writer.Start(r.writerStart);
          var handled := HandleHR(hr);
          if Failed(handled) {
            return false;
          }
        }
      } else {
        var handled := HandleHR(hr);
        if Failed(handled) {
          return false;
        }
      }
      proceed := true;
    }

    /** The reader half of ImplPropertyChange. */
    method RefreshReader(r: Replies)
      requires Valid() && ValidReplies(r)
      modifies this, reader, engine`pending, callback
      ensures Valid() && device == old(device) && deviceId == old(deviceId) && running == old(running)
      ensures !old(reader.hasClient) ==> reader.faulted
      ensures old(reader.hasClient) && r.readerVerify == Ok ==>
        && reader.calls == old(reader.calls) + [GetBufferSize]
        && unchanged(this, callback) && engine.pending == old(engine.pending)
      ensures old(reader.hasClient) && r.readerVerify != Ok && r.readerVerify != DeviceInvalidated ==>
        && reader.calls == old(reader.calls) + [GetBufferSize]
        && unchanged(this)
        && callback.notices == old(callback.notices) + [ObjectFailure(r.readerVerify)]
        && engine.pending == old(engine.pending) + {HaltEvent}
      ensures old(reader.hasClient) && r.readerVerify == DeviceInvalidated && old(device).Some?
              && Reader.InitOutcome(None, r.readerInit).hr == Ok && (!running || r.readerStart == Ok) ==>
        && reader.IsBound()
        && reader.calls == old(reader.calls) + [GetBufferSize]
                           + Reader.InitIssued(true, None, old(device).value, r.readerInit)
                           + (if running then [ClientStart] else [])
        && callback.notices == old(callback.notices) && engine.pending == old(engine.pending)
    {
      var hr := reader.VerifyClient(r.readerVerify);
      if hr == DeviceInvalidated {
        reader.Clean();
        InitClientReader(r);
        if running {
          hr := reader.Start(r.readerStart);
          var _ := HandleHR(hr);
        }
      } else {
        var _ := HandleHR(hr);
      }
    }

    /** ImplPropertyChange: the writer is probed and refreshed first; the
        reader only when the writer's half did not end the hook. */
    method ImplPropertyChange(r: Replies)
      requires Valid() && ValidReplies(r)
      modifies this, reader, writer, engine`pending, callback
      ensures Valid() && device == old(device) && deviceId == old(deviceId) && running == old(running)
      ensures old(writer.hasClient) && r.writerVerify != Ok && r.writerVerify != DeviceInvalidated ==>
        && unchanged(reader) && writer.calls == old(writer.calls) + [GetBufferSize]
        && callback.notices == old(callback.notices) + [ObjectFailure(r.writerVerify)]
        && engine.pending == old(engine.pending) + {HaltEvent}
      ensures old(writer.hasClient) && old(reader.hasClient) && r.writerVerify == Ok && r.readerVerify == Ok ==>
        && writer.calls == old(writer.calls) + [GetBufferSize]
        && reader.calls == old(reader.calls) + [GetBufferSize]
        && unchanged(this, callback) && engine.pending == old(engine.pending)
      ensures old(writer.hasClient) && old(reader.hasClient) && r.writerVerify == Ok
              && r.readerVerify != Ok && r.readerVerify != DeviceInvalidated ==>
        && writer.calls == old(writer.calls) + [GetBufferSize]
        && reader.calls == old(reader.calls) + [GetBufferSize]
        && callback.notices == old(callback.notices) + [ObjectFailure(r.readerVerify)]
        && engine.pending == old(engine.pending) + {HaltEvent}
      ensures old(writer.hasClient) && old(reader.hasClient) && old(device).Some?
              && r.writerVerify == DeviceInvalidated && Writer.InitOutcome(Some(WaitEvent), r.writerInit).hr == Ok
              && (!running || r.writerStart == Ok) && r.readerVerify == Ok ==>
        && writer.IsBound()
        && writer.calls == old(writer.calls) + [GetBufferSize]
                           + Writer.InitIssued(Some(WaitEvent), old(device).value, r.writerInit)
                           + (if running then [ClientStart] else [])
        && reader.calls == old(reader.calls) + [GetBufferSize]
        && callback.notices == old(callback.notices) && engine.pending == old(engine.pending)
      ensures old(writer.hasClient) && old(reader.hasClient) && old(device).Some?
              && r.writerVerify == Ok && r.readerVerify == DeviceInvalidated
              && Reader.InitOutcome(None, r.readerInit).hr == Ok && (!running || r.readerStart == Ok) ==>
        && reader.IsBound()
        && writer.calls == old(writer.calls) + [GetBufferSize]
        && reader.calls == old(reader.calls) + [GetBufferSize]
                           + Reader.InitIssued(true, None, old(device).value, r.readerInit)
                           + (if running then [ClientStart] else [])
        && callback.notices == old(callback.notices) && engine.pending == old(engine.pending)
    {
      var proceed := RefreshWriter(r);
      if proceed {
        RefreshReader(r);
      }
    }

    /** The callback half of a period: hands the application the captured
        frames and returns the buffer to render, as many frames long. */
    method Exchange(audioIn: seq<real>, frames: nat, written: seq<real>) returns (out: array<real>)
      modifies callback
      ensures fresh(out) && out.Length == 2 * frames && out[..] == Rendered(echo, frames, written)
      ensures callback.notices == old(callback.notices) + [Handed(echo, audioIn, frames)]
    {
      out := new real[2 * frames](_ => 0.0);
      if echo {
        var audioOut := callback.ProcessInOut(audioIn, frames, written);
        forall i | 0 <= i < 2 * frames {
          out[i] := audioOut[i];
        }
        assert out[..] == audioOut;
      } else {
        callback.ProcessIn(audioIn, frames);
        assert out[..] == Zeros(2 * frames);
      }
    }

    /** The render half of a period: writes `frames` frames of `out` and
        routes the writer's code through HandleHR. */
    method Deliver(out: array<real>, frames: nat, rr: RenderReplies)
      requires Valid() && out.Length == 2 * frames
      modifies writer`calls, writer`faulted, engine`pending, callback
      ensures Valid()
      ensures var code := old(writer.WriteCode(frames, rr));
        && (code == Ok || code == DeviceInvalidated ==>
              callback.notices == old(callback.notices) && engine.pending == old(engine.pending))
        && (code != Ok && code != DeviceInvalidated ==>
              && callback.notices == old(callback.notices) + [ObjectFailure(code)]
              && engine.pending == old(engine.pending) + {HaltEvent})
      ensures writer.format.Some? ==>
        && |writer.calls| > |old(writer.calls)|
        && writer.calls[..|old(writer.calls)|] == old(writer.calls)
        && writer.calls[|old(writer.calls)|] == Resample(out[..], frames, writer.periodFrames, writer.ratio)
    {
      var hr := writer.Write(out, frames, rr);
      assert out[..2 * frames] == out[..];
      var _ := HandleHR(hr);
    }

    /** ImplProcess: reads one period into a buffer of ceil(period frames x
        ratio) frames; a failing read goes to HandleHR and ends the period.
        Otherwise the application gets the frames read, and as many frames
        are written back: silence for the loopback stream, the callback's
        output for the echo stream. */
    method ImplProcess(r: Replies)
      requires Valid()
      modifies reader`calls, reader`faulted, writer`calls, writer`faulted, engine`pending, callback
      ensures Valid()
      ensures var capacity := PeriodCapacity(reader.periodFrames, reader.ratio);
        var code := old(reader.ReadCode(r.captureIo));
        Failed(code) ==>
          && unchanged(writer)
          && (code == DeviceInvalidated ==>
                callback.notices == old(callback.notices) && engine.pending == old(engine.pending))
          && (code != DeviceInvalidated ==>
                && callback.notices == old(callback.notices) + [ObjectFailure(code)]
                && engine.pending == old(engine.pending) + {HaltEvent})
      ensures var capacity := PeriodCapacity(reader.periodFrames, reader.ratio);
        var n := old(reader.ReadFrames(capacity, r.captureIo));
        var handed := Handed(echo, Fit(r.captureIo.resample.output, 2 * n), n);
        var code := old(writer.WriteCode(n, r.renderIo));
        !Failed(old(reader.ReadCode(r.captureIo))) ==>
          && (code == Ok || code == DeviceInvalidated ==>
                callback.notices == old(callback.notices) + [handed] && engine.pending == old(engine.pending))
          && (code != Ok && code != DeviceInvalidated ==>
                && callback.notices == old(callback.notices) + [handed, ObjectFailure(code)]
                && engine.pending == old(engine.pending) + {HaltEvent})
          && (old(writer.format).Some? ==>
                && |writer.calls| > |old(writer.calls)|
                && writer.calls[..|old(writer.calls)|] == old(writer.calls)
                && writer.calls[|old(writer.calls)|]
                     == Resample(Rendered(echo, n, r.callbackOut), n, writer.periodFrames, writer.ratio))
    {
      var capacity := PeriodCapacity(reader.periodFrames, reader.ratio);
      var inBuffer := new real[2 * capacity];
      var hr, framesRead, local := reader.Read(inBuffer, capacity, r.captureIo);
      if Failed(hr) {
        var _ := HandleHR(hr);
        return;
      }
      var outBuffer := Exchange(inBuffer[..2 * framesRead], framesRead, r.callbackOut);
      Deliver(outBuffer, framesRead, r.renderIo);
    }
  }
}

=== FILE: platform.dfy ===
/** The Windows side of the core, reduced to what the core observes: event
    objects, endpoint devices and their ids, the calls a binding issues to its
    audio client, capture/render service and resampler, and the result codes
    those calls give back. Every platform answer is an input (a reply), and
    every call a binding makes is logged so that contracts can speak of the
    order of calls. */
module Platform {
  import opened Results
  import opened Samples

  /** The six auto-reset events of a stream, named after their fields. */
  datatype Signal = StartEvent | StopEvent | DeviceChangeEvent | PropertyChangeEvent | WaitEvent | HaltEvent

  /** The opaque unique string GetId returns for an endpoint. */
  type DeviceId = seq<char>

  /** An endpoint device (IMMDevice), known by its id. */
  datatype Device = Device(id: DeviceId)

  /** AUDCLNT_STREAMFLAGS_EVENTCALLBACK and AUDCLNT_STREAMFLAGS_LOOPBACK. */
  datatype StreamFlags = StreamFlags(eventCallback: bool, loopback: bool)

  /** A call a binding issues to the platform or to its resampler. */
  datatype Call =
    | ResamplerNew                                            // src_new
    | Activate(device: Device)                                // IMMDevice::Activate
    | GetDevicePeriod
    | GetMixFormat
    | ClientInitialize(flags: StreamFlags, bufferDuration: nat, periodicity: nat)
    | GetService
    | SetEventHandle(event: Signal)
    | ClientStart
    | ClientStop
    | GetBufferSize                                           // the VerifyClient probe
    | GetCaptureBuffer                                        // IAudioCaptureClient::GetBuffer
    | ReleaseCaptureBuffer(frames: nat)
    | GetRenderBuffer(frames: nat)                            // IAudioRenderClient::GetBuffer
    | ReleaseRenderBuffer(frames: nat, silent: bool, data: seq<real>)
    | Resample(input: seq<real>, inFrames: nat, outCapacity: nat, ratio: real)  // src_process

  /** GetDefaultAudioEndpoint for one data-flow role, then GetId on the result. */
  datatype DeviceReply = DeviceReply(endpoint: HResult, device: Device, getId: HResult)

  /** What the platform answers, step by step, while a binding is initialized. */
  datatype BindReplies = BindReplies(
    resamplerOk: bool,       // src_new reported no error
    activate: HResult,
    periodHr: HResult,
    period: nat,             // device period, 100-ns units
    mixFormatHr: HResult,
    format: WaveFormat,
    initialize: HResult,
    service: HResult,
    setEvent: HResult,
    primeGet: HResult,       // writer only: GetBuffer of the silent priming buffer
    primeRelease: HResult)   // writer only: its ReleaseBuffer

  /** What src_process reports: an error flag, the frames generated and the
      generated samples (interleaved stereo). */
  datatype ResampleReply = ResampleReply(error: bool, generated: nat, output: seq<real>)

  /** One capture period: GetBuffer's code, frame count and native slots,
      ReleaseBuffer's code, and the resampler's answer. */
  datatype CaptureReplies = CaptureReplies(getBuffer: HResult, frames: nat, data: seq<real>, release: HResult, resample: ResampleReply)

  /** One render period: the resampler's answer, GetBuffer's and ReleaseBuffer's codes. */
  datatype RenderReplies = RenderReplies(resample: ResampleReply, getBuffer: HResult, release: HResult)

  /** Every platform answer one hook invocation may consult. */
  datatype Replies = Replies(
    render: DeviceReply,       // default eRender/eConsole endpoint
    capture: DeviceReply,      // default eCapture/eConsole endpoint
    readerInit: BindReplies,
    writerInit: BindReplies,
    readerStart: HResult,
    writerStart: HResult,
    readerStop: HResult,
    writerStop: HResult,
    readerVerify: HResult,
    writerVerify: HResult,
    captureIo: CaptureReplies,
    renderIo: RenderReplies,
    callbackOut: seq<real>)    // what the application's callback writes as output

  /** Endpoints report a usable mix format. */
  predicate ValidReplies(r: Replies) {
    ValidFormat(r.readerInit.format) && ValidFormat(r.writerInit.format)
  }

  predicate AllValid(rs: seq<Replies>) {
    forall i :: 0 <= i < |rs| ==> ValidReplies(rs[i])
  }

  /** Both bindings open their client alike: Activate, GetDevicePeriod and
      GetMixFormat, each checked. These are the calls issued, up to and
      including the first that fails. */
  function OpenIssued(device: Device, r: BindReplies): seq<Call> {
    if Failed(r.activate) then [Activate(device)]
    else if Failed(r.periodHr) then [Activate(device), GetDevicePeriod]
    else [Activate(device), GetDevicePeriod, GetMixFormat]
  }

  /** The code the opening of a client reports: the first failing code, or
      GetMixFormat's. */
  function OpenCode(r: BindReplies): HResult {
    if Failed(r.activate) then r.activate else if Failed(r.periodHr) then r.periodHr else r.mixFormatHr
  }
}

=== FILE: results.dfy ===
/** HRESULT values as the DXAudio core sees them: 32-bit patterns whose top bit
    marks failure, with the handful of named codes the core tests for. */
module Results {

  newtype HResult = x: int | 0 <= x < 0x1_0000_0000

  const Ok: HResult := 0                          // S_OK
  const EPointer: HResult := 0x8000_4003          // E_POINTER
  const EFail: HResult := 0x8000_4005             // E_FAIL
  const EAccessDenied: HResult := 0x8007_0005     // E_ACCESSDENIED
  const EInvalidArg: HResult := 0x8007_0057       // E_INVALIDARG
  const DeviceInvalidated: HResult := 0x8889_0004 // AUDCLNT_E_DEVICE_INVALIDATED
  const BufferTooLarge: HResult := 0x8889_0006    // AUDCLNT_E_BUFFER_TOO_LARGE

  /** FAILED(hr): the severity bit is set. */
  predicate Failed(hr: HResult) {
    hr >= 0x8000_0000
  }

  /** HRESULT_FROM_WIN32 applied to a Win32 error code (a DWORD). */
  function FromWin32(err: nat): (hr: HResult)
    requires err < 0x1_0000_0000
    ensures err == 0 ==> hr == Ok
    ensures 0 < err < 0x8000_0000 ==> Failed(hr) && hr as int % 0x1_0000 == err % 0x1_0000
    ensures err >= 0x8000_0000 ==> hr as int == err
  {
    if err == 0 then Ok
    else if err >= 0x8000_0000 then err as HResult
    else (0x8007_0000 + err % 0x1_0000) as HResult
  }

  /** The first step of a chain of checked calls whose result failed; the
      chain stops there (the CHECK_HR idiom). */
  predicate StoppedAt(steps: seq<HResult>, k: nat) {
    k < |steps| && Failed(steps[k]) && forall j :: 0 <= j < k ==> !Failed(steps[j])
  }

  predicate NoneFailed(steps: seq<HResult>) {
    forall j :: 0 <= j < |steps| ==> !Failed(steps[j])
  }

  /** The index at which a checked chain stops, if any. */
  function FirstFailure(steps: seq<HResult>): (k: nat)
    ensures k <= |steps|
    ensures k < |steps| <==> !NoneFailed(steps)
    ensures k < |steps| ==> StoppedAt(steps, k)
    ensures k == |steps| ==> NoneFailed(steps)
  {
    if |steps| == 0 then 0
    else if Failed(steps[0]) then 0
    else 1 + FirstFailure(steps[1..])
  }

  /** A checked chain stops at exactly one step. */
  lemma StopsOnlyAt(steps: seq<HResult>, k: nat)
    requires StoppedAt(steps, k)
    ensures !NoneFailed(steps)
    ensures FirstFailure(steps) == k
  {
  }


  /** What a checked chain reports and how many of its steps run. */
  datatype Outcome = Outcome(hr: HResult, issued: nat)

  /** The CHECK_HR chain: S_OK after every step, or the first failing
      step's code with that step the last one run. */
  function Chain(steps: seq<HResult>): (o: Outcome)
    ensures o.issued <= |steps|
    ensures o.hr == Ok <==> NoneFailed(steps)
    ensures NoneFailed(steps) ==> o.issued == |steps|
    ensures !NoneFailed(steps) ==> o.issued >= 1 && StoppedAt(steps, o.issued - 1) && o.hr == steps[o.issued - 1]
  {
    if NoneFailed(steps) then Outcome(Ok, |steps|)
    else Outcome(steps[FirstFailure(steps)], FirstFailure(steps) + 1)
  }
}

=== FILE: samples.dfy ===
/** The per-period sample pipeline shared by the reader and the writer: the
    native wave format, per-format scaling, the stereo (de)interleaving with
    excess channels skipped or silenced, and the integer/real ceilings the
    bindings use to size a period. */
module Samples {

  /** The fields of WAVEFORMATEXTENSIBLE the pipeline consults. */
  datatype WaveFormat = WaveFormat(
    channels: nat,            // Format.nChannels
    samplesPerSec: nat,       // Format.nSamplesPerSec
    isPcm: bool,              // SubFormat == KSDATAFORMAT_SUBTYPE_PCM (else IEEE float)
    validBitsPerSample: nat,  // Samples.wValidBitsPerSample
    bitsPerSample: nat)       // Format.wBitsPerSample

  /** What the bindings assume of an endpoint's mix format: at least a
      stereo pair and a positive native rate. */
  predicate ValidFormat(f: WaveFormat) {
    f.channels >= 2 && f.samplesPerSec > 0
  }

  datatype SampleKind = Pcm16 | Pcm24 | Pcm32 | Float32

  /** The branch both bindings take on the format: 16-bit PCM is chosen on the
      valid bits, 24-bit on the container size, any other PCM is 32-bit. */
  function KindOf(f: WaveFormat): (k: SampleKind)
    ensures k == Float32 <==> !f.isPcm
    ensures k == Pcm16 <==> f.isPcm && f.validBitsPerSample == 16
    ensures k == Pcm24 <==> f.isPcm && f.validBitsPerSample != 16 && f.bitsPerSample == 24
  {
    if !f.isPcm then Float32
    else if f.validBitsPerSample == 16 then Pcm16
    else if f.bitsPerSample == 24 then Pcm24
    else Pcm32
  }

  /** Native slot value to canonical float sample (read direction). */
  function ToFloat(k: SampleKind, v: real): real {
    match k
    case Pcm16 => v / 32767.0
    case Pcm24 => v / 8388607.0 - 1.0
    case Pcm32 => v / 2147483647.0
    case Float32 => v
  }

  /** Canonical float sample to native slot value (write direction). */
  function ToNative(k: SampleKind, x: real): real {
    match k
    case Pcm16 => x * 32767.0
    case Pcm24 => (x + 1.0) * 8388607.0
    case Pcm32 => x * 2147483647.0
    case Float32 => x
  }

  /** The two scalings are inverse to each other (exactly, over the reals). */
  lemma ScaleRoundTrip(k: SampleKind, x: real)
    ensures ToFloat(k, ToNative(k, x)) == x
  {
  }

  /** Offset of channel c of frame f in an interleaved buffer of n channels. */
  function SlotIndex(f: nat, c: nat, n: nat): nat {
    f * n + c
  }

  lemma SlotInFrames(f: nat, c: nat, n: nat, frames: nat)
    requires f < frames && c < n
    ensures SlotIndex(f, c, n) < frames * n
    ensures SlotIndex(f, c, n) + 1 <= SlotIndex(f + 1, 0, n)
  {
    assert (f + 1) * n == f * n + n;
    assert frames * n >= (f + 1) * n;
  }

  /** n slots of silence. */
  function Zeros(n: nat): (z: seq<real>)
    ensures |z| == n && forall i :: 0 <= i < n ==> z[i] == 0.0
  {
    seq(n, _ => 0.0)
  }

  /** s cut or zero-padded to exactly n values: a buffer of a fixed size whose
      leading contents are s. */
  function Fit(s: seq<real>, n: nat): (r: seq<real>)
    ensures |r| == n
    ensures forall i :: 0 <= i < n && i < |s| ==> r[i] == s[i]
    ensures forall i :: |s| <= i < n ==> r[i] == 0.0
  {
    seq(n, i requires 0 <= i < n => if i < |s| then s[i] else 0.0)
  }

  /** The stereo float buffer read from `frames` frames of an interleaved
      native buffer of `channels` channels: channels 0 and 1 of each frame, in
      order, scaled; the remaining channels of every frame are skipped. */
  function Deinterleave(k: SampleKind, native: seq<real>, channels: nat, frames: nat): (r: seq<real>)
    requires channels >= 2 && frames * channels <= |native|
    ensures |r| == 2 * frames
  {
    if frames == 0 then []
    else
      SlotInFrames(frames - 1, 1, channels, frames);
      var f := frames - 1;
      assert f * channels <= frames * channels;
      Deinterleave(k, native, channels, f)
        + [ToFloat(k, native[SlotIndex(f, 0, channels)]), ToFloat(k, native[SlotIndex(f, 1, channels)])]
  }

  /** The native buffer written from `frames` stereo float frames: each frame
      holds the two scaled samples in order, followed by silence in every
      excess channel. */
  function Interleave(k: SampleKind, local: seq<real>, channels: nat, frames: nat): (r: seq<real>)
    requires channels >= 2 && 2 * frames <= |local|
    ensures |r| == frames * channels
  {
    if frames == 0 then []
    else
      var f := frames - 1;
      assert frames * channels == f * channels + channels;
      Interleave(k, local, channels, f)
        + [ToNative(k, local[2 * f]), ToNative(k, local[2 * f + 1])]
        + Zeros(channels - 2)
  }

  /** Reading picks exactly channels 0 and 1 of every frame, in channel order. */
  lemma {:induction false} DeinterleaveAt(k: SampleKind, native: seq<real>, channels: nat, frames: nat, f: nat, c: nat)
    requires channels >= 2 && frames * channels <= |native|
    requires f < frames && c < 2
    ensures SlotIndex(f, c, channels) < |native|
    ensures Deinterleave(k, native, channels, frames)[2 * f + c] == ToFloat(k, native[SlotIndex(f, c, channels)])
  {
    SlotInFrames(f, c, channels, frames);
    var g := frames - 1;
    assert g * channels <= frames * channels;
    if f < g {
      DeinterleaveAt(k, native, channels, g, f, c);
    }
  }

  /** The excess channels are never read: two native buffers that agree on
      channels 0 and 1 of every frame read the same. */
  lemma {:induction false} DeinterleaveIgnoresExcess(k: SampleKind, a: seq<real>, b: seq<real>, channels: nat, frames: nat)
    requires channels >= 2 && frames * channels <= |a| && frames * channels <= |b|
    requires forall f, c :: 0 <= f < frames && 0 <= c < 2 ==>
      SlotIndex(f, c, channels) < |a| && SlotIndex(f, c, channels) < |b| &&
      a[SlotIndex(f, c, channels)] == b[SlotIndex(f, c, channels)]
    ensures Deinterleave(k, a, channels, frames) == Deinterleave(k, b, channels, frames)
  {
    if frames > 0 {
      var g := frames - 1;
      assert g * channels <= frames * channels;
      DeinterleaveIgnoresExcess(k, a, b, channels, g);
    }
  }

  /** Writing puts the two scaled samples in slots 0 and 1 of every frame and
      zero in every slot from 2 to channels - 1. */
  lemma {:induction false} InterleaveAt(k: SampleKind, local: seq<real>, channels: nat, frames: nat, f: nat, c: nat)
    requires channels >= 2 && 2 * frames <= |local|
    requires f < frames && c < channels
    ensures SlotIndex(f, c, channels) < frames * channels
    ensures Interleave(k, local, channels, frames)[SlotIndex(f, c, channels)]
      == if c < 2 then ToNative(k, local[2 * f + c]) else 0.0
  {
    SlotInFrames(f, c, channels, frames);
    var g := frames - 1;
    assert frames * channels == g * channels + channels;
    var prev := Interleave(k, local, channels, g);
    var tail := [ToNative(k, local[2 * g]), ToNative(k, local[2 * g + 1])] + Zeros(channels - 2);
    assert Interleave(k, local, channels, frames) == prev + tail;
    if f < g {
      InterleaveAt(k, local, channels, g, f, c);
      SlotInFrames(f, c, channels, g);
    } else {
      assert SlotIndex(f, c, channels) == |prev| + c;
    }
  }

  /** Excess channels of every written frame are exact silence. */
  lemma ExcessChannelsSilent(k: SampleKind, local: seq<real>, channels: nat, frames: nat)
    requires channels >= 2 && 2 * frames <= |local|
    ensures forall f, c {:trigger SlotIndex(f, c, channels)} :: 0 <= f < frames && 2 <= c < channels ==>
      SlotIndex(f, c, channels) < frames * channels &&
      Interleave(k, local, channels, frames)[SlotIndex(f, c, channels)] == 0.0
  {
    forall f, c | 0 <= f < frames && 2 <= c < channels
      ensures SlotIndex(f, c, channels) < frames * channels &&
        Interleave(k, local, channels, frames)[SlotIndex(f, c, channels)] == 0.0
    {
      InterleaveAt(k, local, channels, frames, f, c);
    }
  }

  /** Format conversion round trip: writing a stereo buffer to any native
      layout and reading it back gives the same stereo buffer. */
  lemma FormatRoundTrip(k: SampleKind, local: seq<real>, channels: nat, frames: nat)
    requires channels >= 2 && 2 * frames <= |local|
    ensures Deinterleave(k, Interleave(k, local, channels, frames), channels, frames) == local[..2 * frames]
  {
    var native := Interleave(k, local, channels, frames);
    var back := Deinterleave(k, native, channels, frames);
    forall i | 0 <= i < 2 * frames
      ensures back[i] == local[i]
    {
      var f, c := i / 2, i % 2;
      assert i == 2 * f + c;
      DeinterleaveAt(k, native, channels, frames, f, c);
      InterleaveAt(k, local, channels, frames, f, c);
      ScaleRoundTrip(k, local[i]);
    }
  }

  /** Integer ceiling of a / b. */
  function CeilDiv(a: nat, b: nat): (r: nat)
    requires b > 0
    ensures r * b >= a
    ensures r > 0 ==> (r - 1) * b < a
  {
    (a + b - 1) / b
  }

  /** Frames per device period: the period is in 100-nanosecond units, so
      ceil(period * rate / 10,000,000). */
  function PeriodFramesOf(period: nat, rate: nat): (r: nat)
    ensures r * 10_000_000 >= period * rate
    ensures r > 0 ==> (r - 1) * 10_000_000 < period * rate
  {
    CeilDiv(period * rate, 10_000_000)
  }

  /** Real ceiling, as C's ceil followed by a conversion to an integer. */
  function Ceil(x: real): (r: int)
    ensures r as real - 1.0 < x <= r as real
  {
    -((-x).Floor)
  }

  /** The ceiling moves with an integer shift of its argument. */
  lemma CeilShift(x: real, n: int)
    ensures Ceil(x - n as real) == Ceil(x) - n
  {
    var a, b := Ceil(x - n as real), Ceil(x) - n;
    assert a as real - 1.0 < x - n as real <= a as real;
    assert b as real - 1.0 < x - n as real <= b as real;
  }

  /** The resampler never hands back more frames than its output capacity:
      the frames it reports generated, capped at that capacity. */
  function Min(a: nat, b: nat): (m: nat)
    ensures m <= a && m <= b && (m == a || m == b)
  {
    if a <= b then a else b
  }

  /** A ratio of two rates. A zero divisor, which gives an infinity or NaN in
      the source's double arithmetic, yields 0 here. */
  function Quotient(a: real, b: real): (q: real)
    ensures b != 0.0 ==> q * b == a
    ensures b == 0.0 ==> q == 0.0
  {
    if b == 0.0 then 0.0 else a / b
  }

  /** A conversion to UINT: the value modulo 2^32, which is the value itself
      when it fits. */
  function ToUint32(x: int): (u: nat)
    ensures u < 0x1_0000_0000
    ensures 0 <= x < 0x1_0000_0000 ==> u == x
  {
    x % 0x1_0000_0000
  }

  /** The frames of a buffer sized for one resampled capture period:
      (UINT)ceil(periodFrames * ratio). */
  function PeriodCapacity(periodFrames: nat, ratio: real): (c: nat)
    ensures c < 0x1_0000_0000
  {
    ToUint32(Ceil(periodFrames as real * ratio))
  }

  /** When the product fits a UINT, that buffer holds the whole resampled
      period and less than one frame more. */
  lemma PeriodCapacityCovers(periodFrames: nat, ratio: real)
    requires 0.0 <= periodFrames as real * ratio <= 4294967295.0
    ensures periodFrames as real * ratio <= PeriodCapacity(periodFrames, ratio) as real
    ensures (PeriodCapacity(periodFrames, ratio) as real) < periodFrames as real * ratio + 1.0
  {
  }
}

=== FILE: thread.dfy ===
/** CDXAudioStream::StreamThreadEntry: the stream thread. It prepares COM
    and the endpoint notifications, runs the variant's ImplInitialize once,
    then serves the six events one wake-up at a time until the halt event
    or a failed wait ends the loop, and finally withdraws the notification
    registration. The variant is any of the four stream classes; the
    platform's answers come in as parameters, one `Tick` per pass of the
    loop. */
module Thread {
  import opened Results
  import opened Platform
  import opened Engine
  import Output
  import Input
  import Duplex
  import Paired

  /** The stream the thread belongs to. */
  datatype AnyStream =
    | AsOutput(o: Output.OutputStream)
    | AsInput(i: Input.InputStream)
    | AsDuplex(d: Duplex.DuplexStream)
    | AsPaired(p: Paired.PairedStream)

  /** The shared base part: events, pending signals and sample rate. */
  function EngineOf(s: AnyStream): StreamEngine {
    match s
    case AsOutput(o) => o.engine
    case AsInput(i) => i.engine
    case AsDuplex(d) => d.engine
    case AsPaired(p) => p.engine
  }

  /** Every object the hooks may change. */
  ghost function Repr(s: AnyStream): set<object> {
    match s
    case AsOutput(o) => {o, o.writer, o.engine, o.callback}
    case AsInput(i) => {i, i.reader, i.engine, i.callback}
    case AsDuplex(d) => {d, d.reader, d.writer, d.engine, d.callback}
    case AsPaired(p) => {p, p.reader, p.writer, p.engine, p.callback}
  }

  ghost predicate Valid(s: AnyStream)
    reads Repr(s)
  {
    match s
    case AsOutput(o) => o.Valid()
    case AsInput(i) => i.Valid()
    case AsDuplex(d) => d.Valid()
    case AsPaired(p) => p.Valid()
  }

  /** The objects whose `faulted` flag records a null dereference. */
  function FaultRepr(s: AnyStream): set<object> {
    match s
    case AsOutput(o) => {o, o.writer}
    case AsInput(i) => {i, i.reader}
    case AsDuplex(d) => {d, d.reader, d.writer}
    case AsPaired(p) => {p, p.reader, p.writer}
  }

  /** The stream or one of its bindings dereferenced a null interface:
      in the source the process has crashed at that point. */
  predicate Faulted(s: AnyStream)
    reads FaultRepr(s)
  {
    match s
    case AsOutput(o) => o.faulted || o.writer.faulted
    case AsInput(i) => i.faulted || i.reader.faulted
    case AsDuplex(d) => d.faulted || d.reader.faulted || d.writer.faulted
    case AsPaired(p) => p.faulted || p.reader.faulted || p.writer.faulted
  }

  /** ImplInitialize of whichever variant the stream is. */
  method RunInitialize(s: AnyStream, r: Replies, nested: seq<Replies>)
    requires Valid(s) && ValidReplies(r) && AllValid(nested)
    modifies Repr(s)
    ensures Valid(s)
    ensures EngineOf(s).sampleRate == old(EngineOf(s).sampleRate) && EngineOf(s).events == old(EngineOf(s).events)
  {
    match s
    case AsOutput(o) => o.ImplInitialize(r, nested);
    case AsInput(i) => i.ImplInitialize(r);
    case AsDuplex(d) => d.ImplInitialize(r);
    case AsPaired(p) => p.ImplInitialize(r);
  }

  /** The hook a dispatched wake-up runs, for whichever variant the stream
      is: each variant supplies all five. */
  method RunHook(s: AnyStream, hook: Hook, r: Replies, nested: seq<Replies>)
    requires Valid(s) && ValidReplies(r) && AllValid(nested)
    modifies Repr(s)
    ensures Valid(s)
    ensures EngineOf(s).sampleRate == old(EngineOf(s).sampleRate) && EngineOf(s).events == old(EngineOf(s).events)
  {
    match s
    case AsOutput(o) =>
      match hook {
      case StartHook => o.ImplStart(r, nested);
      case StopHook => o.ImplStop(r, nested);
      case DeviceChangeHook => o.ImplDeviceChange(r, nested);
      case PropertyChangeHook => o.ImplPropertyChange(r, nested);
      case ProcessHook => o.ImplProcess(r, nested);
      }
    case AsInput(i) =>
      match hook {
      case StartHook => i.ImplStart(r);
      case StopHook => i.ImplStop(r);
      case DeviceChangeHook => i.ImplDeviceChange(r);
      case PropertyChangeHook => i.ImplPropertyChange(r);
      case ProcessHook => i.ImplProcess(r);
      }
    case AsDuplex(d) =>
      match hook {
      case StartHook => d.ImplStart(r);
      case StopHook => d.ImplStop(r);
      case DeviceChangeHook => d.ImplDeviceChange(r);
      case PropertyChangeHook => d.ImplPropertyChange(r);
      case ProcessHook => d.ImplProcess(r);
      }
    case AsPaired(p) =>
      match hook {
      case StartHook => p.ImplStart(r);
      case StopHook => p.ImplStop(r);
      case DeviceChangeHook => p.ImplDeviceChange(r);
      case PropertyChangeHook => p.ImplPropertyChange(r);
      case ProcessHook => p.ImplProcess(r);
      }
  }

  /** The codes of the three checked start-up calls: CoInitializeEx,
      CoCreateInstance of the device enumerator, and the registration of
      the notification client. */
  datatype Startup = Startup(comInit: HResult, enumerator: HResult, register: HResult)

  function StartupSteps(st: Startup): seq<HResult> {
    [st.comInit, st.enumerator, st.register]
  }

  /** The value WaitForMultipleObjectsEx returns when the wait fails. */
  const WaitFailedResult: nat := 0xFFFF_FFFF

  /** One pass of the loop as the platform plays it: the signals raised
      (by the application or the notification client) before the wait,
      whether the wait itself fails, and the replies the hook it leads to
      gets. */
  datatype Tick = Tick(arrivals: seq<Signal>, waitFailed: bool, replies: Replies, nested: seq<Replies>)

  predicate ValidTicks(ticks: seq<Tick>) {
    forall k :: 0 <= k < |ticks| ==> ValidReplies(ticks[k].replies) && AllValid(ticks[k].nested)
  }

  /** The thread's return value; a crash, because a hook dereferenced a
      null interface; or no return yet because the ticks ran out while the
      loop was still waiting for the halt event. */
  datatype Exit = Returned(hr: HResult) | Crashed | StillRunning

  /** What the thread did, in order: ImplInitialize ran; a wake-up with
      wait result `index`, taken while `signalled` was the set of raised
      events, was handled by `action`; the notification client was
      unregistered. */
  datatype Entry =
    | Initialized
    | Served(signalled: set<Signal>, index: nat, action: Action)
    | Unregistered

  /** A wake-up handled as the loop's switch says, on the result the wait
      gives: the lowest raised event, or the failure value. */
  ghost predicate WellServed(e: Entry) {
    && e.Served?
    && e.action == Dispatch(e.index)
    && (e.index == WaitFailedResult || (e.signalled != {} && e.index == Lowest(e.signalled)))
  }

  /** Wake-ups that each ran one hook and kept the loop going. */
  ghost predicate HooksRun(log: seq<Entry>) {
    forall k :: 0 <= k < |log| ==> WellServed(log[k]) && log[k].action.Run?
  }

  /** The wake-up that ended the loop and the code the thread returns for
      it: S_OK for the halt event, E_FAIL for anything else. */
  ghost predicate Ending(e: Entry, hr: HResult) {
    && WellServed(e)
    && !e.action.Run?
    && hr == (if e.action == Close then Ok else EFail)
  }

  /** A thread that got past start-up: ImplInitialize first, then hooks,
      and, once it has returned, the ending wake-up and the unregistration
      last. A crashed thread ends with the step that crashed it. */
  ghost predicate Life(log: seq<Entry>, exit: Exit) {
    && |log| >= 1 && log[0] == Initialized
    && (!exit.Returned? ==> HooksRun(log[1..]))
    && (exit.Returned? ==>
          && |log| >= 3
          && HooksRun(log[1..|log| - 2])
          && Ending(log[|log| - 2], exit.hr)
          && log[|log| - 1] == Unregistered)
  }

  /** In such a life ImplInitialize runs exactly once, before any
      wake-up; the registration is withdrawn only at the end and only
      once; and no hook runs after the wake-up that ends the loop. */
  lemma {:induction false} LifeOrder(log: seq<Entry>, exit: Exit)
    requires Life(log, exit)
    ensures forall k :: 1 <= k < |log| ==> log[k] != Initialized
    ensures forall k :: 0 <= k < |log| && log[k] == Unregistered ==> exit.Returned? && k == |log| - 1
    ensures forall k :: 1 <= k < |log| && log[k].Served? && !log[k].action.Run? ==>
      exit.Returned? && k == |log| - 2
  {
    if !exit.Returned? {
      forall k | 1 <= k < |log|
        ensures log[k].Served? && log[k].action.Run?
      {
        assert log[k] == log[1..][k - 1];
      }
    } else {
      forall k | 1 <= k < |log| - 2
        ensures log[k].Served? && log[k].action.Run?
      {
        assert log[k] == log[1..|log| - 2][k - 1];
      }
    }
  }

  /** The loop ends with S_OK exactly when the halt event is what it was
      woken by, and with E_FAIL exactly when the wait failed or reported a
      result outside the wait array. */
  lemma EndingCodes(e: Entry, hr: HResult)
    requires Ending(e, hr)
    ensures hr == Ok <==> e.index == IndexOf(HaltEvent)
    ensures hr == EFail <==> e.index >= |Order|
  {
  }

  /** The signals the platform raises before one wait. */
  method Arrive(engine: StreamEngine, arrivals: seq<Signal>)
    modifies engine`pending
    ensures engine.pending == old(engine.pending) + set k | 0 <= k < |arrivals| :: arrivals[k]
  {
    for j := 0 to |arrivals|
      invariant engine.pending == old(engine.pending) + set k | 0 <= k < j :: arrivals[k]
    {
      engine.Raise(arrivals[j]);
      assert (set k | 0 <= k < j + 1 :: arrivals[k]) == (set k | 0 <= k < j :: arrivals[k]) + {arrivals[j]};
    }
  }

  /** One wait of the loop: the tick's signals are raised, then the wait
      either fails, finds nothing raised (the thread stays blocked), or
      consumes the lowest raised event. `signalled` is the set it chose
      from. */
  method WaitOnce(engine: StreamEngine, t: Tick) returns (woken: bool, index: nat, ghost signalled: set<Signal>)
    modifies engine`pending
    ensures woken ==> index == WaitFailedResult || (signalled != {} && index == Lowest(signalled))
    ensures t.waitFailed ==> woken && index == WaitFailedResult
    ensures !t.waitFailed ==> signalled == old(engine.pending) + set k | 0 <= k < |t.arrivals| :: t.arrivals[k]
    ensures !t.waitFailed ==> (woken <==> signalled != {})
  {
    Arrive(engine, t.arrivals);
    signalled := engine.pending;
    var w := engine.Wait(t.waitFailed);
    woken := !w.Blocked?;
    index := if w.Woken? then w.index else WaitFailedResult;
  }

  /** The checked start-up calls: each runs only if those before it
      succeeded, and the first failure is the code returned. */
  method CheckStartup(startup: Startup) returns (hr: HResult)
    ensures hr == Chain(StartupSteps(startup)).hr
    ensures Failed(hr) <==> !NoneFailed(StartupSteps(startup))
  {
    var steps := StartupSteps(startup);
    hr := startup.comInit;
    if Failed(hr) {
      StopsOnlyAt(steps, 0);
      return;
    }
    hr := startup.enumerator;
    if Failed(hr) {
      StopsOnlyAt(steps, 1);
      return;
    }
    hr := startup.register;
    if Failed(hr) {
      StopsOnlyAt(steps, 2);
      return;
    }
    hr := Ok;
  }

  /** The `while (run)` loop over the given ticks. `served` are the
      wake-ups that ran a hook; once `run` is false, `last` is the wake-up
      that ended the loop and `hr` the code it set. It starts on a stream
      that has not faulted; a hook that faults ends the thread at once: no further wait and no further hook. `waits` is
      the number of ticks used; the loop stops short of the last tick only
      on its ending wake-up or on a fault. */
  method Serve(s: AnyStream, ticks: seq<Tick>)
    returns (run: bool, hr: HResult, ghost served: seq<Entry>, ghost last: Entry, ghost waits: nat)
    requires Valid(s) && ValidTicks(ticks) && !Faulted(s)
    modifies Repr(s)
    ensures Valid(s)
    ensures EngineOf(s).sampleRate == old(EngineOf(s).sampleRate) && EngineOf(s).events == old(EngineOf(s).events)
    ensures HooksRun(served)
    ensures run ==> hr == Ok
    ensures !run ==> Ending(last, hr) && !Faulted(s)
    ensures waits <= |ticks| && (run && !Faulted(s) ==> waits == |ticks|)
  {
    hr := Ok;
    run := true;
    served := [];
    last := Initialized;
    var k := 0;
    while run && k < |ticks| && !Faulted(s)
      invariant 0 <= k <= |ticks|
      invariant Valid(s)
      invariant EngineOf(s).sampleRate == old(EngineOf(s).sampleRate) && EngineOf(s).events == old(EngineOf(s).events)
      invariant HooksRun(served)
      invariant run ==> hr == Ok
      invariant !run ==> Ending(last, hr) && !Faulted(s)
    {
      var t := ticks[k];
      var woken, index, signalled := WaitOnce(EngineOf(s), t);
      if woken {
        var action := Dispatch(index);
        match action
        case Run(hook) =>
          RunHook(s, hook, t.replies, t.nested);
          served := served + [Served(signalled, index, action)];
        case Close =>
          run := false;
          last := Served(signalled, index, action);
        case Error =>
          run := false;
          hr := EFail;
          last := Served(signalled, index, action);
      }
      k := k + 1;
    }
    waits := k;
  }

  /** StreamThreadEntry. A failed start-up call returns its code before
      ImplInitialize or any wait. Otherwise ImplInitialize runs, each tick
      then raises its arrivals and waits once, and a wake-up runs exactly
      the hook the switch picks; the halt event or a failed wait ends the
      loop, after which the registration is withdrawn and the code
      returned. A step that faults crashes the thread where it stands. */
  method StreamThreadEntry(s: AnyStream, startup: Startup, init: Replies, initNested: seq<Replies>, ticks: seq<Tick>)
    returns (exit: Exit, ghost log: seq<Entry>)
    requires Valid(s) && ValidReplies(init) && AllValid(initNested) && ValidTicks(ticks)
    modifies Repr(s)
    ensures Valid(s)
    ensures EngineOf(s).sampleRate == old(EngineOf(s).sampleRate) && EngineOf(s).events == old(EngineOf(s).events)
    ensures !NoneFailed(StartupSteps(startup)) ==> exit == Returned(Chain(StartupSteps(startup)).hr) && log == []
    ensures NoneFailed(StartupSteps(startup)) ==> Life(log, exit)
    ensures exit == Crashed <==> NoneFailed(StartupSteps(startup)) && Faulted(s)
  {
    var hr := CheckStartup(startup);
    if Failed(hr) {
      return Returned(hr), [];
    }
    RunInitialize(s, init, initNested);
    if Faulted(s) {
      return Crashed, [Initialized];
    }
    var run;
    ghost var served, last, waits;
    run, hr, served, last, waits := Serve(s, ticks);
    if Faulted(s) {
      exit := Crashed;
      log := [Initialized] + served;
      assert log[1..] == served;
    } else if run {
      exit := StillRunning;
      log := [Initialized] + served;
      assert log[1..] == served;
    } else {
      // the notification client is unregistered here, once
      exit := Returned(hr);
      log := [Initialized] + served + [last, Unregistered];
      assert log[1..|log| - 2] == served;
    }
  }
}

=== FILE: wrappers.dfy ===
/** A value that may be absent: a nullable pointer or handle of the source. */
module Wrappers {
  datatype Option<+T> = None | Some(value: T)
}
